=== FILE: README.md ===
# Mirage backend collections, in Dafny

This project models the part of the Mirage Matrix client that holds data for
the QML interface, and proves properties of that model.

The centre is the backend's observable sorted collection, `Model`. It keeps:

- a key→item map;
- the same items in a list sorted by the item class's `__lt__`;
- the notifications (`ModelItemSet`, `ModelItemDeleted`, `ModelCleared`) it
  sends to QML whenever its sync id is truthy.

Around it the project also models:

- the field-write path of `ModelItem`, which re-sorts the owning model;
- the per-kind orders of the item classes;
- the proxy models that gather several sources under `(source sync id, key)`.

It also models four smaller pure pieces:

- the member-event classifier and the history-visibility wording of the nio
  callbacks;
- the QML helpers in `utils.js`;
- the host/port split and the typing-notice throttle of the Qt-side client.

Layout:

| file | module | contents |
|---|---|---|
| wrappers.dfy | `Wrappers` | `Option`, `Result`, and the Python exceptions the code raises |
| orders.dfy | `Orders` | strict weak orders, `list.insert`/`del`, `bisect_right`, `insort`, stable sorting as repeated `insort` |
| model.dfy | `Models` | `Model` and its operations; the notification replay that checks what QML sees |
| model_item.dfy | `ModelItems` | `__setattr__` and `__delattr__` of an item held in a model |
| text.dfy | `Text` | Python string `<`, ASCII `lower()`, `or` on strings |
| items.dfy | `Items` | `Account`, `Room`, `Member`, `Event`, `Upload`, `AccountOrRoom` and their `__lt__` |
| aggregators.dfy | `Aggregators` | `ModelProxy` and `AccountRooms` |
| member_events.dfy | `MemberEvents` | `process_room_member_event` and the history-visibility text |
| qml_utils.dfy | `QmlUtils` | `filterMatches`, `thumbnailParametersFor`, `arrayToModelItem`, `hueFrom`, `eventIsMessage`, `escapeHtml` |
| client.dfy | `Client` | `Client.__init__`'s host and port, `setTypingState` |

The model is generic. `Model<K, T>` has three parts:

- `data`, the dict;
- `insertion`, the dict's key order;
- `sorted`, the sorted list, held as `(key, item)` entries.

A `Schema<T, V>` supplies what the collection asks of its item class: `lt`,
the dataclass field names, and reading and writing a field by name. Every
operation is a pure function from a model to a `Step`, which pairs the new
model with the notifications emitted. Operations that raise return
`Result.Failure` with the exception.

`Consistent(m)` is the representation invariant:

- `sorted` holds each `(key, data[key])` exactly once and nothing else;
- `insertion` lists the keys of `data` without repeats.

`Ordered` says `sorted` is sorted under `lt`. `Replay` applies notifications,
as QML does, to a list of per-item field views. The "replays" lemmas show
that QML's copy of the list, after the notifications, equals the view of the
new sorted list.

Points where the code behaves in ways a reader might not expect; the model
follows the code in each:

- A fresh key's `ModelItemSet` carries `index_then = None`, and every field
  is listed as changed (model.py:86, 70-77).
- Deleting a key the model does not hold raises `KeyError` (model.py:109).
- `clear()` goes through `MutableMapping.clear`. That deletes the keys one
  at a time, in insertion order, each with its own `ModelItemDeleted`, and
  only then sends `ModelCleared` (model.py:133-136).
- `ModelItemSet` is imported from `pyotherside_events.py`, but that file
  does not define it. Its shape is taken from the two call sites
  (model.py:102-104, model_item.py:49-54).
- Items of a model with a falsy sync id never get a `parent_model`. A later
  field write on such an item is a plain attribute write that does not
  re-sort. This can leave the model out of order; `SetFieldUnsyncedUnsorts`
  exhibits it.
- Under `AccountOrRoom.__lt__`, an account row is less than itself,
  because `NoRoom() < NoRoom()` is true (`AccountRowBeforeItself`). So that
  order is not a strict weak order. The model states the properties
  `AccountOrRoom` sorting actually relies on (`AccountRowFirst`,
  `AccountOrRoomByParts`) and does not claim the collection stays sorted
  under it.
- `source_cleared` iterates `self.copy()`, and `copy` rebuilds the proxy by
  calling its class with `sync_id=None`. `AccountRooms.__init__` takes only
  the backend, so on `AccountRooms` this raises `TypeError` for every source
  it accepts (`AccountRoomsClearRaises`; see Findings).
- The proxy registry `Model.proxies` is not defined in model.py; the model
  assumes it is a dict defined elsewhere, keyed by sync id. Nothing in
  model.py forwards changes to proxies.

## Model

| member | source | states |
|---|---|---|
| Models.Get | src/backend/models/model.py:57-58 | indexing returns the stored item, and raises `KeyError` exactly when the key is absent |
| Models.Empty | src/backend/models/model.py:32-36 | a new model holds no items, its dict, key order and sorted list all empty, and is consistent |
| Models.Len | src/backend/models/model.py:124-125 | the length is the number of sorted entries and of keys in insertion order |
| Models.Set | src/backend/models/model.py:61-104 | after `model[key] = value` the model is still consistent; `data` maps `key` to the new item and nothing else changes; a fresh key is appended to the insertion order |
| Models.SetPlacement | src/backend/models/model.py:86-93 | the new entry stands at one position of the sorted list, and removing it leaves the old list without the key's previous entry |
| Models.SetIsInsort | src/backend/models/model.py:86-93 | the sorted list after a set is the old list without the key's previous entry, with the new entry bisect-inserted |
| Models.SetFreshInsorts | src/backend/models/model.py:86-93 | for a fresh key, the sorted list is the old list with the new entry bisect-inserted |
| Models.SetKeepsOrder | src/backend/models/model.py:92-93 | under a strict weak order a sorted model stays sorted; the new item comes after every item not greater than it and before every greater one |
| Models.ChangedFields | src/backend/models/model.py:68-77 | a field is listed, with the new item's value, exactly when there is no previous item or the field's value differs from it |
| Models.SetEmits | src/backend/models/model.py:101-104 | at most one notice; none with a falsy sync id; always one for a fresh key; for an existing key none exactly when the position and every field are unchanged |
| Models.SetEventContents | src/backend/models/model.py:86-104 | the notice is a `ModelItemSet` with the model's sync id, `index_then` the old position (`None` for a fresh key), `index_now` the new item's position, and exactly the changed fields with their new values |
| Models.SetSilent | src/backend/models/model.py:101 | when a replace sends nothing, the view QML holds is already the view of the new list |
| Models.SetReplays | src/backend/models/model.py:86-104 | replaying the set's notices on the view of the old list gives the view of the new list |
| Models.PatchChanged | src/backend/models/model.py:68-77 | patching the old item's view (or an empty one) with the changed fields gives the new item's view |
| Models.Delete | src/backend/models/model.py:107-117 | `del model[key]` raises `KeyError` exactly when the key is absent; otherwise the key leaves `data` and the insertion order, the list shrinks by one and the model stays consistent |
| Models.DeleteRemovesEntry | src/backend/models/model.py:113-114 | the sorted list after a delete is the old one without the key's entry, and sortedness is kept |
| Models.DeleteNotifies | src/backend/models/model.py:113-117 | a delete sends one `ModelItemDeleted` carrying the entry's position before removal when the sync id is truthy, and nothing otherwise |
| Models.DeleteTwice | src/backend/models/model.py:107-111 | deleting the same key twice raises `KeyError` the second time |
| Models.DeleteReplays | src/backend/models/model.py:113-117 | replaying the delete notice gives the view of the new list |
| Models.DeleteKeys | src/backend/models/model.py:107-117 | deleting a list of distinct present keys one by one removes exactly those keys and sends one notice per key when the sync id is truthy |
| Models.DeleteKeysKeeps | src/backend/models/model.py:113-114 | after deleting a list of keys, the sorted list is the old one with those keys' entries filtered out, others in their old order |
| Models.DeleteKeysNotifies | src/backend/models/model.py:116-117 | every notice of a multi-delete is a `ModelItemDeleted` for the model's sync id |
| Models.DeleteKeysReplays | src/backend/models/model.py:113-117 | a multi-delete keeps sortedness, and replaying its notices gives the view of the new list |
| Models.Clear | src/backend/models/model.py:133-136 | `clear()` leaves the empty model with the same sync id; with a truthy sync id it sends one `ModelItemDeleted` per item and then one `ModelCleared`, otherwise nothing |
| Models.ClearReplays | src/backend/models/model.py:133-136 | replaying the notices of `clear()` leaves QML with an empty list |
| Models.Copy | src/backend/models/model.py:139-142 | `copy(sync_id)` has the same data and key order under the given sync id, and is silent when that sync id is falsy |
| Models.CopySorted | src/backend/models/model.py:139-142 | the copy's sorted list is the original entries sorted in insertion order, and it is sorted under a strict weak order |
| Models.SetAll | src/backend/models/model.py:139-142 | the `update` inside `copy`: setting each fresh key in turn keeps the model consistent, appends the keys to the insertion order, and leaves the data the union of old and new |
| Models.SetAllSilent | src/backend/models/model.py:81-104 | filling a model whose sync id is falsy sends no notices |
| Orders.BisectRightCorrect | src/backend/models/model.py:92 | on a sorted list, `bisect` returns the position after every element not greater than the item and before every greater one |
| Orders.InsortPlaces | src/backend/models/model.py:92-93 | inserting at the bisect position keeps the list sorted, with the item placed after its equals |
| Orders.SortSeqSorted | src/backend/models/model_item.py:44 | sorting gives a sorted list under a strict weak order |
| Orders.SortSeqOfSorted | src/backend/models/model_item.py:44 | sorting an already sorted list changes nothing |
| Orders.ResortIsMove | src/backend/models/model_item.py:38-47 | re-sorting a sorted list after changing one element moves that element to one new position and leaves the rest in order |
| ModelItems.SetField | src/backend/models/model_item.py:28-54 | `item.name = value` raises `AttributeError` only on an attached item and only for a name the item does not have, which in this model is any name that is neither a dataclass field nor `parent_model`; otherwise the model stays consistent with the same sync id and key order, and its data is unchanged or has only that item's field written |
| ModelItems.SetFieldWrites | src/backend/models/model_item.py:31-39 | after a write the item reads the new value in that field and its other fields are unchanged |
| ModelItems.SetFieldNotifies | src/backend/models/model_item.py:35-54 | a write sends at most one notice, and sends one exactly when the sync id is truthy, the name is not `parent_model` and the value differs |
| ModelItems.SetFieldEvent | src/backend/models/model_item.py:41-54 | the notice is a `ModelItemSet` from the item's old position to its new one, carrying only the written field's new value |
| ModelItems.SetFieldPermutes | src/backend/models/model_item.py:38-47 | a write keeps the size, and the new sorted list is a permutation of the old one with the item updated |
| ModelItems.SetFieldSynced | src/backend/models/model_item.py:31-54 | with a truthy sync id the item is attached, so the write takes the re-sorting path |
| ModelItems.SetFieldResorted | src/backend/models/model_item.py:31-54 | the attached write: nothing for `parent_model`, an absent item or an equal value; `AttributeError` for a name the item does not have (neither a dataclass field nor `parent_model`); otherwise only that item's field is written, and the model stays consistent |
| ModelItems.SetFieldResortedKeepsOrder | src/backend/models/model_item.py:44 | the re-sorting write keeps a sorted model sorted |
| ModelItems.SetFieldKeepsOrder | src/backend/models/model_item.py:38-47 | in a model with a truthy sync id, every field write keeps the model sorted |
| ModelItems.SetFieldMoves | src/backend/models/model_item.py:41-54 | a changing write sends one notice, and the new list is the old list with the item moved from `index_then` to `index_now` |
| ModelItems.SetFieldReplays | src/backend/models/model_item.py:38-54 | replaying the write's notices gives the view of the new list |
| ModelItems.PatchOneField | src/backend/models/model_item.py:49-54 | patching the old item's view with the one written field gives the new item's view |
| ModelItems.SetFieldUnsyncedUnsorts | src/backend/models/model_item.py:31-33 | in a model with a falsy sync id, a write that makes the item greater than its successor leaves the model unsorted |
| ModelItems.DelField | src/backend/models/model_item.py:57-58 | deleting an attribute always raises `NotImplementedError` |
| Text.LexOrder | src/backend/models/items.py:118-122 | Python string `<` is irreflexive, transitive and total on distinct strings |
| Text.Lower | src/backend/models/items.py:120-122 | `str.lower()`, for ASCII letters: same length, each upper-case letter moved down by 32, every other character kept |
| Text.LowerIdempotent | src/backend/models/items.py:120-122 | lower-casing twice is lower-casing once |
| Items.AccountLt | src/backend/models/items.py:118-122 | `Account.__lt__`: Python string `<` on the lower-cased display name, or on the id without its first character when the name is empty |
| Items.AccountOrder | src/backend/models/items.py:118-122 | the account order is a strict weak order |
| Items.AccountLtCaseInsensitive | src/backend/models/items.py:118-122 | accounts compare by lower-cased display name |
| Items.AccountFallsBackToId | src/backend/models/items.py:119-120 | with an empty display name an account compares by its id without the first character, whatever that character is |
| Items.RoomLt | src/backend/models/items.py:163-185 | `Room.__lt__`: rooms not left come first; then the inviter ids and the last event dates compare in reverse, so a room with an inviter and a newer last event comes first; then the lower-cased name, or id when the name is empty |
| Items.RoomOrder | src/backend/models/items.py:163-185 | the room order is a strict weak order |
| Items.RoomTie | src/backend/models/items.py:174-185 | two rooms are tied exactly when their left flag, inviter, last event date and lower-cased name agree |
| Items.RoomJoinedBeforeLeft | src/backend/models/items.py:174-185 | a room not left comes before a left room |
| Items.RoomInvitedFirst | src/backend/models/items.py:174-185 | with the same left flag, a room with an inviter comes before one without |
| Items.RoomRecentFirst | src/backend/models/items.py:178-184 | then a more recent last event comes first, and equal dates compare by lower-cased name |
| Items.MemberLt | src/backend/models/items.py:200-210 | `Member.__lt__`: members not invited come first, then the higher power level, then the lower-cased name, or the id without its first character when the name is empty |
| Items.MemberOrder | src/backend/models/items.py:200-210 | the member order is a strict weak order |
| Items.MemberTie | src/backend/models/items.py:200-210 | two members are tied exactly when invited flag, power level and lower-cased name agree |
| Items.MemberPrecedence | src/backend/models/items.py:200-210 | non-invited members come first, then higher power level, then name |
| Items.EventLt | src/backend/models/items.py:291-294 | `Event.__lt__`: the later date first |
| Items.EventOrder | src/backend/models/items.py:291-294 | the event order is a strict weak order |
| Items.EventsNewestFirst | src/backend/models/items.py:291-294 | a sorted event list has non-increasing dates |
| Items.UploadLt | src/backend/models/items.py:241-244 | `Upload.__lt__`: the later start date first |
| Items.UploadOrder | src/backend/models/items.py:241-244 | the upload order is a strict weak order |
| Items.UploadsNewestFirst | src/backend/models/items.py:241-244 | a sorted upload list has non-increasing start dates |
| Items.AccountOrRoomLt | src/backend/models/items.py:97-104 | `AccountOrRoom.__lt__`: compares (account, room or `NoRoom()`), where two `NoRoom()` never compare equal |
| Items.AccountRowFirst | src/backend/models/items.py:97-104 | an account's own row comes before each of its room rows, and not after |
| Items.AccountOrRoomByParts | src/backend/models/items.py:97-104 | rows of different accounts compare by account; room rows of the same account compare by room |
| Items.AccountRowBeforeItself | src/backend/models/items.py:26-28 | an account row is less than itself |
| Items.FromItem | src/backend/models/items.py:62-94 | an account gives a row with no room and the account's fields; a room gives a row under the account it belongs to, with the room's fields; a room of an unknown account raises `KeyError` |
| Items.FromItemAccountFirst | src/backend/models/items.py:62-104 | an account's row sorts before the rows of its rooms |
| Aggregators.DefaultHooks | src/backend/models/aggregators.py:20-25 | by default every source is accepted and items pass unchanged |
| Aggregators.NewProxy | src/backend/models/aggregators.py:15-17 | a new proxy is empty, has its sync id, and is registered under it in the proxy registry (a dict assumed to be defined outside model.py) without touching other entries |
| Aggregators.SourceItemSet | src/backend/models/aggregators.py:36-38 | an accepted source's item is converted and stored under `(source, key)`; conversion errors propagate; a refused source changes nothing |
| Aggregators.SourceItemDeleted | src/backend/models/aggregators.py:41-43 | an accepted source's key `(source, key)` is removed, or `KeyError` when absent; a refused source changes nothing |
| Aggregators.SetThenDelete | src/backend/models/aggregators.py:36-43 | storing an item and deleting it again restores the data |
| Aggregators.SourceCleared | src/backend/models/aggregators.py:46-50 | as intended, clearing an accepted source removes exactly that source's entries and keeps every other entry unchanged; a refused source changes nothing |
| Aggregators.SourceClearedAsWritten | src/backend/models/aggregators.py:46-50 | as written, the clear raises `TypeError` exactly when the source is accepted and the proxy's class cannot be rebuilt with `sync_id`; otherwise it is the intended clear |
| Aggregators.AccountRoomsClearRaises | src/backend/models/aggregators.py:54-56 | clearing "accounts" or any `(user, "rooms")` source of `AccountRooms` raises `TypeError` |
| Aggregators.ProxyClearAsIntended | src/backend/models/model.py:139-142 | a plain `ModelProxy` can be copied, so its clear as written is the intended one |
| Aggregators.SourceClearedDeletes | src/backend/models/aggregators.py:46-50 | clearing a source is deleting exactly that source's keys, each once |
| Aggregators.SourceClearedKeepsOthers | src/backend/models/aggregators.py:46-50 | after clearing a source, the sorted list is the other sources' entries in their old order |
| Aggregators.SourceClearedReplays | src/backend/models/aggregators.py:46-50 | clearing a source sends only deletes, and replaying them gives the view of the new list |
| Aggregators.ConvertedIndex | src/backend/models/aggregators.py:28-33 | returns the first position whose item has the id, and raises `ValueError` exactly when none does |
| Aggregators.AccountRoomsSources | src/backend/models/aggregators.py:59-65 | accepted sources are exactly "accounts" and the pairs `(user, "rooms")` |
| Aggregators.AccountRoomsAccept | src/backend/models/aggregators.py:59-65 | `AccountRooms.accept_source`; `AccountRoomsSources` states its accepted sources exactly |
| Aggregators.AccountRoomsHooks | src/backend/models/aggregators.py:53-72 | `AccountRooms`' accept, convert and its constructor that takes no `sync_id`; `AccountRoomsSetAccount`, `AccountRoomsSetRoom`, `AccountRoomsRejectsOthers` and `AccountRoomsClearRaises` state what it gives |
| Aggregators.AccountRoomsConvert | src/backend/models/aggregators.py:68-72 | accounts and rooms are converted by `from_item`; anything else raises `TypeError` |
| Aggregators.NewAccountRooms | src/backend/models/aggregators.py:54-56 | the account-rooms proxy is empty and registered as "account_rooms" in the same assumed registry, other entries untouched |
| Aggregators.AccountRoomsSetAccount | src/backend/models/aggregators.py:68-72 | an account from "accounts" is stored as its own row with no room |
| Aggregators.AccountRoomsSetRoom | src/backend/models/aggregators.py:68-72 | a room from `(user, "rooms")` is stored under its account, or raises `KeyError` when that account is unknown |
| Aggregators.AccountRoomsRejectsOthers | src/backend/models/aggregators.py:68-72 | any other item from an accepted source raises `TypeError` |
| Aggregators.AccountRoomsDelete | src/backend/models/aggregators.py:41-43 | deleting a key of a `(user, "rooms")` source removes exactly its row, or raises `KeyError` when the proxy has none |
| MemberEvents.ProcessMemberEvent | src/backend/nio_callbacks.py:259-342 | the skipped counter stays or rises by one, and only with no text; the profile is rewritten only for the own account, for a newer profile change; only that lookup can raise `KeyError` |
| MemberEvents.UnchangedIsSilent | src/backend/nio_callbacks.py:259-260 | identical content gives no text and skips nothing |
| MemberEvents.HiddenMembershipSkipped | src/backend/nio_callbacks.py:271-274 | with membership events hidden, a membership change gives no text and skips exactly one |
| MemberEvents.JoinText | src/backend/nio_callbacks.py:278-284 | a join reads "accepted their invitation" exactly after an invite, else "joined the room" |
| MemberEvents.SelfLeaveText | src/backend/nio_callbacks.py:276-296 | leaving oneself reads "declined their invitation" after an invite, else "left the room", plus the reason suffix only when a reason is given |
| MemberEvents.OtherLeaveText | src/backend/nio_callbacks.py:298-308 | removing someone else reads "withdrew" after an invite, "unbanned" after a ban, else "kicked out", with the reason suffix |
| MemberEvents.InviteAndBanText | src/backend/nio_callbacks.py:286-311 | invite and ban texts, the ban with the reason suffix |
| MemberEvents.MembershipText | src/backend/nio_callbacks.py:276-311 | the line for a membership change, chosen by the new membership, the previous one and whether the sender is the target |
| MemberEvents.ReasonSuffix | src/backend/nio_callbacks.py:276 | the suffix is non-empty exactly when a non-empty reason is present |
| MemberEvents.ProfileChangesOrder | src/backend/nio_callbacks.py:314-323 | one change per differing avatar and display name, the picture first and the name change last, names falling back to the state key |
| MemberEvents.ProfileChanges | src/backend/nio_callbacks.py:312-323 | at most two changes, and none without a previous content; `ProfileChangesOrder` states which and in what order |
| MemberEvents.ProfileChangeText | src/backend/nio_callbacks.py:325-342 | any member's profile change, the own one included when the own account is known, when shown is a `ProfileChange` with the changes joined by " and " and leaves the skipped counter alone; another member's change touches no account |
| MemberEvents.WellFormedMembershipChanged | src/backend/nio_callbacks.py:264-271 | for an event whose memberships are read from its contents, the membership branch is taken exactly when there is no previous content or the two `membership` values differ |
| MemberEvents.WellFormedUnchangedContent | src/backend/nio_callbacks.py:259-271 | for such an event with a non-empty previous content equal to the new one, the membership branch is not taken |
| MemberEvents.ProfileWrite | src/backend/nio_callbacks.py:325-333 | the own account is overwritten exactly when the event is strictly newer, with the new name and avatar or "" when missing; a missing account raises `KeyError` |
| MemberEvents.OwnProfileOverwrite | src/backend/nio_callbacks.py:325-337 | for the own account, the profile is rewritten exactly when the event is newer, whether or not the change is shown |
| MemberEvents.VisibleTo | src/backend/nio_callbacks.py:227-241 | the audience phrase for each of the four known visibilities, "???" for any other |
| MemberEvents.HistoryVisibilityText | src/backend/nio_callbacks.py:236-241 | an unknown visibility reads "???" |
| MemberEvents.HistoryVisibilityDistinct | src/backend/nio_callbacks.py:227-241 | the four known visibilities give four different phrases, none of them the unknown one |
| QmlUtils.IndexOf | src/qml/utils.js:108-120 | the substring search returns -1 exactly when the word does not occur, else its first occurrence |
| QmlUtils.SplitJoin | src/qml/utils.js:112 | splitting the filter on spaces and joining again gives it back |
| QmlUtils.Split | src/qml/utils.js:112 | `split(" ")` gives at least one piece and no piece holds the separator; `SplitJoin` shows joining the pieces gives the text back |
| QmlUtils.FilterMatches | src/qml/utils.js:108-120 | true exactly when every non-empty word of the lower-cased filter occurs in the lower-cased text, lowering ASCII letters |
| QmlUtils.BlankFilterMatches | src/qml/utils.js:108-120 | an empty or all-space filter matches any text |
| QmlUtils.OneWordFilter | src/qml/utils.js:108-120 | a one-word filter matches exactly when the word occurs in the text, ignoring ASCII case |
| QmlUtils.ThumbnailParametersFor | src/qml/utils.js:123-139 | crops exactly for images within 96×96; except for the top tier the thumbnail covers the image; anything above 640×480 gets 800×600 |
| QmlUtils.ThumbnailMonotone | src/qml/utils.js:123-139 | a larger image never gets a smaller thumbnail |
| QmlUtils.ThumbnailSmallestCover | src/qml/utils.js:123-139 | the chosen tier is no larger than any tier that covers the image |
| QmlUtils.ArrayToModelItem | src/qml/utils.js:16-27 | one object per element, in order, each with the one key holding that element |
| QmlUtils.ArrayToModelItemRoundTrip | src/qml/utils.js:16-27 | reading the key back from each object gives the input array |
| QmlUtils.CodeUnits | src/qml/utils.js:32 | a character below U+10000 is one UTF-16 code unit; above, a high and a low surrogate that decode back to the character |
| QmlUtils.HueDegrees | src/qml/utils.js:30-37 | the loop adds 99 times each UTF-16 code unit of the text, as `charCodeAt` reads them, and the degrees are that sum mod 360, in [0, 360) |
| QmlUtils.HueSumConcat | src/qml/utils.js:30-37 | the sum over a concatenation is the sum of the parts' sums |
| QmlUtils.HueOfAstral | src/qml/utils.js:32 | an emoji outside the basic plane counts as its two surrogates: U+1F600 gives 351 degrees |
| QmlUtils.HueSwap | src/qml/utils.js:30-37 | the hue of a concatenation does not depend on the order of its parts |
| QmlUtils.EventIsMessage | src/qml/utils.js:78-80 | a message type starts with "RoomMessage" |
| QmlUtils.EventIsMessageShape | src/qml/utils.js:78-80 | a type is a message exactly when it is "RoomMessage" followed by nothing or an upper-case letter |
| QmlUtils.EscapeHtmlFirstOnlyLeavesTag | src/qml/utils.js:68-75 | as written, escaping "<<" leaves the second "<" |
| QmlUtils.ReplaceFirst | src/qml/utils.js:68 | `String.replace` with a string pattern: text without the character is returned unchanged; `ReplaceFirstOnce` and `ReplaceFirstCount` state the rest |
| QmlUtils.ReplaceFirstOnce | src/qml/utils.js:68 | where the character occurs at most once, replacing its first occurrence is replacing all of them |
| QmlUtils.ReplaceFirstCount | src/qml/utils.js:68 | replacing the first occurrence removes exactly one of that character and keeps the count of every other character the replacement lacks |
| QmlUtils.EscapeHtmlFirstOnly | src/qml/utils.js:66-73 | `escapeHtml` as written, the five first-only replacements in order; `EscapeHtmlFirstOnlyLeavesTag`, `EscapeHtmlFirstOnlyOnce` and `EscapeHtmlFirstOnlyCounts` state what it does |
| QmlUtils.EscapeHtml | src/qml/utils.js:68-75 | the escape as intended leaves no `<`, `>`, `"` or `'` |
| QmlUtils.EscapeHtmlRoundTrip | src/qml/utils.js:68-75 | unescaping the escaped text gives the original |
| QmlUtils.ReplaceAllFiveEscapes | src/qml/utils.js:68-75 | the five replacements, each applied to every occurrence in the source's order, are the intended escape |
| QmlUtils.EscapeHtmlFirstOnlyOnce | src/qml/utils.js:68-75 | as written, the escape is the intended one on every text where no special character occurs twice |
| QmlUtils.EscapeHtmlFirstOnlyCounts | src/qml/utils.js:68-75 | as written, the escape removes exactly one occurrence of each of `<`, `>`, `"` and `'` that occurs at all, so every second one survives |
| Client.ParseInt | harmonyqml/backend/client.py:44 | `int()` on the empty string raises `ValueError`, like any text that is not a signed decimal |
| Client.ParseShowNat | harmonyqml/backend/client.py:44 | `int()` reads back the decimal digits of a natural number |
| Client.HostPort | harmonyqml/backend/client.py:42-44 | without ":" the host is the whole text and the port 443; the host never contains ":"; a bad port raises `ValueError` |
| Client.SplitColon | harmonyqml/backend/client.py:42 | `host, *port = hostname.split(":")`: the host holds no ":", is the whole text when there is none, and some piece follows when there is one |
| Client.Pieces | harmonyqml/backend/client.py:42 | `split(":")` gives at least one piece, the first without ":", and the text itself when it has no ":" |
| Client.SplitColonJoin | harmonyqml/backend/client.py:42 | splitting `host + ":" + tail` gives back the host and the pieces of the tail |
| Client.PiecesHead | harmonyqml/backend/client.py:44 | the first piece of `a + ":" + b` is `a`, which is what `port[0]` reads |
| Client.HostPortRoundTrip | harmonyqml/backend/client.py:42-44 | "host:port" splits back into the host and the port |
| Client.HostPortIgnoresLaterPieces | harmonyqml/backend/client.py:42-44 | only the piece after the first ":" is the port |
| Client.SetTypingState | harmonyqml/backend/client.py:174-191 | when sent, the request has a 5000 ms timeout and the room's record becomes `(typing, now)`; otherwise the record is unchanged |
| Client.TypingSentWhen | harmonyqml/backend/client.py:176-182 | "typing" is sent exactly when 4 s have passed since the room's last record; "stopped" exactly when the last record was "typing" |
| Client.TypingThrottled | harmonyqml/backend/client.py:181-191 | two "typing" notices for one room are never sent less than 4 s apart |
| Client.FreshRoomStopIsSilent | harmonyqml/backend/client.py:64-65 | a room with no record starts at "not typing", so stopping sends nothing |
| Client.TypingOtherRoomsKept | harmonyqml/backend/client.py:184 | other rooms' records are not touched |

## Left out

- The write lock of `Model`, and concurrency in general: each operation is one atomic step.
- `blist` and the `bisect` module are modelled by their contracts: a sorted list with right-bisect insertion. Python's stable `list.sort()` is modelled as insertion sort with right bisection; under a strict weak order both give the same result.
- `Model.__lt__` (ordering models by the text of their sync id), `__iter__`, `__repr__` and `__str__`: they are not part of the collection's behaviour.
- The PyOtherSide transport: a notification is a value in the returned list. The `serialize_field` encoding of field values is not modelled. A field value is reported as it is.
- The proxy registry `Model.proxies`: no file modelled here defines it, so it is assumed to be a dict keyed by sync id, defined elsewhere. Nothing in model.py forwards a change to a proxy; the proxy handlers are operations that take the source's sync id as a parameter.
- Aggregators.SourceClearedAsWritten: for a plain `ModelProxy`, the copy re-runs `ModelProxy.__init__`, which overwrites the registry entry for `None`; that side effect is not modelled.
- ModelItems.SetField: only dataclass fields and `parent_model` are modelled as attributes. Writes to an item's methods and properties are not modelled: writing `serialize_field` on an attached item re-sorts and then raises `TypeError` when the notice is built, and writing the read-only `serialized` property raises `AttributeError` even on a detached item.
- ModelItems.SetFieldResorted: the same restriction to dataclass fields and `parent_model` as `SetField`.
- Aggregators.SourceItemSet: a plain `ModelProxy` stores the source's own item object, because its `convert_item` is the identity, and `__setitem__` then makes the proxy that item's `parent_model` (model.py:81-82). After that, a field write to the item re-sorts and notifies only the proxy, leaving the source model unsorted and silent. The model keeps the two models' items apart and does not model this.
- QmlUtils.ThumbnailParametersFor: width and height are integers. JavaScript numbers can also be fractional, `NaN` or `undefined`; with `NaN` or `undefined` every comparison is false, so the source falls through to the 32×32 crop. Those inputs are not modelled.
- Object identity, which the model replaces by keys: `list.index(existing)` and `index(self)` find an item by dataclass `==` or identity (model.py:89, model_item.py:42-47), while the model finds the entry by its key. Equal items under two keys can therefore differ. A `copy` with a truthy sync id also gives the shared items a new `parent_model` (model.py:81-82), and a replaced item keeps its `parent_model`, so a later write to it raises `ValueError` from `index(self)`. Neither is modelled. Because the `AccountOrRoom` order is not a strict weak order, the insertion-sort re-sort can differ from `blist.sort` there. Every `datetime` field is an `int` timestamp.
- Models.Delete: does not model that `__delitem__` also resets the item's `parent_model`. The model identifies items by key, not by object identity.
- Items.AccountOrRoomLt: `NoRoom()` objects are modelled as `None`. Two `NoRoom()` objects are never equal, because they have no `__eq__`; the model writes that case out and does not model object identity otherwise.
- Items: the `Device` class is unused. `Event.parse_links` and `serialize_field` depend on `lxml` and JSON.
- Text.Lower: only ASCII letters are lower-cased; the full Unicode case mapping of Python's `str.lower()` and JavaScript's `toLowerCase()` is not modelled.
- QmlUtils.FilterMatches: lowers only ASCII letters, while `toLowerCase()` is full Unicode, so for text with non-ASCII letters it is weaker than the source.
- QmlUtils.OneWordFilter: ignores ASCII case only, for the same reason.
- Client.ParseInt: accepts only ASCII digits. Python's `int()` also allows surrounding whitespace, digit-group underscores and the decimal digits of other scripts ("٤٤٣" is 443), so the model is weaker than the source on those inputs.
- MemberEvents.WellFormed: the event's `membership` and `prev_membership` come from the Matrix client library, which reads them from the contents. The operations take the two fields as given and do not require `WellFormed`; only the two lemmas named after it assume it.
- MemberEvents.ProcessMemberEvent: the account write goes through `ModelItem.__setattr__` in the source. Here it returns the new `Account` instead. The warning logged for an unknown member event is not modelled.
- MemberEvents: dates are server timestamps in milliseconds (`int`), not `datetime` objects. Content values are strings; JSON values of other types are not modelled.
- Client.SetTypingState: the source reads the clock (`time.time()`) twice. The model passes one `now` in milliseconds, so it does not model the clock moving between the test and the stored time. The network request is returned as a value.
- QmlUtils.HueDegrees: `hueFrom` divides the degrees by 360 as a float; only the integer degrees are modelled.
- The colour helpers (`hsl`, `hsla`, `avatarColor`, `nameColor`, `coloredNameHtml`) and `translatedEventContent` of `utils.js`: they are string formatting around Qt calls.
- `backend.py`, `main.cpp`, `list_model_map.py` and the rest of the nio callbacks: they are I/O and Qt glue.

## Findings

| source | as written | input that shows it | evidently intended | confidence | as-written member | corrected member |
|---|---|---|---|---|---|---|
| src/qml/utils.js:68-75 | `escapeHtml` calls `String.replace` with a string pattern, which replaces only the first occurrence of each special character | `"<<"` becomes `"&lt;<"`, which still contains `<` | every `&`, `<`, `>`, `"` and `'` is replaced by its entity | high, not executed | QmlUtils.EscapeHtmlFirstOnlyCounts | QmlUtils.EscapeHtml |
| src/backend/models/aggregators.py:46-50 | `source_cleared` iterates `self.copy()`, and `copy` calls `type(self)(sync_id=None)`; `AccountRooms.__init__` takes only `backend` | clearing the "accounts" model raises `TypeError` on `AccountRooms` | the accepted source's rows are deleted | high, not executed | Aggregators.AccountRoomsClearRaises | Aggregators.SourceCleared |

=== FILE: aggregators.dfy ===
/** Proxy models that aggregate other models
    (src/backend/models/aggregators.py).

    A proxy is itself a model. It files every item of an accepted source
    model under the key `(source sync id, key in the source)`, after
    passing it through its `convert_item`. The source models do not call
    the proxy here: each handler is an operation applied to the proxy.
 */
module Aggregators {
  import opened Wrappers
  import opened Orders
  import opened Models
  import opened Items

  /** A proxy's key: the source model's sync id and the key in that model. */
  type ProxyKey<K> = (Option<SyncId>, K)

  /** What a proxy class decides for itself: `accept_source`, which here
      sees the source's sync id; `convert_item`, which may raise; and
      whether its constructor takes the `sync_id` keyword that
      `Model.copy` passes when it rebuilds a model of the same class. */
  datatype Hooks<!S, T> = Hooks(accept: Option<SyncId> -> bool, convert: S -> Result<T>, copyable: bool)

  /** `ModelProxy`'s own hooks: accept every source, keep items as they are. */
  function DefaultHooks<T(!new)>(): (h: Hooks<T, T>)
    ensures forall id :: h.accept(id)
    ensures forall x :: h.convert(x) == Success(x)
    ensures h.copyable
  {
    Hooks(_ => true, x => Success(x), true)
  }

  /** `ModelProxy.__init__`: a new empty proxy, registered under its own
      sync id in `Model.proxies`. `Model` as modelled here defines no such
      table; it is taken to be a dict kept elsewhere, passed in and
      returned. */
  function NewProxy<K(==), T>(registry: map<SyncId, Model<ProxyKey<K>, T>>, syncId: SyncId): (r: (Model<ProxyKey<K>, T>, map<SyncId, Model<ProxyKey<K>, T>>))
    ensures r.0.syncId == Some(syncId) && Consistent(r.0) && |r.0.data| == 0
    ensures syncId in r.1 && r.1[syncId] == r.0
    ensures forall id | id in registry && id != syncId :: id in r.1 && r.1[id] == registry[id]
    ensures forall id | id in r.1 :: id == syncId || id in registry
  {
    var proxy := Empty(Some(syncId));
    (proxy, registry[syncId := proxy])
  }

  /** `source_item_set`: the converted item is stored under the proxy key
      when the source is accepted. */
  function SourceItemSet<K(==), S, T, V(==)>(sc: Schema<T, V>, h: Hooks<S, T>, m: Model<ProxyKey<K>, T>, source: Option<SyncId>, key: K, value: S): (r: Result<Step<ProxyKey<K>, T, V>>)
    requires Consistent(m)
    ensures !h.accept(source) ==> r == Success(Step(m, []))
    ensures h.accept(source) ==> (r.Failure? <==> h.convert(value).Failure?)
    ensures r.Failure? ==> h.convert(value).Failure? && r.error == h.convert(value).error
    ensures r.Success? && h.accept(source) ==>
      && Consistent(r.value.model)
      && r.value.model.data == m.data[(source, key) := h.convert(value).value]
  {
    if !h.accept(source) then Success(Step(m, []))
    else
      var item :- h.convert(value);
      Success(Set(sc, m, (source, key), item))
  }

  /** `source_item_deleted`: the proxy key is deleted when the source is
      accepted, which raises `KeyError` when the proxy does not hold it. */
  function SourceItemDeleted<K(==), S, T, V>(h: Hooks<S, T>, m: Model<ProxyKey<K>, T>, source: Option<SyncId>, key: K): (r: Result<Step<ProxyKey<K>, T, V>>)
    requires Consistent(m)
    ensures !h.accept(source) ==> r == Success(Step(m, []))
    ensures h.accept(source) ==> (r.Failure? <==> (source, key) !in m.data)
    ensures r.Failure? ==> r.error == KeyError
    ensures r.Success? && h.accept(source) ==>
      && Consistent(r.value.model)
      && r.value.model.data == m.data - {(source, key)}
  {
    if !h.accept(source) then Success(Step(m, []))
    else Delete(m, (source, key))
  }

  /** After an accepted, converted set, reading the proxy key gives the
      converted item; deleting it again gives back the proxy's other
      entries, untouched. */
  lemma SetThenDelete<K, S, T, V>(sc: Schema<T, V>, h: Hooks<S, T>, m: Model<ProxyKey<K>, T>, source: Option<SyncId>, key: K, value: S)
    requires Consistent(m) && h.accept(source) && h.convert(value).Success?
    requires (source, key) !in m.data
    ensures var r := SourceItemSet(sc, h, m, source, key, value);
      && r.Success?
      && Get(r.value.model, (source, key)) == h.convert(value)
      && Delete<ProxyKey<K>, T, V>(r.value.model, (source, key)).Success?
      && Delete<ProxyKey<K>, T, V>(r.value.model, (source, key)).value.model.data == m.data
  {
    var k := (source, key);
    var after := SourceItemSet(sc, h, m, source, key, value).value.model;
    assert after.data == m.data[k := h.convert(value).value];
    UpdateThenRemove(m.data, k, h.convert(value).value);
  }

  lemma UpdateThenRemove<K, T>(d: map<K, T>, k: K, v: T)
    requires k !in d
    ensures d[k := v] - {k} == d
  {
  }

  /** The keys of `keys` that come from `source`, in their order. */
  function SourceKeys<K(==)>(keys: seq<ProxyKey<K>>, source: Option<SyncId>): (r: seq<ProxyKey<K>>)
    ensures forall k | k in r :: k in keys && k.0 == source
    ensures forall k | k in keys && k.0 == source :: k in r
  {
    if |keys| == 0 then []
    else (if keys[0].0 == source then [keys[0]] else []) + SourceKeys(keys[1..], source)
  }

  lemma {:induction false} SourceKeysNoDup<K>(keys: seq<ProxyKey<K>>, source: Option<SyncId>)
    requires NoDup(keys)
    ensures NoDup(SourceKeys(keys, source))
    decreases |keys|
  {
    if |keys| > 0 {
      assert NoDup(keys[1..]);
      SourceKeysNoDup(keys[1..], source);
      var rest := SourceKeys(keys[1..], source);
      if keys[0].0 == source {
        var r := [keys[0]] + rest;
        forall a, b | 0 <= a < b < |r| ensures r[a] != r[b] {
          if a == 0 {
            assert r[b] in rest && r[b] in keys[1..];
          }
        }
      } else {
        assert SourceKeys(keys, source) == rest;
      }
    }
  }

  /** `source_cleared` as intended: when the source is accepted, deletes
      every proxy key that came from it, in the order of a silent copy of
      the proxy. */
  function SourceCleared<K(==), S, T, V(==)>(sc: Schema<T, V>, h: Hooks<S, T>, m: Model<ProxyKey<K>, T>, source: Option<SyncId>): (r: Step<ProxyKey<K>, T, V>)
    requires Consistent(m)
    ensures Consistent(r.model) && r.model.syncId == m.syncId
    ensures !h.accept(source) ==> r == Step(m, [])
    ensures h.accept(source) ==>
      && (forall k | k in r.model.data :: k in m.data && k.0 != source && r.model.data[k] == m.data[k])
      && (forall k | k in m.data && k.0 != source :: k in r.model.data)
  {
    if !h.accept(source) then Step(m, [])
    else
      var snapshot := Copy<ProxyKey<K>, T, V>(sc, m, None).model;
      var doomed := SourceKeys(snapshot.insertion, source);
      SourceKeysNoDup(snapshot.insertion, source);
      DeleteKeys(m, doomed)
  }

  /** `source_cleared` as written: the copy it iterates is built by
      calling the proxy's class with `sync_id=None`, which raises
      `TypeError` for a class whose constructor takes no such keyword;
      otherwise it is `SourceCleared`. */
  function SourceClearedAsWritten<K(==), S, T, V(==)>(sc: Schema<T, V>, h: Hooks<S, T>, m: Model<ProxyKey<K>, T>, source: Option<SyncId>): (r: Result<Step<ProxyKey<K>, T, V>>)
    requires Consistent(m)
    ensures r.Failure? <==> h.accept(source) && !h.copyable
    ensures r.Failure? ==> r.error == TypeError
    ensures r.Success? ==> r.value == SourceCleared(sc, h, m, source)
  {
    if !h.accept(source) then Success(Step(m, []))
    else if !h.copyable then Failure(TypeError)
    else Success(SourceCleared(sc, h, m, source))
  }

  /** The entries of `s` that did not come from `source`, in their order. */
  function FromOthers<K(==), T>(s: seq<Entry<ProxyKey<K>, T>>, source: Option<SyncId>): (r: seq<Entry<ProxyKey<K>, T>>)
    ensures forall e | e in r :: e in s && e.key.0 != source
    ensures forall e | e in s && e.key.0 != source :: e in r
  {
    if |s| == 0 then []
    else (if s[0].key.0 == source then [] else [s[0]]) + FromOthers(s[1..], source)
  }

  /** Dropping exactly the keys from `source` keeps the entries from the
      other sources. */
  lemma {:induction false} KeepSource<K, T>(s: seq<Entry<ProxyKey<K>, T>>, drop: set<ProxyKey<K>>, source: Option<SyncId>)
    requires forall j | 0 <= j < |s| :: s[j].key in drop <==> s[j].key.0 == source
    ensures Keep(s, drop) == FromOthers(s, source)
    decreases |s|
  {
    if |s| > 0 {
      KeepSource(s[1..], drop, source);
    }
  }

  /** `SourceCleared` on an accepted source is a `DeleteKeys` of exactly
      the proxy keys that came from it. */
  lemma SourceClearedDeletes<K, S, T, V>(sc: Schema<T, V>, h: Hooks<S, T>, m: Model<ProxyKey<K>, T>, source: Option<SyncId>) returns (doomed: seq<ProxyKey<K>>)
    requires Consistent(m) && h.accept(source)
    ensures NoDup(doomed) && forall k | k in doomed :: k in m.data
    ensures forall j | 0 <= j < |m.sorted| :: m.sorted[j].key in doomed <==> m.sorted[j].key.0 == source
    ensures SourceCleared(sc, h, m, source) == DeleteKeys(m, doomed)
  {
    doomed := SourceKeys(m.insertion, source);
    SourceKeysNoDup(m.insertion, source);
    forall j | 0 <= j < |m.sorted| ensures m.sorted[j].key in doomed <==> m.sorted[j].key.0 == source {
      assert m.sorted[j] in m.sorted;
    }
  }

  /** Clearing one source leaves the proxy's entries from every other
      source in the order they had, and only those. */
  lemma SourceClearedKeepsOthers<K, S, T, V>(sc: Schema<T, V>, h: Hooks<S, T>, m: Model<ProxyKey<K>, T>, source: Option<SyncId>)
    requires Consistent(m) && h.accept(source)
    ensures SourceCleared(sc, h, m, source).model.sorted == FromOthers(m.sorted, source)
  {
    var doomed := SourceClearedDeletes(sc, h, m, source);
    var drop := set k | k in doomed;
    DeleteKeysKeeps<ProxyKey<K>, T, V>(m, doomed);
    assert forall j | 0 <= j < |m.sorted| :: m.sorted[j].key in drop <==> m.sorted[j].key.0 == source;
    KeepSource(m.sorted, drop, source);
  }

  /** Clearing one source sends no `ModelCleared`, only one
      `ModelItemDeleted` per removed entry, and replaying them on the QML
      side's list gives the list for the result. */
  lemma SourceClearedReplays<K, S, T, V>(sc: Schema<T, V>, h: Hooks<S, T>, m: Model<ProxyKey<K>, T>, source: Option<SyncId>)
    requires Consistent(m) && h.accept(source)
    ensures var r := SourceCleared(sc, h, m, source);
      && AllDeletes(r.events, m.syncId)
      && (Truthy(m.syncId) ==> Replay(View(sc, m.sorted), r.events) == Some(View(sc, r.model.sorted)))
  {
    var doomed := SourceClearedDeletes(sc, h, m, source);
    DeleteKeysNotifies<ProxyKey<K>, T, V>(m, doomed);
    if Truthy(m.syncId) {
      DeleteKeysReplays(sc, m, doomed);
    }
  }

  /** `converted_index`: the first position whose item has id `itemId`,
      or `ValueError` when there is none. */
  method ConvertedIndex<K, T>(m: Model<K, T>, idOf: T -> string, itemId: string) returns (r: Result<nat>)
    ensures r.Failure? <==> forall j | 0 <= j < |m.sorted| :: idOf(m.sorted[j].item) != itemId
    ensures r.Failure? ==> r.error == ValueError
    ensures r.Success? ==>
      && r.value < |m.sorted| && idOf(m.sorted[r.value].item) == itemId
      && forall j | 0 <= j < r.value :: idOf(m.sorted[j].item) != itemId
  {
    var i := 0;
    while i < |m.sorted|
      invariant 0 <= i <= |m.sorted|
      invariant forall j | 0 <= j < i :: idOf(m.sorted[j].item) != itemId
    {
      if idOf(m.sorted[i].item) == itemId {
        return Success(i);
      }
      i := i + 1;
    }
    return Failure(ValueError);
  }

  // The accounts-and-rooms proxy

  /** `AccountRooms.accept_source`: the accounts model and every
      `(user id, "rooms")` model. */
  predicate AccountRoomsAccept(id: Option<SyncId>) {
    match id
    case Some(Name(n)) => n == "accounts"
    case Some(Path(p)) => |p| == 2 && p[1] == "rooms"
    case None => false
  }

  /** The sources `AccountRooms` takes items from are exactly the accounts
      model and each account's rooms model. */
  lemma AccountRoomsSources(id: Option<SyncId>)
    ensures AccountRoomsAccept(id) <==>
      id == Some(Name("accounts")) || exists user :: id == Some(Path([user, "rooms"]))
  {
    if id.Some? && id.value.Path? && |id.value.parts| == 2 && id.value.parts[1] == "rooms" {
      assert id.value.parts == [id.value.parts[0], "rooms"];
    }
  }

  /** Any item a model can hold. */
  datatype AnyItem =
    | AccountValue(account: Account)
    | RoomValue(room: Room)
    | MemberValue(member: Member)
    | EventValue(event: Event)
    | UploadValue(upload: Upload)
    | RowValue(row: AccountOrRoom)

  /** `AccountRooms.convert_item`: accounts and rooms become rows, looked
      up against the accounts model; any other item raises `TypeError`. */
  function AccountRoomsConvert(accounts: map<string, Account>, item: AnyItem): (r: Result<AccountOrRoom>)
    ensures !(item.AccountValue? || item.RoomValue?) ==> r == Failure(TypeError)
    ensures item.AccountValue? ==> r == FromItem(AccountItem(item.account), accounts) && r.Success?
    ensures item.RoomValue? ==> r == FromItem(RoomItem(item.room), accounts)
  {
    match item
    case AccountValue(a) => FromItem(AccountItem(a), accounts)
    case RoomValue(o) => FromItem(RoomItem(o), accounts)
    case _ => Failure(TypeError)
  }

  function AccountRoomsHooks(accounts: map<string, Account>): Hooks<AnyItem, AccountOrRoom> {
    Hooks(AccountRoomsAccept, (item: AnyItem) => AccountRoomsConvert(accounts, item), false)
  }

  /** `AccountRooms.__init__`: the proxy registered as "account_rooms". */
  function NewAccountRooms(registry: map<SyncId, Model<ProxyKey<string>, AccountOrRoom>>): (r: (Model<ProxyKey<string>, AccountOrRoom>, map<SyncId, Model<ProxyKey<string>, AccountOrRoom>>))
    ensures r.0.syncId == Some(Name("account_rooms")) && Consistent(r.0) && |r.0.data| == 0
    ensures Name("account_rooms") in r.1 && r.1[Name("account_rooms")] == r.0
    ensures forall id | id in registry && id != Name("account_rooms") :: id in r.1 && r.1[id] == registry[id]
  {
    NewProxy(registry, Name("account_rooms"))
  }

  /** Setting an account from the accounts model files the account's row
      under `("accounts", key)`; this never fails. */
  lemma AccountRoomsSetAccount<V>(sc: Schema<AccountOrRoom, V>, accounts: map<string, Account>, m: Model<ProxyKey<string>, AccountOrRoom>, key: string, account: Account)
    requires Consistent(m)
    ensures var src := Some(Name("accounts"));
      var r := SourceItemSet(sc, AccountRoomsHooks(accounts), m, src, key, AccountValue(account));
      && r.Success?
      && Consistent(r.value.model)
      && r.value.model.data == m.data[(src, key) := FromItem(AccountItem(account), accounts).value]
      && r.value.model.data[(src, key)].room.None?
      && r.value.model.data[(src, key)].account == account
  {
    var src := Some(Name("accounts"));
    assert AccountRoomsAccept(src);
    assert AccountRoomsHooks(accounts).convert(AccountValue(account)) == FromItem(AccountItem(account), accounts);
  }

  /** Setting a room from a rooms model files the room's row, built
      against the accounts model, under `((user id, "rooms"), room key)`;
      a room whose account is not in the accounts model raises `KeyError`. */
  lemma AccountRoomsSetRoom<V>(sc: Schema<AccountOrRoom, V>, accounts: map<string, Account>, m: Model<ProxyKey<string>, AccountOrRoom>, user: string, key: string, room: Room)
    requires Consistent(m)
    ensures var src := Some(Path([user, "rooms"]));
      var r := SourceItemSet(sc, AccountRoomsHooks(accounts), m, src, key, RoomValue(room));
      && (r.Failure? <==> room.forAccount !in accounts)
      && (r.Failure? ==> r.error == KeyError)
      && (r.Success? ==>
            && Consistent(r.value.model)
            && r.value.model.data == m.data[(src, key) := FromItem(RoomItem(room), accounts).value]
            && r.value.model.data[(src, key)].room == Some(room)
            && r.value.model.data[(src, key)].account == accounts[room.forAccount])
  {
    var src := Some(Path([user, "rooms"]));
    assert AccountRoomsAccept(src);
    assert AccountRoomsHooks(accounts).convert(RoomValue(room)) == FromItem(RoomItem(room), accounts);
  }

  /** An accepted source's item that is neither an account nor a room
      raises `TypeError`. */
  lemma AccountRoomsRejectsOthers<V>(sc: Schema<AccountOrRoom, V>, accounts: map<string, Account>, m: Model<ProxyKey<string>, AccountOrRoom>, source: Option<SyncId>, key: string, item: AnyItem)
    requires Consistent(m) && AccountRoomsAccept(source) && !item.AccountValue? && !item.RoomValue?
    ensures SourceItemSet(sc, AccountRoomsHooks(accounts), m, source, key, item) == Failure(TypeError)
  {
    assert AccountRoomsHooks(accounts).convert(item) == Failure(TypeError);
  }

  /** `AccountRooms.__init__` takes the backend and no `sync_id`, so
      clearing any source it accepts raises `TypeError` before a single
      row is deleted, even when the proxy holds rows from that source. */
  lemma AccountRoomsClearRaises<V>(sc: Schema<AccountOrRoom, V>, accounts: map<string, Account>, m: Model<ProxyKey<string>, AccountOrRoom>, user: string)
    requires Consistent(m)
    ensures SourceClearedAsWritten(sc, AccountRoomsHooks(accounts), m, Some(Name("accounts"))) == Failure(TypeError)
    ensures SourceClearedAsWritten(sc, AccountRoomsHooks(accounts), m, Some(Path([user, "rooms"]))) == Failure(TypeError)
  {
    assert AccountRoomsAccept(Some(Name("accounts")));
    assert AccountRoomsAccept(Some(Path([user, "rooms"])));
  }

  /** A plain `ModelProxy` can be copied, so its clear as written is the
      intended one. */
  lemma ProxyClearAsIntended<K, T(!new), V>(sc: Schema<T, V>, m: Model<ProxyKey<K>, T>, source: Option<SyncId>)
    requires Consistent(m)
    ensures SourceClearedAsWritten(sc, DefaultHooks<T>(), m, source) == Success(SourceCleared(sc, DefaultHooks<T>(), m, source))
  {
  }

  /** Deleting from an accepted source removes its proxy row, or raises
      `KeyError` when the proxy has no row for that key. */
  lemma AccountRoomsDelete<V>(accounts: map<string, Account>, m: Model<ProxyKey<string>, AccountOrRoom>, user: string, key: string)
    requires Consistent(m)
    ensures var src := Some(Path([user, "rooms"]));
      var r := SourceItemDeleted<string, AnyItem, AccountOrRoom, V>(AccountRoomsHooks(accounts), m, src, key);
      && (r.Failure? <==> (src, key) !in m.data)
      && (r.Success? ==> r.value.model.data == m.data - {(src, key)})
  {
    assert AccountRoomsAccept(Some(Path([user, "rooms"])));
  }
}

=== FILE: client.dfy ===
/** Two pure pieces of the Qt-side Matrix client
    (harmonyqml/backend/client.py): splitting the configured "host:port",
    and the throttle that decides when a typing notice is sent.
 */
module Client {
  import opened Wrappers

  // Host and port

  predicate IsDigit(c: char) {
    '0' <= c <= '9'
  }

  /** The value of a string of decimal digits. */
  function DigitsValue(s: string): nat
    requires forall i | 0 <= i < |s| :: IsDigit(s[i])
  {
    if |s| == 0 then 0
    else
      assert IsDigit(s[|s| - 1]);
      DigitsValue(s[..|s| - 1]) * 10 + (s[|s| - 1] as int - '0' as int)
  }

  /** Python's `int(s)` on an optional sign followed by decimal digits;
      anything else raises `ValueError`. */
  function ParseInt(s: string): (r: Result<int>)
    ensures r.Failure? ==> r.error == ValueError
    ensures |s| == 0 ==> r.Failure?
  {
    var sign := if |s| > 0 && (s[0] == '-' || s[0] == '+') then 1 else 0;
    var digits := s[sign..];
    if |digits| == 0 || !(forall i | 0 <= i < |digits| :: IsDigit(digits[i])) then Failure(ValueError)
    else
      var value: int := DigitsValue(digits);
      if sign == 1 && s[0] == '-' then Success(-value) else Success(value)
  }

  /** The decimal digits of a natural number. */
  function ShowNat(n: nat): (r: string)
    ensures |r| > 0 && forall i | 0 <= i < |r| :: IsDigit(r[i])
  {
    if n < 10 then [('0' as int + n) as char] else ShowNat(n / 10) + [('0' as int + n % 10) as char]
  }

  lemma {:induction false} ShowNatValue(n: nat)
    ensures DigitsValue(ShowNat(n)) == n
  {
    if n >= 10 {
      var s := ShowNat(n);
      assert s[..|s| - 1] == ShowNat(n / 10);
      ShowNatValue(n / 10);
    }
  }

  /** Parsing the digits of a number gives the number back. */
  lemma ParseShowNat(n: nat)
    ensures ParseInt(ShowNat(n)) == Success(n)
  {
    ShowNatValue(n);
    var s := ShowNat(n);
    assert s[0..] == s;
  }

  /** `hostname.split(":")` into the text before the first ":" and the
      pieces after it. */
  function SplitColon(s: string): (r: (string, seq<string>))
    ensures ':' !in r.0
    ensures ':' !in s ==> r == (s, [])
    ensures ':' in s ==> |r.1| > 0
    decreases |s|
  {
    if |s| == 0 then ("", [])
    else if s[0] == ':' then ("", Pieces(s[1..]))
    else
      var rest := SplitColon(s[1..]);
      assert s == [s[0]] + s[1..];
      ([s[0]] + rest.0, rest.1)
  }

  /** All the pieces of `s.split(":")`. */
  function Pieces(s: string): (r: seq<string>)
    ensures |r| > 0 && ':' !in r[0]
    ensures ':' !in s ==> r == [s]
    decreases |s|
  {
    if |s| == 0 then [""]
    else if s[0] == ':' then [""] + Pieces(s[1..])
    else
      var rest := Pieces(s[1..]);
      assert s == [s[0]] + s[1..];
      [[s[0]] + rest[0]] + rest[1..]
  }

  /** `Client.__init__`: the host is the text before the first ":", and
      the port the integer after it, 443 when there is no ":". */
  function HostPort(hostname: string): (r: Result<(string, int)>)
    ensures ':' !in hostname ==> r == Success((hostname, 443))
    ensures r.Success? ==> ':' !in r.value.0
    ensures r.Failure? ==> r.error == ValueError
  {
    var (host, port) := SplitColon(hostname);
    if |port| == 0 then Success((host, 443))
    else
      var p :- ParseInt(port[0]);
      Success((host, p))
  }

  lemma {:induction false} SplitColonJoin(host: string, tail: string)
    requires ':' !in host
    ensures SplitColon(host + ":" + tail) == (host, Pieces(tail))
    decreases |host|
  {
    if |host| == 0 {
      assert host + ":" + tail == [':'] + tail;
    } else {
      SplitColonJoin(host[1..], tail);
      var s := host + ":" + tail;
      assert s[0] == host[0] && s[1..] == host[1..] + ":" + tail;
      assert host == [host[0]] + host[1..];
    }
  }

  /** Writing a host and a port and splitting them again gives them back. */
  lemma HostPortRoundTrip(host: string, port: nat)
    requires ':' !in host
    ensures HostPort(host + ":" + ShowNat(port)) == Success((host, port))
  {
    SplitColonJoin(host, ShowNat(port));
    ParseShowNat(port);
  }

  /** Only the first piece after the host counts: "h:1:2" is port 1. */
  lemma HostPortIgnoresLaterPieces(host: string, port: nat, more: string)
    requires ':' !in host
    ensures HostPort(host + ":" + ShowNat(port) + ":" + more) == Success((host, port))
  {
    var tail := ShowNat(port) + ":" + more;
    assert host + ":" + ShowNat(port) + ":" + more == host + ":" + tail;
    SplitColonJoin(host, tail);
    PiecesHead(ShowNat(port), more);
    ParseShowNat(port);
  }

  lemma {:induction false} PiecesHead(a: string, b: string)
    requires ':' !in a
    ensures Pieces(a + ":" + b)[0] == a
    decreases |a|
  {
    if |a| == 0 {
      assert a + ":" + b == [':'] + b;
    } else {
      PiecesHead(a[1..], b);
      assert (a + ":" + b)[1..] == a[1..] + ":" + b;
    }
  }

  // Typing notices

  /** Seconds a typing notice lasts; the notice is sent with this timeout
      in milliseconds, and a repeated "typing" is held back for one second
      less. Times here are milliseconds. */
  const SetForSecs: int := 5

  /** The last typing state sent for each room and when; a room not in the
      map reads as "not typing, at time 0". */
  type TypingLog = map<string, (bool, int)>

  function LastTyping(log: TypingLog, roomId: string): (bool, int) {
    if roomId in log then log[roomId] else (false, 0)
  }

  /** The `room_typing` request sent to the server. */
  datatype TypingRequest = TypingRequest(roomId: string, typing: bool, timeoutMs: int)

  /** `setTypingState` at time `now`: the new log and the request sent, if
      any. */
  function SetTypingState(log: TypingLog, roomId: string, typing: bool, now: int): (r: (TypingLog, Option<TypingRequest>))
    ensures r.1.None? ==> r.0 == log
    ensures r.1.Some? ==>
      && r.1.value == TypingRequest(roomId, typing, SetForSecs * 1000)
      && r.0 == log[roomId := (typing, now)]
  {
    var (lastSet, lastTime) := LastTyping(log, roomId);
    if !typing && !lastSet then (log, None)
    else if typing && now - lastTime < (SetForSecs - 1) * 1000 then (log, None)
    else (log[roomId := (typing, now)], Some(TypingRequest(roomId, typing, SetForSecs * 1000)))
  }

  /** When a request is sent: "stopped typing" only after a "typing", and
      "typing" only once four seconds have passed since the room's last
      recorded call, whatever it was. */
  lemma TypingSentWhen(log: TypingLog, roomId: string, typing: bool, now: int)
    ensures var last := LastTyping(log, roomId);
      SetTypingState(log, roomId, typing, now).1.Some? <==>
        if typing then now - last.1 >= 4000 else last.0
  {
  }

  /** Two "typing" notices for the same room are never sent less than four
      seconds apart. */
  lemma TypingThrottled(log: TypingLog, roomId: string, t1: int, t2: int)
    requires SetTypingState(log, roomId, true, t1).1.Some?
    requires t2 - t1 < 4000
    ensures SetTypingState(SetTypingState(log, roomId, true, t1).0, roomId, true, t2).1.None?
  {
  }

  /** A room with no history starts as "not typing at 0": stopping sends
      nothing. */
  lemma FreshRoomStopIsSilent(log: TypingLog, roomId: string, now: int)
    requires roomId !in log
    ensures SetTypingState(log, roomId, false, now) == (log, None)
  {
  }

  /** Other rooms' records are never touched. */
  lemma TypingOtherRoomsKept(log: TypingLog, roomId: string, typing: bool, now: int, other: string)
    requires other != roomId
    ensures LastTyping(SetTypingState(log, roomId, typing, now).0, other) == LastTyping(log, other)
  {
  }
}

=== FILE: items.dfy ===
/** The item kinds the models hold (src/backend/models/items.py) and the
    `__lt__` each one sorts by.

    Dates are integers (later is greater); `datetime.fromtimestamp(0)`,
    the default date, is 0. A field that the orders and `from_item` never
    read and whose type is foreign (nio event classes, paths, floats,
    exception types) is not part of the model.
 */
module Items {
  import opened Wrappers
  import opened Orders
  import opened Text

  /** The date every item kind defaults to (`ZeroDate`). */
  const ZeroDate: int := 0

  datatype Account = Account(
    id: string,
    displayName: string,
    avatarUrl: string,
    maxUploadSize: int,
    profileUpdated: int,
    firstSyncDone: bool)

  datatype Room = Room(
    id: string,
    forAccount: string,
    givenName: string,
    displayName: string,
    mainAlias: string,
    avatarUrl: string,
    plainTopic: string,
    topic: string,
    inviterId: string,
    inviterName: string,
    inviterAvatar: string,
    left: bool,
    typingMembers: seq<string>,
    federated: bool,
    encrypted: bool,
    inviteRequired: bool,
    guestsAllowed: bool,
    canInvite: bool,
    canRedactAll: bool,
    canSendMessages: bool,
    canSetName: bool,
    canSetTopic: bool,
    canSetAvatar: bool,
    canSetEncryption: bool,
    canSetJoinRules: bool,
    canSetGuestAccess: bool,
    lastEventDate: int,
    mentions: int)

  datatype Member = Member(
    id: string,
    displayName: string,
    avatarUrl: string,
    typing: bool,
    powerLevel: int,
    invited: bool,
    profileUpdated: int)

  datatype UploadStatus = Uploading | Caching | Error

  datatype Upload = Upload(
    id: string,
    filepath: string,
    totalSize: int,
    uploaded: int,
    timeLeft: int,
    paused: bool,
    status: UploadStatus,
    startDate: int)

  /** What a displayed event is, besides its nio class. */
  datatype TypeSpecifier = Unset | ProfileChange | MembershipChange

  datatype Event = Event(
    id: string,
    eventId: string,
    eventType: string,
    date: int,
    senderId: string,
    senderName: string,
    senderAvatar: string,
    content: string,
    inlineContent: string,
    reason: string,
    links: seq<string>,
    mentions: seq<(string, string)>,
    typeSpecifier: TypeSpecifier,
    targetId: string,
    targetName: string,
    targetAvatar: string,
    redacterId: string,
    redacterName: string,
    isLocalEcho: bool,
    mediaUrl: string,
    mediaTitle: string,
    mediaWidth: int,
    mediaHeight: int,
    mediaDuration: int,
    mediaSize: int,
    mediaMime: string,
    thumbnailUrl: string,
    thumbnailMime: string,
    thumbnailWidth: int,
    thumbnailHeight: int)

  /** A row of the combined accounts-and-rooms list: an account's own row
      has no room. */
  datatype AccountOrRoom = AccountOrRoom(
    account: Account,
    room: Option<Room>,
    id: string,
    kind: string,
    displayName: string,
    avatarUrl: string,
    profileUpdated: int,
    firstSyncDone: bool,
    forAccount: string,
    inviterId: string,
    inviterName: string,
    left: bool,
    lastEventDate: int,
    mentions: int)

  // Accounts

  /** What accounts are sorted by: the display name, or the user id
      without its leading "@", lowercased. */
  function AccountName(a: Account): string {
    Lower(Or(a.displayName, DropFirst(a.id)))
  }

  /** `Account.__lt__` */
  predicate AccountLt(a: Account, b: Account) {
    LexLess(AccountName(a), AccountName(b))
  }

  /** An order that compares a key by `LexLess` is a strict weak order. */
  lemma AccountOrder()
    ensures StrictWeakOrder(AccountLt)
  {
    LexOrder();
  }

  /** Account comparison ignores the case of the names. */
  lemma AccountLtCaseInsensitive(a: Account, b: Account)
    ensures AccountLt(a, b) == AccountLt(a.(displayName := Lower(a.displayName)), b)
  {
    var a' := a.(displayName := Lower(a.displayName));
    LowerIdempotent(a.displayName);
    assert |Lower(a.displayName)| == |a.displayName|;
    assert AccountName(a') == AccountName(a);
  }

  /** An account without a display name sorts by its id past the first
      character, whatever that character is. */
  lemma AccountFallsBackToId(a: Account, b: Account, c: char)
    requires a.displayName == "" && |a.id| > 0
    ensures AccountLt(a, b) == AccountLt(a.(id := [c] + a.id[1..]), b)
  {
    assert ([c] + a.id[1..])[1..] == a.id[1..];
  }

  // Rooms

  /** What rooms are finally sorted by: the display name, or the room id,
      lowercased. */
  function RoomName(r: Room): string {
    Lower(Or(r.displayName, r.id))
  }

  /** `Room.__lt__` against another room: the tuple comparison
      `(self.left, other.inviter_id, other.last_event_date, name)` against
      `(other.left, self.inviter_id, self.last_event_date, other name)`,
      where `False < True`. */
  predicate RoomLt(a: Room, b: Room) {
    if a.left != b.left then b.left
    else if b.inviterId != a.inviterId then LexLess(b.inviterId, a.inviterId)
    else if b.lastEventDate != a.lastEventDate then b.lastEventDate < a.lastEventDate
    else LexLess(RoomName(a), RoomName(b))
  }

  /** Rooms tie exactly when every compared component is equal. */
  lemma RoomTie(a: Room, b: Room)
    ensures !RoomLt(a, b) && !RoomLt(b, a) <==>
      a.left == b.left && a.inviterId == b.inviterId && a.lastEventDate == b.lastEventDate && RoomName(a) == RoomName(b)
  {
    LexOrder();
  }

  lemma RoomOrder()
    ensures StrictWeakOrder(RoomLt)
  {
    LexOrder();
    forall a, b | RoomLt(a, b) ensures !RoomLt(b, a) {
      if a.left == b.left && a.inviterId == b.inviterId && a.lastEventDate == b.lastEventDate {
        LexAsymmetric(RoomName(a), RoomName(b));
      } else if a.left == b.left && a.inviterId != b.inviterId {
        LexAsymmetric(b.inviterId, a.inviterId);
      }
    }
    forall a, b, c | RoomLt(a, b) && RoomLt(b, c) ensures RoomLt(a, c) {
      RoomTransitive(a, b, c);
    }
    forall a, b, c | !RoomLt(a, b) && !RoomLt(b, c) ensures !RoomLt(a, c) {
      RoomTie(a, b);
      RoomTie(b, c);
      RoomTie(a, c);
      if RoomLt(a, c) {
        // c is after a, so by totality b is after a or tied with it, and
        // c is before or tied with b: either way the chain gives a contradiction.
        if RoomLt(b, a) {
          RoomTransitive(b, a, c);
        }
      }
    }
  }

  lemma RoomTransitive(a: Room, b: Room, c: Room)
    requires RoomLt(a, b) && RoomLt(b, c)
    ensures RoomLt(a, c)
  {
    LexOrder();
  }

  /** Rooms not left come before left rooms. */
  lemma RoomJoinedBeforeLeft(a: Room, b: Room)
    requires !a.left && b.left
    ensures RoomLt(a, b) && !RoomLt(b, a)
  {
  }

  /** Among rooms equally left, an invitation (a non-empty inviter) comes
      first. */
  lemma RoomInvitedFirst(a: Room, b: Room)
    requires a.left == b.left && a.inviterId != "" && b.inviterId == ""
    ensures RoomLt(a, b) && !RoomLt(b, a)
  {
  }

  /** Among rooms with the same left state and inviter, the one with the
      more recent last event comes first; at equal dates the lowercased
      name decides. */
  lemma RoomRecentFirst(a: Room, b: Room)
    requires a.left == b.left && a.inviterId == b.inviterId
    ensures a.lastEventDate > b.lastEventDate ==> RoomLt(a, b) && !RoomLt(b, a)
    ensures a.lastEventDate == b.lastEventDate ==> (RoomLt(a, b) <==> LexLess(RoomName(a), RoomName(b)))
  {
  }

  // Members

  /** What members are finally sorted by: as for accounts. */
  function MemberName(m: Member): string {
    Lower(Or(m.displayName, DropFirst(m.id)))
  }

  /** `Member.__lt__`: `(self.invited, other.power_level, name)` against
      `(other.invited, self.power_level, other name)`. */
  predicate MemberLt(a: Member, b: Member) {
    if a.invited != b.invited then b.invited
    else if b.powerLevel != a.powerLevel then b.powerLevel < a.powerLevel
    else LexLess(MemberName(a), MemberName(b))
  }

  /** Members tie exactly when every compared component is equal. */
  lemma MemberTie(a: Member, b: Member)
    ensures !MemberLt(a, b) && !MemberLt(b, a) <==>
      a.invited == b.invited && a.powerLevel == b.powerLevel && MemberName(a) == MemberName(b)
  {
    LexOrder();
  }

  lemma MemberTransitive(a: Member, b: Member, c: Member)
    requires MemberLt(a, b) && MemberLt(b, c)
    ensures MemberLt(a, c)
  {
    LexOrder();
  }

  lemma MemberOrder()
    ensures StrictWeakOrder(MemberLt)
  {
    LexOrder();
    forall a, b, c | MemberLt(a, b) && MemberLt(b, c) ensures MemberLt(a, c) {
      MemberTransitive(a, b, c);
    }
    forall a, b, c | !MemberLt(a, b) && !MemberLt(b, c) ensures !MemberLt(a, c) {
      MemberTie(a, b);
      MemberTie(b, c);
      MemberTie(a, c);
      if MemberLt(a, c) {
        if MemberLt(b, a) {
          MemberTransitive(b, a, c);
        }
      }
    }
  }

  /** Joined members come before invited ones; then higher power levels
      come first; then the lowercased name decides. */
  lemma MemberPrecedence(a: Member, b: Member)
    ensures !a.invited && b.invited ==> MemberLt(a, b) && !MemberLt(b, a)
    ensures a.invited == b.invited && a.powerLevel > b.powerLevel ==> MemberLt(a, b) && !MemberLt(b, a)
    ensures a.invited == b.invited && a.powerLevel == b.powerLevel ==>
      (MemberLt(a, b) <==> LexLess(MemberName(a), MemberName(b)))
  {
  }

  // Events and uploads

  /** `Event.__lt__`: newer first. */
  predicate EventLt(a: Event, b: Event) {
    a.date > b.date
  }

  /** `Upload.__lt__`: newer first. */
  predicate UploadLt(a: Upload, b: Upload) {
    a.startDate > b.startDate
  }

  lemma EventOrder()
    ensures StrictWeakOrder(EventLt)
  {
  }

  lemma UploadOrder()
    ensures StrictWeakOrder(UploadLt)
  {
  }

  /** A sorted list of events runs from the newest to the oldest. */
  lemma EventsNewestFirst(s: seq<Event>)
    requires Sorted(EventLt, s)
    ensures forall i, j | 0 <= i < j < |s| :: s[i].date >= s[j].date
  {
  }

  /** A sorted list of uploads runs from the newest to the oldest. */
  lemma UploadsNewestFirst(s: seq<Upload>)
    requires Sorted(UploadLt, s)
    ensures forall i, j | 0 <= i < j < |s| :: s[i].startDate >= s[j].startDate
  {
  }

  // Accounts and rooms together

  /** The second component of the compared tuple, `_room or NoRoom()`:
      `NoRoom() < x` is always true and `room < NoRoom()` always false. */
  predicate RoomSlotLt(x: Option<Room>, y: Option<Room>) {
    match x
    case None => true
    case Some(r) => y.Some? && RoomLt(r, y.value)
  }

  /** `AccountOrRoom.__lt__`: the tuple `(_account, _room or NoRoom())`.
      Tuples compare at the first component that differs under `==`:
      accounts are dataclasses, equal when their fields are; two `NoRoom()`
      objects are never equal, so they are compared with `<`; two equal
      rooms make equal tuples, which are not less. */
  predicate AccountOrRoomLt(x: AccountOrRoom, y: AccountOrRoom) {
    if x.account != y.account then AccountLt(x.account, y.account)
    else if x.room.Some? && x.room == y.room then false
    else RoomSlotLt(x.room, y.room)
  }

  /** An account's own row precedes every row of its rooms. */
  lemma AccountRowFirst(x: AccountOrRoom, y: AccountOrRoom)
    requires x.account == y.account && x.room.None? && y.room.Some?
    ensures AccountOrRoomLt(x, y) && !AccountOrRoomLt(y, x)
  {
  }

  /** Rows of the same account's rooms follow the room order; rows of
      different accounts follow the account order. */
  lemma AccountOrRoomByParts(x: AccountOrRoom, y: AccountOrRoom)
    ensures x.account != y.account ==> (AccountOrRoomLt(x, y) <==> AccountLt(x.account, y.account))
    ensures x.account == y.account && x.room.Some? && y.room.Some? ==>
      (AccountOrRoomLt(x, y) <==> RoomLt(x.room.value, y.room.value))
  {
    if x.account == y.account && x.room.Some? && x.room == y.room {
      RoomOrder();
    }
  }

  /** The order is not irreflexive: since `NoRoom() < NoRoom()` holds, an
      account's own row is less than itself, so the row order is not a
      strict weak order. */
  lemma AccountRowBeforeItself(x: AccountOrRoom)
    requires x.room.None?
    ensures AccountOrRoomLt(x, x)
  {
  }

  /** What `AccountOrRoom.from_item` is given. */
  datatype Source = AccountItem(account: Account) | RoomItem(room: Room)

  /** `AccountOrRoom.from_item`: an account becomes its own row; a room
      becomes a row under the account it belongs to, looked up in the
      accounts model, which raises `KeyError` when that account is missing. */
  function FromItem(item: Source, accounts: map<string, Account>): (r: Result<AccountOrRoom>)
    ensures r.Failure? <==> item.RoomItem? && item.room.forAccount !in accounts
    ensures r.Failure? ==> r.error == KeyError
    ensures r.Success? && item.AccountItem? ==>
      var a := item.account;
      r.value == AccountOrRoom(a, None, a.id, "Account", a.displayName, a.avatarUrl, a.profileUpdated, a.firstSyncDone,
                               "", "", "", false, ZeroDate, 0)
    ensures r.Success? && item.RoomItem? ==>
      var o := item.room;
      r.value == AccountOrRoom(accounts[o.forAccount], Some(o), o.id, "Room", o.displayName, o.avatarUrl, ZeroDate, false,
                               o.forAccount, o.inviterId, o.inviterName, o.left, o.lastEventDate, o.mentions)
  {
    match item
    case AccountItem(a) =>
      Success(AccountOrRoom(a, None, a.id, "Account", a.displayName, a.avatarUrl, a.profileUpdated, a.firstSyncDone,
                            "", "", "", false, ZeroDate, 0))
    case RoomItem(o) =>
      if o.forAccount !in accounts then Failure(KeyError)
      else
        Success(AccountOrRoom(accounts[o.forAccount], Some(o), o.id, "Room", o.displayName, o.avatarUrl, ZeroDate, false,
                              o.forAccount, o.inviterId, o.inviterName, o.left, o.lastEventDate, o.mentions))
  }

  /** Converted rows keep an account's row before the rows of its rooms:
      a room's row sorts after the row of the account it was filed under. */
  lemma FromItemAccountFirst(a: Account, o: Room, accounts: map<string, Account>)
    requires o.forAccount in accounts && accounts[o.forAccount] == a
    ensures FromItem(AccountItem(a), accounts).Success? && FromItem(RoomItem(o), accounts).Success?
    ensures AccountOrRoomLt(FromItem(AccountItem(a), accounts).value, FromItem(RoomItem(o), accounts).value)
    ensures !AccountOrRoomLt(FromItem(RoomItem(o), accounts).value, FromItem(AccountItem(a), accounts).value)
  {
    AccountRowFirst(FromItem(AccountItem(a), accounts).value, FromItem(RoomItem(o), accounts).value);
  }
}

=== FILE: member_events.dfy ===
/** The description of Matrix room member events
    (`process_room_member_event` and the history-visibility wording in
    src/backend/nio_callbacks.py).

    An `m.room.member` state event (section "Room membership" of the
    Matrix Client-Server API) carries the member's new content and, when
    there was one, the previous content. The client turns it into a
    timeline line with `%1` standing for the sender and `%2` for the
    target, or hides it and counts it as skipped.
 */
module MemberEvents {
  import opened Wrappers
  import opened Items

  /** Event content: the string values of the JSON object; a missing key
      and a JSON `null` both read as `None` through `dict.get`. */
  type Content = map<string, string>

  datatype MemberEvent = MemberEvent(
    sender: string,
    stateKey: string,
    serverTimestamp: int,
    membership: string,
    prevMembership: Option<string>,
    content: Content,
    prevContent: Option<Content>)

  /** An event as the Matrix client library builds it: the membership is
      the content's `membership` value, and the previous membership is the
      previous content's, or `None` when that content is absent or empty.
      The operations below take any event and do not require this. */
  predicate WellFormed(ev: MemberEvent) {
    && Get(ev.content, "membership") == Some(ev.membership)
    && ev.prevMembership == (if HadPrevious(ev) then Get(ev.prevContent.value, "membership") else None)
  }

  /** For a well-formed event, the membership changed exactly when there
      is no previous content or its `membership` value differs from the
      new content's. */
  lemma WellFormedMembershipChanged(ev: MemberEvent)
    requires WellFormed(ev)
    ensures MembershipChanged(ev) <==>
      !HadPrevious(ev) || Get(ev.prevContent.value, "membership") != Get(ev.content, "membership")
  {
  }

  /** For a well-formed event whose content did not change, the membership
      did not change either, whenever there was a previous content. */
  lemma WellFormedUnchangedContent(ev: MemberEvent)
    requires WellFormed(ev) && ev.prevContent == Some(ev.content) && |ev.content| > 0
    ensures !MembershipChanged(ev)
  {
  }

  /** The two interface settings the description depends on. */
  datatype Settings = Settings(hideMembershipEvents: bool, hideProfileChangeEvents: bool)

  /** What processing one member event gives: the line to show, if any,
      the room's skipped-events counter after it, and the own account
      after its profile was overwritten, if it was. */
  datatype Outcome = Outcome(described: Option<(TypeSpecifier, string)>, skipped: nat, account: Option<Account>)

  /** `dict.get(key)`. */
  function Get(c: Content, key: string): (r: Option<string>)
    ensures r.Some? <==> key in c
    ensures r.Some? ==> r.value == c[key]
  {
    if key in c then Some(c[key]) else None
  }

  /** `value or fallback` on a possibly missing string. */
  function OrElse(v: Option<string>, fallback: string): (r: string)
    ensures v.Some? && |v.value| > 0 ==> r == v.value
    ensures v.None? || |v.value| == 0 ==> r == fallback
  {
    if v.Some? && |v.value| > 0 then v.value else fallback
  }

  /** `" and ".join(parts)` and the like. */
  function Join(parts: seq<string>, sep: string): (r: string)
    ensures |parts| == 1 ==> r == parts[0]
    ensures |parts| >= 2 ==> r == parts[0] + sep + Join(parts[1..], sep)
  {
    if |parts| == 0 then ""
    else if |parts| == 1 then parts[0]
    else parts[0] + sep + Join(parts[1..], sep)
  }

  /** `if not prev`: no previous content, or an empty one. */
  predicate HadPrevious(ev: MemberEvent) {
    ev.prevContent.Some? && |ev.prevContent.value| > 0
  }

  predicate PrevWas(ev: MemberEvent, membership: string) {
    HadPrevious(ev) && ev.prevMembership == Some(membership)
  }

  /** The event is handled as a membership change. */
  predicate MembershipChanged(ev: MemberEvent) {
    !HadPrevious(ev) || Some(ev.membership) != ev.prevMembership
  }

  /** The ". Reason: …" suffix, present only for a non-empty reason. */
  function ReasonSuffix(now: Content): (r: string)
    ensures |r| > 0 <==> "reason" in now && |now["reason"]| > 0
    ensures |r| > 0 ==> r == ". Reason: " + now["reason"]
  {
    if "reason" in now && |now["reason"]| > 0 then ". Reason: " + now["reason"] else ""
  }

  /** The membership values that have a line of their own. */
  predicate Described(membership: string) {
    membership == "join" || membership == "invite" || membership == "leave" || membership == "ban"
  }

  function MembershipText(ev: MemberEvent): string
    requires Described(ev.membership)
  {
    var reason := ReasonSuffix(ev.content);
    if ev.membership == "join" then
      (if PrevWas(ev, "invite") then "%1 accepted their invitation" else "%1 joined the room")
    else if ev.membership == "invite" then
      "%1 invited %2 to the room"
    else if ev.membership == "leave" then
      if ev.stateKey == ev.sender then
        (if PrevWas(ev, "invite") then "%1 declined their invitation" else "%1 left the room") + reason
      else if PrevWas(ev, "invite") then "%1 withdrew %2's invitation" + reason
      else if PrevWas(ev, "ban") then "%1 unbanned %2 from the room" + reason
      else "%1 kicked out %2 from the room" + reason
    else
      "%1 banned %2 from the room" + reason
  }

  /** The profile changes, avatar first, that the event makes. */
  function ProfileChanges(ev: MemberEvent): (r: seq<string>)
    ensures |r| <= 2
    ensures !HadPrevious(ev) ==> r == []
  {
    if !HadPrevious(ev) then []
    else
      var prev := ev.prevContent.value;
      var now := ev.content;
      (if Get(now, "avatar_url") != Get(prev, "avatar_url") then ["profile picture"] else [])
      + (if Get(now, "displayname") != Get(prev, "displayname")
         then ["display name from \"" + OrElse(Get(prev, "displayname"), ev.stateKey)
               + "\" to \"" + OrElse(Get(now, "displayname"), ev.stateKey) + "\""]
         else [])
  }

  /** The own account after a profile change: overwritten only when the
      event is strictly newer than the last profile update. The lookup of
      the account raises `KeyError` when it is not in the accounts model. */
  function ProfileWrite(ev: MemberEvent, userId: string, accounts: map<string, Account>): (r: Result<Option<Account>>)
    ensures r.Failure? <==> ev.stateKey == userId && userId !in accounts
    ensures r.Failure? ==> r.error == KeyError
    ensures r.Success? && r.value.Some? <==>
      ev.stateKey == userId && userId in accounts && accounts[userId].profileUpdated < ev.serverTimestamp
    ensures r.Success? && r.value.Some? ==>
      && r.value.value.id == accounts[userId].id
      && r.value.value.profileUpdated == ev.serverTimestamp
      && r.value.value.displayName == OrElse(Get(ev.content, "displayname"), "")
      && r.value.value.avatarUrl == OrElse(Get(ev.content, "avatar_url"), "")
  {
    if ev.stateKey != userId then Success(None)
    else if userId !in accounts then Failure(KeyError)
    else
      var a := accounts[userId];
      if a.profileUpdated < ev.serverTimestamp then
        Success(Some(a.(profileUpdated := ev.serverTimestamp,
                        displayName := OrElse(Get(ev.content, "displayname"), ""),
                        avatarUrl := OrElse(Get(ev.content, "avatar_url"), ""))))
      else Success(None)
  }

  /** `process_room_member_event`, for a room whose skipped-events counter
      is `skipped`. */
  function ProcessMemberEvent(ev: MemberEvent, settings: Settings, userId: string, accounts: map<string, Account>, skipped: nat): (r: Result<Outcome>)
    ensures r.Failure? ==> r.error == KeyError && ev.stateKey == userId && userId !in accounts
    ensures r.Success? ==> r.value.skipped == skipped || (r.value.skipped == skipped + 1 && r.value.described.None?)
    ensures r.Success? && r.value.account.Some? ==>
      |ProfileChanges(ev)| > 0 && ev.stateKey == userId && userId in accounts
      && accounts[userId].profileUpdated < ev.serverTimestamp
  {
    if ev.prevContent == Some(ev.content) then Success(Outcome(None, skipped, None))
    else if MembershipChanged(ev) && settings.hideMembershipEvents then Success(Outcome(None, skipped + 1, None))
    else if MembershipChanged(ev) && Described(ev.membership) then
      Success(Outcome(Some((MembershipChange, MembershipText(ev))), skipped, None))
    else
      var changes := ProfileChanges(ev);
      if |changes| == 0 then Success(Outcome(None, skipped, None))
      else
        var account :- ProfileWrite(ev, userId, accounts);
        if settings.hideProfileChangeEvents then Success(Outcome(None, skipped + 1, account))
        else Success(Outcome(Some((ProfileChange, "%1 changed their " + Join(changes, " and "))), skipped, account))
  }

  /** An event whose content did not change describes nothing and is not
      counted as skipped. */
  lemma UnchangedIsSilent(ev: MemberEvent, settings: Settings, userId: string, accounts: map<string, Account>, skipped: nat)
    requires ev.prevContent == Some(ev.content)
    ensures ProcessMemberEvent(ev, settings, userId, accounts, skipped) == Success(Outcome(None, skipped, None))
  {
  }

  /** A hidden membership change counts exactly one skipped event. */
  lemma HiddenMembershipSkipped(ev: MemberEvent, settings: Settings, userId: string, accounts: map<string, Account>, skipped: nat)
    requires ev.prevContent != Some(ev.content) && MembershipChanged(ev) && settings.hideMembershipEvents
    ensures ProcessMemberEvent(ev, settings, userId, accounts, skipped) == Success(Outcome(None, skipped + 1, None))
  {
  }

  /** A join accepts an invitation exactly when the previous state was an
      invite; otherwise the member joined. */
  lemma JoinText(ev: MemberEvent, settings: Settings, userId: string, accounts: map<string, Account>, skipped: nat)
    requires ev.prevContent != Some(ev.content) && MembershipChanged(ev) && !settings.hideMembershipEvents
    requires ev.membership == "join"
    ensures var r := ProcessMemberEvent(ev, settings, userId, accounts, skipped);
      && r.Success? && r.value.described.Some? && r.value.described.value.0 == MembershipChange
      && (r.value.described.value.1 == "%1 accepted their invitation" <==> PrevWas(ev, "invite"))
      && (r.value.described.value.1 == "%1 joined the room" <==> !PrevWas(ev, "invite"))
  {
  }

  /** Leaving by oneself declines an invitation or leaves the room, with
      the reason appended only when one is given. */
  lemma SelfLeaveText(ev: MemberEvent, settings: Settings, userId: string, accounts: map<string, Account>, skipped: nat)
    requires ev.prevContent != Some(ev.content) && MembershipChanged(ev) && !settings.hideMembershipEvents
    requires ev.membership == "leave" && ev.stateKey == ev.sender
    ensures var r := ProcessMemberEvent(ev, settings, userId, accounts, skipped);
      var base := if PrevWas(ev, "invite") then "%1 declined their invitation" else "%1 left the room";
      && r.Success? && r.value.described == Some((MembershipChange, base + ReasonSuffix(ev.content)))
      && (!("reason" in ev.content && |ev.content["reason"]| > 0) ==> r.value.described.value.1 == base)
  {
  }

  /** Someone else's leave withdraws an invitation, lifts a ban or kicks. */
  lemma OtherLeaveText(ev: MemberEvent, settings: Settings, userId: string, accounts: map<string, Account>, skipped: nat)
    requires ev.prevContent != Some(ev.content) && MembershipChanged(ev) && !settings.hideMembershipEvents
    requires ev.membership == "leave" && ev.stateKey != ev.sender
    ensures var r := ProcessMemberEvent(ev, settings, userId, accounts, skipped);
      var base :=
        if PrevWas(ev, "invite") then "%1 withdrew %2's invitation"
        else if PrevWas(ev, "ban") then "%1 unbanned %2 from the room"
        else "%1 kicked out %2 from the room";
      r.Success? && r.value.described == Some((MembershipChange, base + ReasonSuffix(ev.content)))
  {
  }

  /** Invitations carry no reason; bans carry the reason when one is given. */
  lemma InviteAndBanText(ev: MemberEvent, settings: Settings, userId: string, accounts: map<string, Account>, skipped: nat)
    requires ev.prevContent != Some(ev.content) && MembershipChanged(ev) && !settings.hideMembershipEvents
    ensures var r := ProcessMemberEvent(ev, settings, userId, accounts, skipped);
      && (ev.membership == "invite" ==> r == Success(Outcome(Some((MembershipChange, "%1 invited %2 to the room")), skipped, None)))
      && (ev.membership == "ban" ==>
            r == Success(Outcome(Some((MembershipChange, "%1 banned %2 from the room" + ReasonSuffix(ev.content))), skipped, None)))
  {
  }

  /** A shown profile change of any member, the own one included when the
      own account is known, joins the changes with " and " and leaves the
      skipped counter alone; another member's change touches no account. */
  lemma ProfileChangeText(ev: MemberEvent, settings: Settings, userId: string, accounts: map<string, Account>, skipped: nat)
    requires ev.prevContent != Some(ev.content) && !MembershipChanged(ev) && !settings.hideProfileChangeEvents
    requires (ev.stateKey != userId || userId in accounts) && |ProfileChanges(ev)| > 0
    ensures var r := ProcessMemberEvent(ev, settings, userId, accounts, skipped);
      && r.Success?
      && r.value.skipped == skipped
      && r.value.described == Some((ProfileChange, "%1 changed their " + Join(ProfileChanges(ev), " and ")))
      && (ev.stateKey != userId ==> r.value.account.None?)
  {
  }

  /** The changes list the new picture first and the new display name
      last, each exactly when it differs from the previous content. */
  lemma ProfileChangesOrder(ev: MemberEvent)
    requires HadPrevious(ev)
    ensures var c := ProfileChanges(ev);
      var prev := ev.prevContent.value;
      var avatar := Get(ev.content, "avatar_url") != Get(prev, "avatar_url");
      var name := Get(ev.content, "displayname") != Get(prev, "displayname");
      && |c| == (if avatar then 1 else 0) + (if name then 1 else 0)
      && (avatar ==> c[0] == "profile picture")
      && (name ==> c[|c| - 1] == "display name from \"" + OrElse(Get(prev, "displayname"), ev.stateKey)
                                 + "\" to \"" + OrElse(Get(ev.content, "displayname"), ev.stateKey) + "\"")
  {
  }

  /** The own profile is overwritten by a profile change exactly when the
      event is newer than the last update. */
  lemma OwnProfileOverwrite(ev: MemberEvent, settings: Settings, userId: string, accounts: map<string, Account>, skipped: nat)
    requires ev.prevContent != Some(ev.content) && !MembershipChanged(ev)
    requires |ProfileChanges(ev)| > 0 && ev.stateKey == userId && userId in accounts
    ensures var r := ProcessMemberEvent(ev, settings, userId, accounts, skipped);
      && r.Success?
      && (r.value.account.Some? <==> accounts[userId].profileUpdated < ev.serverTimestamp)
      && (settings.hideProfileChangeEvents <==> r.value.skipped == skipped + 1)
  {
  }

  // The history-visibility line

  /** Who future room history is visible to, for a
      `m.room.history_visibility` value; "???" for an unknown value. */
  function VisibleTo(visibility: string): string {
    if visibility == "shared" then "all room members"
    else if visibility == "world_readable" then "any member or outsider"
    else if visibility == "joined" then "all room members, since the time they joined"
    else if visibility == "invited" then "all room members, since the time they were invited"
    else "???"
  }

  predicate KnownVisibility(visibility: string) {
    visibility == "shared" || visibility == "world_readable" || visibility == "joined" || visibility == "invited"
  }

  function HistoryVisibilityText(visibility: string): (r: string)
    ensures !KnownVisibility(visibility) ==> r == "%1 made future room history visible to ???"
  {
    "%1 made future room history visible to " + VisibleTo(visibility)
  }

  /** The line tells the four known settings apart, and none of them reads
      as the unknown one. */
  lemma HistoryVisibilityDistinct(a: string, b: string)
    requires KnownVisibility(a)
    ensures HistoryVisibilityText(a) != HistoryVisibilityText("")
    ensures KnownVisibility(b) && HistoryVisibilityText(a) == HistoryVisibilityText(b) ==> a == b
  {
    var prefix := "%1 made future room history visible to ";
    if HistoryVisibilityText(a) == HistoryVisibilityText(b) {
      assert VisibleTo(a) == HistoryVisibilityText(a)[|prefix|..];
      assert VisibleTo(b) == HistoryVisibilityText(b)[|prefix|..];
    }
    assert VisibleTo(a) == HistoryVisibilityText(a)[|prefix|..];
    assert VisibleTo("") == HistoryVisibilityText("")[|prefix|..];
  }
}

=== FILE: model.dfy ===
/** The keyed, sorted, observable collection (`Model` in
    src/backend/models/model.py).

    A model holds a key -> item map, the same items as a sequence kept in
    the order of the item kind's `__lt__`, and the insertion order of the
    keys (Python dicts iterate in insertion order, which fixes the order
    in which `clear()` and `copy()` visit the keys). Each mutation returns
    the new model together with the change notifications it sends to the
    QML side.

    The sorted sequence stores (key, item) entries: the source finds an
    item's position with `list.index`, and the model finds it by key.
 */
module Models {
  import opened Wrappers
  import opened Orders

  /** A model's `sync_id`: a plain name such as "accounts", or a tuple such
      as `(user_id, "rooms")`. */
  datatype SyncId = Name(name: string) | Path(parts: seq<string>)

  /** Python truthiness of an optional sync id: `None`, `""` and `()` are false. */
  predicate Truthy(id: Option<SyncId>) {
    match id
    case None => false
    case Some(Name(n)) => |n| > 0
    case Some(Path(p)) => |p| > 0
  }

  /** The model change notifications sent to QML
      (src/backend/pyotherside_events.py); `changedFields` is the
      `{field: serialized value}` dict, in field declaration order. */
  datatype ModelEvent<V> =
    | ModelItemSet(syncId: SyncId, indexThen: Option<nat>, indexNow: nat, changedFields: seq<(string, V)>)
    | ModelItemDeleted(syncId: SyncId, index: nat)
    | ModelCleared(syncId: SyncId)

  /** What the collection needs to know about its item class: the `__lt__`
      it sorts by, the dataclass field names in declaration order, and
      reading and writing a field by name. */
  datatype Schema<!T, !V> = Schema(
    lt: (T, T) -> bool,
    fieldNames: seq<string>,
    get: (T, string) -> V,
    put: (T, string, V) -> T)

  datatype Entry<K, T> = Entry(key: K, item: T)

  datatype Model<K, T> = Model(
    syncId: Option<SyncId>,
    data: map<K, T>,
    insertion: seq<K>,
    sorted: seq<Entry<K, T>>)

  /** The model after an operation and the notifications it emitted. */
  datatype Step<K, T, V> = Step(model: Model<K, T>, events: seq<ModelEvent<V>>)

  /** The item order lifted to entries. */
  function ByItem<K, T>(lt: (T, T) -> bool): (Entry<K, T>, Entry<K, T>) -> bool {
    (a: Entry<K, T>, b: Entry<K, T>) => lt(a.item, b.item)
  }

  lemma ByItemOrder<K(!new), T(!new)>(lt: (T, T) -> bool)
    requires StrictWeakOrder(lt)
    ensures StrictWeakOrder(ByItem<K, T>(lt))
  {
    var elt := ByItem<K, T>(lt);
    forall a: Entry<K, T> ensures !elt(a, a) {
      assert elt(a, a) == lt(a.item, a.item);
    }
    forall a: Entry<K, T>, b: Entry<K, T>, c: Entry<K, T> | elt(a, b) && elt(b, c) ensures elt(a, c) {
      assert elt(a, b) == lt(a.item, b.item) && elt(b, c) == lt(b.item, c.item);
      assert elt(a, c) == lt(a.item, c.item);
    }
    forall a: Entry<K, T>, b: Entry<K, T>, c: Entry<K, T> | !elt(a, b) && !elt(b, c) ensures !elt(a, c) {
      assert elt(a, b) == lt(a.item, b.item) && elt(b, c) == lt(b.item, c.item);
      assert elt(a, c) == lt(a.item, c.item);
    }
  }

  /** `s` lists exactly the key/item pairs of `data`, each once. */
  ghost predicate Lists<K, T>(s: seq<Entry<K, T>>, data: map<K, T>) {
    && |s| == |data|
    && NoDup(s)
    && (forall e | e in s :: e.key in data && data[e.key] == e.item)
    && (forall k | k in data :: Entry(k, data[k]) in s)
  }

  /** The representation invariant every operation keeps. */
  ghost predicate Consistent<K, T>(m: Model<K, T>) {
    && Lists(m.sorted, m.data)
    && NoDup(m.insertion)
    && (forall k | k in m.insertion :: k in m.data)
    && (forall k | k in m.data :: k in m.insertion)
  }

  /** The sorted sequence is in `__lt__` order. */
  ghost predicate Ordered<K, T, V>(sc: Schema<T, V>, m: Model<K, T>) {
    Sorted(ByItem(sc.lt), m.sorted)
  }

  function Empty<K, T>(syncId: Option<SyncId>): (m: Model<K, T>)
    ensures Consistent(m) && |m.data| == 0
  {
    Model(syncId, map[], [], [])
  }

  /** Position of the entry for `key`: the source's `list.index(item)`. */
  function IndexOfKey<K(==), T>(s: seq<Entry<K, T>>, key: K): (r: nat)
    requires exists e | e in s :: e.key == key
    ensures r < |s| && s[r].key == key
    ensures forall j | 0 <= j < r :: s[j].key != key
  {
    if s[0].key == key then 0
    else
      assert exists e | e in s[1..] :: e.key == key by {
        var e :| e in s && e.key == key;
        assert e in s[1..];
      }
      1 + IndexOfKey(s[1..], key)
  }

  /** Entries that list a map have distinct keys. */
  lemma ListsKeysDistinct<K, T>(s: seq<Entry<K, T>>, data: map<K, T>)
    requires Lists(s, data)
    ensures forall i, j | 0 <= i < |s| && 0 <= j < |s| && s[i].key == s[j].key :: i == j
  {
    forall i, j | 0 <= i < |s| && 0 <= j < |s| && s[i].key == s[j].key ensures i == j {
      assert s[i] in s && s[j] in s;
      assert s[i] == s[j];
    }
  }

  /** Where `key` sits in the sorted sequence of a consistent model. */
  function PositionOf<K(==), T>(m: Model<K, T>, key: K): (r: nat)
    requires Consistent(m) && key in m.data
    ensures r < |m.sorted| && m.sorted[r] == Entry(key, m.data[key])
    ensures forall j | 0 <= j < |m.sorted| && m.sorted[j].key == key :: j == r
  {
    assert Entry(key, m.data[key]) in m.sorted;
    ListsKeysDistinct(m.sorted, m.data);
    IndexOfKey(m.sorted, key)
  }

  lemma ListsRemove<K, T>(s: seq<Entry<K, T>>, data: map<K, T>, i: nat)
    requires Lists(s, data) && i < |s|
    ensures Lists(RemoveAt(s, i), data - {s[i].key})
  {
    var key := s[i].key;
    var r := RemoveAt(s, i);
    var d := data - {key};
    assert s[i] in s;
    assert |d| == |data| - 1;
    NoDupRemoveAt(s, i);
    ListsRemoveSound(s, data, i);
    ListsRemoveComplete(s, data, i);
  }

  lemma ListsRemoveSound<K, T>(s: seq<Entry<K, T>>, data: map<K, T>, i: nat)
    requires Lists(s, data) && i < |s|
    ensures forall e | e in RemoveAt(s, i) :: e.key in data - {s[i].key} && data[e.key] == e.item
  {
    var r := RemoveAt(s, i);
    ListsKeysDistinct(s, data);
    forall e | e in r ensures e.key in data - {s[i].key} && data[e.key] == e.item {
      var j :| 0 <= j < |r| && r[j] == e;
      var j' := if j < i then j else j + 1;
      assert r[j] == s[j'] && s[j'] in s;
    }
  }

  lemma ListsRemoveComplete<K, T>(s: seq<Entry<K, T>>, data: map<K, T>, i: nat)
    requires Lists(s, data) && i < |s|
    ensures forall k | k in data - {s[i].key} :: Entry(k, data[k]) in RemoveAt(s, i)
  {
    var r := RemoveAt(s, i);
    forall k | k in data - {s[i].key} ensures Entry(k, data[k]) in r {
      var j :| 0 <= j < |s| && s[j] == Entry(k, data[k]);
      if j < i { assert r[j] == s[j]; } else { assert r[j - 1] == s[j]; }
    }
  }

  lemma ListsInsert<K, T>(s: seq<Entry<K, T>>, data: map<K, T>, key: K, value: T, i: nat)
    requires Lists(s, data) && key !in data && i <= |s|
    ensures Lists(Insert(s, i, Entry(key, value)), data[key := value])
  {
    InsertNoDup(s, i, Entry(key, value));
    var r := Insert(s, i, Entry(key, value));
    var d := data[key := value];
    forall e | e in r ensures e.key in d && d[e.key] == e.item {
      var j :| 0 <= j < |r| && r[j] == e;
      if j < i { assert r[j] == s[j]; } else if j > i { assert r[j] == s[j - 1]; }
    }
    forall k | k in d ensures Entry(k, d[k]) in r {
      if k != key {
        var j :| 0 <= j < |s| && s[j] == Entry(k, data[k]);
        if j < i { assert r[j] == s[j]; } else { assert r[j + 1] == s[j]; }
      }
    }
  }

  /** Removing the entry for an existing key and inserting the new one
      lists the updated map. */
  lemma ListsReplace<K, T>(s: seq<Entry<K, T>>, data: map<K, T>, i: nat, value: T, j: nat)
    requires Lists(s, data) && i < |s| && j <= |s| - 1
    ensures Lists(Insert(RemoveAt(s, i), j, Entry(s[i].key, value)), data[s[i].key := value])
  {
    var key := s[i].key;
    ListsRemove(s, data, i);
    ListsInsert(RemoveAt(s, i), data - {key}, key, value, j);
    assert (data - {key})[key := value] == data[key := value];
  }

  /** A duplicate-free sequence with the same elements as a listing is a listing. */
  lemma ListsSameElements<K, T>(s: seq<Entry<K, T>>, r: seq<Entry<K, T>>, data: map<K, T>)
    requires Lists(s, data) && |r| == |s| && NoDup(r)
    requires forall e :: e in r <==> e in s
    ensures Lists(r, data)
  {
  }

  /** Any reordering of a listing is a listing. */
  lemma ListsSort<K, T>(lt: (Entry<K, T>, Entry<K, T>) -> bool, s: seq<Entry<K, T>>, data: map<K, T>)
    requires Lists(s, data)
    ensures Lists(SortSeq(lt, s), data)
  {
    SortSeqNoDup(lt, s);
    SortSeqSameElements(lt, s);
    ListsSameElements(s, SortSeq(lt, s), data);
  }

  /** Replacing the item of an existing entry in place lists the updated map. */
  lemma ListsUpdate<K, T>(s: seq<Entry<K, T>>, data: map<K, T>, i: nat, value: T)
    requires Lists(s, data) && i < |s|
    ensures Lists(s[i := Entry(s[i].key, value)], data[s[i].key := value])
  {
    var key := s[i].key;
    var r := s[i := Entry(key, value)];
    var d := data[key := value];
    ListsKeysDistinct(s, data);
    forall a, b | 0 <= a < b < |r| ensures r[a] != r[b] {
      assert r[a].key != r[b].key;
    }
    forall e | e in r ensures e.key in d && d[e.key] == e.item {
      var j :| 0 <= j < |r| && r[j] == e;
      if j != i { assert r[j] == s[j]; }
    }
    forall k | k in d ensures Entry(k, d[k]) in r {
      if k != key {
        var j :| 0 <= j < |s| && s[j] == Entry(k, data[k]);
        assert r[j] == s[j];
      } else {
        assert r[i] == Entry(k, d[k]);
      }
    }
  }

  /** The `changed_fields` dict of `__setitem__`: every field when there is
      no previous item, otherwise the fields whose values differ, each with
      the new item's value. */
  function ChangedFields<T, V(==)>(sc: Schema<T, V>, names: seq<string>, existing: Option<T>, item: T): (r: seq<(string, V)>)
    ensures forall p | p in r ::
      && p.0 in names
      && p.1 == sc.get(item, p.0)
      && (existing.None? || sc.get(item, p.0) != sc.get(existing.value, p.0))
    ensures forall f | f in names && (existing.None? || sc.get(item, f) != sc.get(existing.value, f)) ::
      (f, sc.get(item, f)) in r
    ensures |r| <= |names|
  {
    if |names| == 0 then []
    else
      var f := names[0];
      var rest := ChangedFields(sc, names[1..], existing, item);
      if existing.None? || sc.get(item, f) != sc.get(existing.value, f) then [(f, sc.get(item, f))] + rest
      else rest
  }

  /** `model[key] = value` (model.py `__setitem__`). */
  function Set<K(==), T, V(==)>(sc: Schema<T, V>, m: Model<K, T>, key: K, value: T): (r: Step<K, T, V>)
    requires Consistent(m)
    ensures Consistent(r.model)
    ensures r.model.syncId == m.syncId
    ensures r.model.data == m.data[key := value]
    ensures r.model.insertion == if key in m.data then m.insertion else m.insertion + [key]
  {
    var existing := if key in m.data then Some(m.data[key]) else None;
    var changed := ChangedFields(sc, sc.fieldNames, existing, value);
    var indexThen := if key in m.data then Some(PositionOf(m, key)) else None;
    var rest := if key in m.data then RemoveAt(m.sorted, indexThen.value) else m.sorted;
    var indexNow := BisectRight(ByItem(sc.lt), rest, Entry(key, value));
    var sorted := Insert(rest, indexNow, Entry(key, value));
    var insertion := if key in m.data then m.insertion else m.insertion + [key];
    var events :=
      if Truthy(m.syncId) && (indexThen != Some(indexNow) || |changed| > 0)
      then [ModelItemSet(m.syncId.value, indexThen, indexNow, changed)]
      else [];
    if key in m.data then
      ListsReplace(m.sorted, m.data, indexThen.value, value, indexNow);
      Step(Model(m.syncId, m.data[key := value], insertion, sorted), events)
    else
      ListsInsert(m.sorted, m.data, key, value, indexNow);
      Step(Model(m.syncId, m.data[key := value], insertion, sorted), events)
  }

  /** Where a set puts the new entry, and that every other entry keeps its
      relative order: removing the new entry gives back the old sequence
      with the replaced entry removed. */
  lemma SetPlacement<K, T, V>(sc: Schema<T, V>, m: Model<K, T>, key: K, value: T) returns (p: nat)
    requires Consistent(m)
    ensures var s := Set(sc, m, key, value).model.sorted;
      && p < |s| && s[p] == Entry(key, value)
      && RemoveAt(s, p) == (if key in m.data then RemoveAt(m.sorted, PositionOf(m, key)) else m.sorted)
  {
    var rest := if key in m.data then RemoveAt(m.sorted, PositionOf(m, key)) else m.sorted;
    p := BisectRight(ByItem(sc.lt), rest, Entry(key, value));
    RemoveInsert(rest, p, Entry(key, value));
  }

  /** The entries other than the key's, in their order. */
  function Rest<K, T>(m: Model<K, T>, key: K): seq<Entry<K, T>>
    requires Consistent(m)
  {
    if key in m.data then RemoveAt(m.sorted, PositionOf(m, key)) else m.sorted
  }

  /** A set is `bisect.insort` of the new entry into the other entries. */
  lemma SetIsInsort<K, T, V>(sc: Schema<T, V>, m: Model<K, T>, key: K, value: T)
    requires Consistent(m)
    ensures Set(sc, m, key, value).model.sorted == Insort(ByItem(sc.lt), Rest(m, key), Entry(key, value))
  {
  }

  /** Where `bisect.insort` puts an entry among sorted entries, in terms of
      the item order. */
  lemma InsortEntry<K(!new), T(!new)>(lt: (T, T) -> bool, rest: seq<Entry<K, T>>, x: Entry<K, T>) returns (p: nat)
    requires StrictWeakOrder(lt) && Sorted(ByItem(lt), rest)
    ensures var s := Insort(ByItem(lt), rest, x);
      && p < |s| && s[p] == x
      && Sorted(ByItem(lt), s)
      && (forall q | 0 <= q < p :: !lt(x.item, s[q].item))
      && (forall q | p < q < |s| :: lt(x.item, s[q].item))
  {
    ByItemOrder<K, T>(lt);
    InsortPlaces(ByItem(lt), rest, x);
    p := BisectRight(ByItem(lt), rest, x);
    var s := Insort(ByItem(lt), rest, x);
    forall q | 0 <= q < |s| ensures ByItem(lt)(x, s[q]) == lt(x.item, s[q].item) { }
  }

  /** Under a strict weak order a set keeps the model sorted and puts the
      new item after every item it is not less than and before every item
      it is less than (bisect-right). */
  lemma SetKeepsOrder<K(!new), T(!new), V>(sc: Schema<T, V>, m: Model<K, T>, key: K, value: T) returns (p: nat)
    requires StrictWeakOrder(sc.lt) && Consistent(m) && Ordered(sc, m)
    ensures var s := Set(sc, m, key, value).model.sorted;
      && p < |s| && s[p] == Entry(key, value)
      && Ordered(sc, Set(sc, m, key, value).model)
      && (forall q | 0 <= q < p :: !sc.lt(value, s[q].item))
      && (forall q | p < q < |s| :: sc.lt(value, s[q].item))
  {
    if key in m.data {
      SortedRemoveAt(ByItem(sc.lt), m.sorted, PositionOf(m, key));
    }
    SetIsInsort(sc, m, key, value);
    p := InsortEntry(sc.lt, Rest(m, key), Entry(key, value));
  }

  /** When `Set` emits a notification, and that it emits at most one:
      a fresh key always notifies a truthy model, a replacement notifies it
      exactly when the item moved or some field value differs, and a model
      with a falsy sync id never notifies. */
  lemma SetEmits<K, T, V>(sc: Schema<T, V>, m: Model<K, T>, key: K, value: T)
    requires Consistent(m)
    ensures var r := Set(sc, m, key, value);
      && |r.events| <= 1
      && (!Truthy(m.syncId) ==> r.events == [])
      && (Truthy(m.syncId) && key !in m.data ==> |r.events| == 1)
      && (Truthy(m.syncId) && key in m.data ==>
            (r.events == [] <==>
               && r.model.sorted[PositionOf(m, key)] == Entry(key, value)
               && forall f | f in sc.fieldNames :: sc.get(value, f) == sc.get(m.data[key], f)))
  {
    var r := Set(sc, m, key, value);
    if Truthy(m.syncId) && key in m.data {
      var i := PositionOf(m, key);
      var p := SetPlacement(sc, m, key, value);
      var changed := ChangedFields(sc, sc.fieldNames, Some(m.data[key]), value);
      ListsKeysDistinct(r.model.sorted, r.model.data);
      assert r.model.sorted[i] == Entry(key, value) <==> i == p;
      if |changed| > 0 {
        assert changed[0] in changed;
      }
    }
  }

  /** What a notification emitted by `Set` says: the item's position before
      (none for a fresh key) and after, and exactly the fields that changed,
      each with its new value. */
  lemma SetEventContents<K, T, V>(sc: Schema<T, V>, m: Model<K, T>, key: K, value: T)
    requires Consistent(m)
    ensures var r := Set(sc, m, key, value);
      forall e | e in r.events ::
        && e.ModelItemSet?
        && Some(e.syncId) == m.syncId
        && e.indexThen == (if key in m.data then Some(PositionOf(m, key)) else None)
        && e.indexNow < |r.model.sorted| && r.model.sorted[e.indexNow] == Entry(key, value)
        && (forall f | f in sc.fieldNames && (key !in m.data || sc.get(value, f) != sc.get(m.data[key], f)) ::
              (f, sc.get(value, f)) in e.changedFields)
        && (forall c | c in e.changedFields ::
              && c.0 in sc.fieldNames && c.1 == sc.get(value, c.0)
              && (key !in m.data || sc.get(value, c.0) != sc.get(m.data[key], c.0)))
  {
    var p := SetPlacement(sc, m, key, value);
  }

  // The QML side of the protocol. It keeps one field dictionary per item,
  // in the model's order, and patches that list with each notification.

  /** The serialized fields of one item. */
  function ItemView<T, V>(sc: Schema<T, V>, item: T): map<string, V> {
    map f | f in sc.fieldNames :: sc.get(item, f)
  }

  lemma ItemViewSame<T, V>(sc: Schema<T, V>, a: T, b: T)
    requires forall f | f in sc.fieldNames :: sc.get(a, f) == sc.get(b, f)
    ensures ItemView(sc, a) == ItemView(sc, b)
  {
  }

  /** What the QML side holds for a sorted sequence. */
  function View<K, T, V>(sc: Schema<T, V>, s: seq<Entry<K, T>>): (r: seq<map<string, V>>)
    ensures |r| == |s| && forall i | 0 <= i < |s| :: r[i] == ItemView(sc, s[i].item)
  {
    seq(|s|, i requires 0 <= i < |s| => ItemView(sc, s[i].item))
  }

  /** Writes the `changedFields` of a notification into a field dictionary, in order. */
  function Patch<V>(d: map<string, V>, fields: seq<(string, V)>): map<string, V>
    decreases |fields|
  {
    if |fields| == 0 then d else Patch(d[fields[0].0 := fields[0].1], fields[1..])
  }

  /** Applies one notification to the QML side's list; `None` when an index
      in it is not a position of the list. */
  function ReplayOne<V>(view: seq<map<string, V>>, e: ModelEvent<V>): Option<seq<map<string, V>>> {
    match e
    case ModelItemSet(_, None, now, fields) =>
      if now <= |view| then Some(Insert(view, now, Patch(map[], fields))) else None
    case ModelItemSet(_, Some(before), now, fields) =>
      if before < |view| && now < |view| then Some(Insert(RemoveAt(view, before), now, Patch(view[before], fields)))
      else None
    case ModelItemDeleted(_, index) =>
      if index < |view| then Some(RemoveAt(view, index)) else None
    case ModelCleared(_) => Some([])
  }

  /** Applies notifications in emission order. */
  function Replay<V>(view: seq<map<string, V>>, events: seq<ModelEvent<V>>): Option<seq<map<string, V>>>
    decreases |events|
  {
    if |events| == 0 then Some(view)
    else
      match ReplayOne(view, events[0])
      case None => None
      case Some(next) => Replay(next, events[1..])
  }

  lemma {:induction false} ReplayConcat<V>(view: seq<map<string, V>>, a: seq<ModelEvent<V>>, b: seq<ModelEvent<V>>)
    ensures Replay(view, a + b) == match Replay(view, a) case None => None case Some(v) => Replay(v, b)
    decreases |a|
  {
    if |a| > 0 {
      assert (a + b)[0] == a[0] && (a + b)[1..] == a[1..] + b;
      match ReplayOne(view, a[0])
      case None =>
      case Some(next) => ReplayConcat(next, a[1..], b);
    } else {
      assert a + b == b;
    }
  }

  /** The field names a `changedFields` sequence mentions. */
  ghost function Named<V>(fields: seq<(string, V)>): set<string> {
    set c | c in fields :: c.0
  }

  /** Patching with pairs that all carry `item`'s values overwrites exactly
      the named fields with those values. */
  lemma {:induction false} PatchWith<T, V>(sc: Schema<T, V>, item: T, d: map<string, V>, fields: seq<(string, V)>)
    requires forall c | c in fields :: c.1 == sc.get(item, c.0)
    ensures Patch(d, fields).Keys == d.Keys + Named(fields)
    ensures forall f | f in Patch(d, fields) ::
      Patch(d, fields)[f] == if f in Named(fields) then sc.get(item, f) else d[f]
    decreases |fields|
  {
    if |fields| > 0 {
      var d' := d[fields[0].0 := fields[0].1];
      assert fields == [fields[0]] + fields[1..];
      assert Named(fields) == {fields[0].0} + Named(fields[1..]);
      PatchWith(sc, item, d', fields[1..]);
    }
  }

  /** Patching a dictionary of `prev`'s fields with the changed fields of a
      `Set` gives `item`'s dictionary. */
  lemma PatchChanged<T, V>(sc: Schema<T, V>, prev: Option<T>, item: T)
    ensures var start := if prev.None? then map[] else ItemView(sc, prev.value);
      Patch(start, ChangedFields(sc, sc.fieldNames, prev, item)) == ItemView(sc, item)
  {
    var changed := ChangedFields(sc, sc.fieldNames, prev, item);
    var start: map<string, V> := if prev.None? then map[] else ItemView(sc, prev.value);
    PatchWith(sc, item, start, changed);
    var r := Patch(start, changed);
    var want := ItemView(sc, item);
    assert r.Keys == want.Keys by {
      forall f | f in r ensures f in want {
        if f !in start { assert f in Named(changed); var c :| c in changed && c.0 == f; }
      }
      forall f | f in want ensures f in r {
        if prev.None? { assert (f, sc.get(item, f)) in changed; }
      }
    }
    forall f | f in r ensures r[f] == want[f] {
      assert prev.None? || sc.get(item, f) != sc.get(prev.value, f) ==> (f, sc.get(item, f)) in changed;
    }
  }

  lemma ViewInsert<K, T, V>(sc: Schema<T, V>, s: seq<Entry<K, T>>, i: nat, x: Entry<K, T>)
    requires i <= |s|
    ensures View(sc, Insert(s, i, x)) == Insert(View(sc, s), i, ItemView(sc, x.item))
  {
  }

  lemma ViewRemoveAt<K, T, V>(sc: Schema<T, V>, s: seq<Entry<K, T>>, i: nat)
    requires i < |s|
    ensures View(sc, RemoveAt(s, i)) == RemoveAt(View(sc, s), i)
  {
  }

  /** A move notification replays a remove-then-insert of one entry. */
  lemma ReplayMove<K, T, V>(sc: Schema<T, V>, s: seq<Entry<K, T>>, i: nat, p: nat, x: Entry<K, T>, id: SyncId, fields: seq<(string, V)>)
    requires i < |s| && p < |s|
    requires Patch(ItemView(sc, s[i].item), fields) == ItemView(sc, x.item)
    ensures Replay(View(sc, s), [ModelItemSet(id, Some(i), p, fields)]) == Some(View(sc, Insert(RemoveAt(s, i), p, x)))
  {
    ViewRemoveAt(sc, s, i);
    ViewInsert(sc, RemoveAt(s, i), p, x);
  }

  /** An insert notification replays an insert of one entry. */
  lemma ReplayFresh<K, T, V>(sc: Schema<T, V>, s: seq<Entry<K, T>>, p: nat, x: Entry<K, T>, id: SyncId, fields: seq<(string, V)>)
    requires p <= |s|
    requires Patch(map[], fields) == ItemView(sc, x.item)
    ensures Replay(View(sc, s), [ModelItemSet(id, None, p, fields)]) == Some(View(sc, Insert(s, p, x)))
  {
    ViewInsert(sc, s, p, x);
  }

  /** A replacement that neither moves the item nor changes a field value
      leaves the QML side's list as it was. */
  lemma SetSilent<K, T, V>(sc: Schema<T, V>, m: Model<K, T>, key: K, value: T)
    requires Consistent(m) && Truthy(m.syncId) && key in m.data
    requires Set(sc, m, key, value).events == []
    ensures View(sc, Set(sc, m, key, value).model.sorted) == View(sc, m.sorted)
  {
    var r := Set(sc, m, key, value);
    var i := PositionOf(m, key);
    SetEmits(sc, m, key, value);
    var p := SetPlacement(sc, m, key, value);
    var q := PositionOf(r.model, key);
    assert p == q && i == q;
    ItemViewSame(sc, value, m.data[key]);
    ViewStill(sc, m.sorted, r.model.sorted, i, Entry(key, value));
  }

  /** Taking one entry out and putting one with the same field values back
      where it was leaves the QML side's list as it was. */
  lemma ViewStill<K, T, V>(sc: Schema<T, V>, before: seq<Entry<K, T>>, after: seq<Entry<K, T>>, i: nat, x: Entry<K, T>)
    requires i < |before| && i < |after| && after[i] == x
    requires RemoveAt(after, i) == RemoveAt(before, i)
    requires ItemView(sc, x.item) == ItemView(sc, before[i].item)
    ensures View(sc, after) == View(sc, before)
  {
    InsertRemoveAt(after, i);
    ViewReplaceSame(sc, before, i, x);
  }

  /** Replacing an entry by one with the same field values changes nothing
      on the QML side. */
  lemma ViewReplaceSame<K, T, V>(sc: Schema<T, V>, s: seq<Entry<K, T>>, i: nat, x: Entry<K, T>)
    requires i < |s| && ItemView(sc, x.item) == ItemView(sc, s[i].item)
    ensures View(sc, Insert(RemoveAt(s, i), i, x)) == View(sc, s)
  {
    var a := View(sc, Insert(RemoveAt(s, i), i, x));
    var b := View(sc, s);
    forall q | 0 <= q < |a| ensures a[q] == b[q] {
      if q < i {
        assert Insert(RemoveAt(s, i), i, x)[q] == s[q];
      } else if q > i {
        assert Insert(RemoveAt(s, i), i, x)[q] == s[q];
      }
    }
  }

  /** Index-delta correctness of `Set`: replaying its notifications on the
      QML side's list for the old model yields the list for the new model,
      every index in them being a valid position. */
  lemma SetReplays<K, T, V>(sc: Schema<T, V>, m: Model<K, T>, key: K, value: T)
    requires Consistent(m) && Truthy(m.syncId)
    ensures var r := Set(sc, m, key, value);
      Replay(View(sc, m.sorted), r.events) == Some(View(sc, r.model.sorted))
  {
    var r := Set(sc, m, key, value);
    var p := SetPlacement(sc, m, key, value);
    SetEmits(sc, m, key, value);
    var x := Entry(key, value);
    var rest := RemoveAt(r.model.sorted, p);
    assert r.model.sorted == Insert(rest, p, x);
    var prev := if key in m.data then Some(m.data[key]) else None;
    PatchChanged(sc, prev, value);
    var changed := ChangedFields(sc, sc.fieldNames, prev, value);
    if r.events == [] {
      SetSilent(sc, m, key, value);
    } else if key in m.data {
      SetEventContents(sc, m, key, value);
      var i := PositionOf(m, key);
      assert r.events[0] in r.events;
      assert r.events == [ModelItemSet(m.syncId.value, Some(i), p, changed)];
      ReplayMove(sc, m.sorted, i, p, x, m.syncId.value, changed);
    } else {
      SetEventContents(sc, m, key, value);
      assert r.events[0] in r.events;
      assert r.events == [ModelItemSet(m.syncId.value, None, p, changed)];
      ReplayFresh(sc, m.sorted, p, x, m.syncId.value, changed);
    }
  }

  /** `s` without `key`: the dict's insertion order after `del d[key]`. */
  function Without<K(==)>(s: seq<K>, key: K): (r: seq<K>)
    ensures forall k | k in r :: k in s && k != key
    ensures forall k | k in s && k != key :: k in r
    ensures |r| <= |s|
  {
    if |s| == 0 then []
    else if s[0] == key then Without(s[1..], key)
    else [s[0]] + Without(s[1..], key)
  }

  lemma {:induction false} WithoutNoDup<K>(s: seq<K>, key: K)
    requires NoDup(s)
    ensures NoDup(Without(s, key))
    ensures key in s ==> |Without(s, key)| == |s| - 1
    ensures |s| > 0 && s[0] == key ==> Without(s, key) == s[1..]
    decreases |s|
  {
    if |s| > 0 {
      assert NoDup(s[1..]);
      WithoutNoDup(s[1..], key);
      if s[0] == key {
        WithoutAbsent(s[1..], key);
      } else {
        var r := [s[0]] + Without(s[1..], key);
        forall a, b | 0 <= a < b < |r| ensures r[a] != r[b] {
          if a == 0 { assert r[b] in Without(s[1..], key); }
        }
        if key in s { assert key in s[1..]; }
      }
    }
  }

  lemma {:induction false} WithoutAbsent<K>(s: seq<K>, key: K)
    requires key !in s
    ensures Without(s, key) == s
    decreases |s|
  {
    if |s| > 0 {
      WithoutAbsent(s[1..], key);
      assert s == [s[0]] + s[1..];
    }
  }

  /** `model[key]` (model.py `__getitem__`). */
  function Get<K, T>(m: Model<K, T>, key: K): (r: Result<T>)
    ensures r.Success? <==> key in m.data
    ensures r.Success? ==> r.value == m.data[key]
    ensures r.Failure? ==> r.error == KeyError
  {
    if key in m.data then Success(m.data[key]) else Failure(KeyError)
  }

  /** `len(model)` (model.py `__len__`): also the length of the sorted sequence. */
  function Len<K, T>(m: Model<K, T>): (r: nat)
    requires Consistent(m)
    ensures r == |m.sorted| && r == |m.insertion|
  {
    NoDupCard(m.insertion, m.data);
    |m.data|
  }

  /** A duplicate-free sequence of exactly the keys of a map is as long as the map. */
  lemma {:induction false} NoDupCard<K, T>(s: seq<K>, data: map<K, T>)
    requires NoDup(s) && (forall k | k in s :: k in data) && (forall k | k in data :: k in s)
    ensures |s| == |data|
    decreases |s|
  {
    if |s| > 0 {
      var k := s[0];
      var d := data - {k};
      assert NoDup(s[1..]);
      forall j | j in s[1..] ensures j in d {
        var q :| 1 <= q < |s| && s[q] == j;
      }
      forall j | j in d ensures j in s[1..] {
        assert j in s && j != s[0];
      }
      NoDupCard(s[1..], d);
    }
  }

  /** `del model[key]` (model.py `__delitem__`). */
  function Delete<K(==), T, V>(m: Model<K, T>, key: K): (r: Result<Step<K, T, V>>)
    requires Consistent(m)
    ensures r.Failure? <==> key !in m.data
    ensures r.Failure? ==> r.error == KeyError
    ensures r.Success? ==>
      && Consistent(r.value.model)
      && r.value.model.syncId == m.syncId
      && r.value.model.data == m.data - {key}
      && r.value.model.insertion == Without(m.insertion, key)
      && |r.value.model.sorted| == |m.sorted| - 1
  {
    if key !in m.data then Failure(KeyError)
    else
      var index := PositionOf(m, key);
      var events := if Truthy(m.syncId) then [ModelItemDeleted(m.syncId.value, index)] else [];
      ListsRemove(m.sorted, m.data, index);
      WithoutNoDup(m.insertion, key);
      Success(Step(Model(m.syncId, m.data - {key}, Without(m.insertion, key), RemoveAt(m.sorted, index)), events))
  }

  /** A delete takes out exactly the key's entry, leaving the others in
      their order, keeps the model sorted, and notifies a truthy model of
      the position the entry held just before removal. */
  lemma DeleteRemovesEntry<K, T, V>(sc: Schema<T, V>, m: Model<K, T>, key: K)
    requires Consistent(m) && key in m.data
    ensures var r := Delete<K, T, V>(m, key).value;
      var i := PositionOf(m, key);
      && m.sorted[i] == Entry(key, m.data[key])
      && r.model.sorted == RemoveAt(m.sorted, i)
      && (Ordered(sc, m) ==> Ordered(sc, r.model))
  {
    if Ordered(sc, m) {
      SortedRemoveAt(ByItem(sc.lt), m.sorted, PositionOf(m, key));
    }
  }

  /** A delete notifies a truthy model, once, of the position the entry
      held just before removal, and a model with a falsy sync id not at all. */
  lemma DeleteNotifies<K, T, V>(m: Model<K, T>, key: K)
    requires Consistent(m) && key in m.data
    ensures var r := Delete<K, T, V>(m, key).value;
      var i := PositionOf(m, key);
      && m.sorted[i].key == key
      && r.events == if Truthy(m.syncId) then [ModelItemDeleted(m.syncId.value, i)] else []
  {
  }

  /** Deleting the same key twice fails the second time. */
  lemma DeleteTwice<K, T, V>(m: Model<K, T>, key: K)
    requires Consistent(m) && key in m.data
    ensures Delete<K, T, V>(m, key).Success?
    ensures Delete<K, T, V>(Delete<K, T, V>(m, key).value.model, key) == Failure(KeyError)
  {
  }

  /** Index-delta correctness of `Delete`. */
  lemma DeleteReplays<K, T, V>(sc: Schema<T, V>, m: Model<K, T>, key: K)
    requires Consistent(m) && key in m.data && Truthy(m.syncId)
    ensures var r := Delete<K, T, V>(m, key).value;
      Replay(View(sc, m.sorted), r.events) == Some(View(sc, r.model.sorted))
  {
    var i := PositionOf(m, key);
    DeleteRemovesEntry<K, T, V>(sc, m, key);
    DeleteNotifies<K, T, V>(m, key);
    ReplayRemove(sc, m.sorted, i, m.syncId.value);
  }

  /** A delete notification replays a removal. */
  lemma ReplayRemove<K, T, V>(sc: Schema<T, V>, s: seq<Entry<K, T>>, i: nat, id: SyncId)
    requires i < |s|
    ensures Replay(View(sc, s), [ModelItemDeleted(id, i)]) == Some(View(sc, RemoveAt(s, i)))
  {
    ViewRemoveAt(sc, s, i);
  }

  /** The keys left to delete after deleting the first one. */
  lemma DropFirstKey<K, T>(data: map<K, T>, keys: seq<K>)
    requires NoDup(keys) && |keys| > 0 && forall k | k in keys :: k in data
    ensures NoDup(keys[1..])
    ensures forall k | k in keys[1..] :: k in data - {keys[0]}
    ensures (data - {keys[0]}) - (set k | k in keys[1..]) == data - (set k | k in keys)
  {
    forall k | k in keys[1..] ensures k in data - {keys[0]} {
      var j :| 1 <= j < |keys| && keys[j] == k;
    }
    assert keys == [keys[0]] + keys[1..];
  }

  /** The entries of `s` whose key is not in `drop`, in their order. */
  function Keep<K(==), T>(s: seq<Entry<K, T>>, drop: set<K>): (r: seq<Entry<K, T>>)
    ensures |r| <= |s|
  {
    if |s| == 0 then []
    else (if s[0].key in drop then [] else [s[0]]) + Keep(s[1..], drop)
  }

  lemma {:induction false} KeepNothing<K, T>(s: seq<Entry<K, T>>)
    ensures Keep(s, {}) == s
    decreases |s|
  {
    if |s| > 0 {
      KeepNothing(s[1..]);
      assert s == [s[0]] + s[1..];
    }
  }

  /** Dropping a key no entry has changes nothing. */
  lemma {:induction false} KeepAbsent<K, T>(s: seq<Entry<K, T>>, drop: set<K>, k: K)
    requires forall j | 0 <= j < |s| :: s[j].key != k
    ensures Keep(s, drop + {k}) == Keep(s, drop)
    decreases |s|
  {
    if |s| > 0 {
      KeepAbsent(s[1..], drop, k);
      assert (s[0].key in drop + {k}) == (s[0].key in drop);
    }
  }

  /** Removing the only entry with key `k` is dropping `k`. */
  lemma {:induction false} KeepRemoveAt<K, T>(s: seq<Entry<K, T>>, i: nat, drop: set<K>)
    requires i < |s| && forall j | 0 <= j < |s| && j != i :: s[j].key != s[i].key
    ensures Keep(RemoveAt(s, i), drop) == Keep(s, drop + {s[i].key})
    decreases i
  {
    var k := s[i].key;
    if i == 0 {
      assert RemoveAt(s, 0) == s[1..];
      KeepAbsent(s[1..], drop, k);
    } else {
      KeepRemoveAt(s[1..], i - 1, drop);
      assert RemoveAt(s, i)[0] == s[0] && RemoveAt(s, i)[1..] == RemoveAt(s[1..], i - 1);
      assert (s[0].key in drop + {k}) == (s[0].key in drop);
    }
  }

  /** Deleting the first of `keys`, then dropping the rest, is dropping
      them all. */
  lemma KeepStep<K, T>(s: seq<Entry<K, T>>, i: nat, keys: seq<K>)
    requires i < |s| && forall j | 0 <= j < |s| && j != i :: s[j].key != s[i].key
    requires |keys| > 0 && s[i].key == keys[0]
    ensures Keep(RemoveAt(s, i), set k | k in keys[1..]) == Keep(s, set k | k in keys)
  {
    KeepRemoveAt(s, i, set k | k in keys[1..]);
    assert (set k | k in keys[1..]) + {s[i].key} == set k | k in keys;
  }

  /** Deletes `keys` one after the other, as a loop of `del model[k]`;
      the notifications are those of the single deletes, in order. */
  function DeleteKeys<K(==), T, V>(m: Model<K, T>, keys: seq<K>): (r: Step<K, T, V>)
    requires Consistent(m) && NoDup(keys) && forall k | k in keys :: k in m.data
    ensures Consistent(r.model)
    ensures r.model.syncId == m.syncId
    ensures r.model.data == m.data - (set k | k in keys)
    ensures |r.events| == if Truthy(m.syncId) then |keys| else 0
    decreases |keys|
  {
    if |keys| == 0 then
      assert m.data - (set k | k in keys) == m.data;
      Step(m, [])
    else
      var first := Delete<K, T, V>(m, keys[0]).value;
      DeleteNotifies<K, T, V>(m, keys[0]);
      DropFirstKey(m.data, keys);
      var rest := DeleteKeys<K, T, V>(first.model, keys[1..]);
      Step(rest.model, first.events + rest.events)
  }

  /** One step of `DeleteKeys`: the first delete removes the first key's
      entry where it stood, and the rest is a `DeleteKeys` of the others. */
  lemma DeleteKeysStep<K, T, V>(m: Model<K, T>, keys: seq<K>) returns (first: Model<K, T>, i: nat)
    requires Consistent(m) && NoDup(keys) && |keys| > 0 && forall k | k in keys :: k in m.data
    ensures Consistent(first) && NoDup(keys[1..]) && forall k | k in keys[1..] :: k in first.data
    ensures i < |m.sorted| && m.sorted[i].key == keys[0]
    ensures forall j | 0 <= j < |m.sorted| && j != i :: m.sorted[j].key != m.sorted[i].key
    ensures first.sorted == RemoveAt(m.sorted, i)
    ensures DeleteKeys<K, T, V>(m, keys).model == DeleteKeys<K, T, V>(first, keys[1..]).model
  {
    first := Delete<K, T, V>(m, keys[0]).value.model;
    i := PositionOf(m, keys[0]);
    DropFirstKey(m.data, keys);
    ListsKeysDistinct(m.sorted, m.data);
  }

  /** Deleting keys one by one leaves the other entries in their order. */
  lemma {:induction false} DeleteKeysKeeps<K, T, V>(m: Model<K, T>, keys: seq<K>)
    requires Consistent(m) && NoDup(keys) && forall k | k in keys :: k in m.data
    ensures DeleteKeys<K, T, V>(m, keys).model.sorted == Keep(m.sorted, set k | k in keys)
    decreases |keys|
  {
    if |keys| == 0 {
      KeepNothing(m.sorted);
    } else {
      var first, i := DeleteKeysStep<K, T, V>(m, keys);
      DeleteKeysKeeps<K, T, V>(first, keys[1..]);
      KeepStep(m.sorted, i, keys);
    }
  }

  /** Every notification in `events` is a `ModelItemDeleted` for `id`. */
  ghost predicate AllDeletes<V>(events: seq<ModelEvent<V>>, id: Option<SyncId>) {
    forall i | 0 <= i < |events| :: events[i].ModelItemDeleted? && Some(events[i].syncId) == id
  }

  lemma AllDeletesConcat<V>(a: seq<ModelEvent<V>>, b: seq<ModelEvent<V>>, id: Option<SyncId>)
    requires AllDeletes(a, id) && AllDeletes(b, id)
    ensures AllDeletes(a + b, id)
  {
    forall i | 0 <= i < |a + b| ensures (a + b)[i].ModelItemDeleted? && Some((a + b)[i].syncId) == id {
      if i >= |a| { assert (a + b)[i] == b[i - |a|]; }
    }
  }

  /** Every notification of a run of deletes is a `ModelItemDeleted` for the model. */
  lemma {:induction false} DeleteKeysNotifies<K, T, V>(m: Model<K, T>, keys: seq<K>)
    requires Consistent(m) && NoDup(keys) && forall k | k in keys :: k in m.data
    ensures AllDeletes(DeleteKeys<K, T, V>(m, keys).events, m.syncId)
    decreases |keys|
  {
    if |keys| > 0 {
      var first := Delete<K, T, V>(m, keys[0]).value;
      DeleteNotifies<K, T, V>(m, keys[0]);
      assert AllDeletes(first.events, m.syncId);
      DropFirstKey(m.data, keys);
      DeleteKeysNotifies<K, T, V>(first.model, keys[1..]);
      var rest := DeleteKeys<K, T, V>(first.model, keys[1..]);
      assert DeleteKeys<K, T, V>(m, keys).events == first.events + rest.events;
      AllDeletesConcat(first.events, rest.events, m.syncId);
    }
  }

  /** Deleting several keys keeps the model sorted, and replaying the
      notifications on the QML side's list gives the list for the result. */
  lemma {:induction false} DeleteKeysReplays<K, T, V>(sc: Schema<T, V>, m: Model<K, T>, keys: seq<K>)
    requires Consistent(m) && NoDup(keys) && forall k | k in keys :: k in m.data
    ensures var r := DeleteKeys<K, T, V>(m, keys);
      && (Ordered(sc, m) ==> Ordered(sc, r.model))
      && (Truthy(m.syncId) ==> Replay(View(sc, m.sorted), r.events) == Some(View(sc, r.model.sorted)))
    decreases |keys|
  {
    if |keys| > 0 {
      var first := Delete<K, T, V>(m, keys[0]).value;
      DeleteRemovesEntry<K, T, V>(sc, m, keys[0]);
      DropFirstKey(m.data, keys);
      DeleteKeysReplays(sc, first.model, keys[1..]);
      var rest := DeleteKeys<K, T, V>(first.model, keys[1..]);
      assert DeleteKeys<K, T, V>(m, keys) == Step(rest.model, first.events + rest.events);
      if Truthy(m.syncId) {
        DeleteReplays(sc, m, keys[0]);
        ReplayConcat(View(sc, m.sorted), first.events, rest.events);
      }
    }
  }

  /** `model.clear()` (model.py `clear`): pops the keys in insertion order
      through `__delitem__`, then sends one `ModelCleared`. */
  function Clear<K(==), T, V>(m: Model<K, T>): (r: Step<K, T, V>)
    requires Consistent(m)
    ensures r.model == Empty(m.syncId)
    ensures !Truthy(m.syncId) ==> r.events == []
    ensures Truthy(m.syncId) ==>
      && |r.events| == |m.data| + 1
      && AllDeletes(r.events[..|m.data|], m.syncId)
      && r.events[|m.data|] == ModelCleared(m.syncId.value)
  {
    NoDupCard(m.insertion, m.data);
    var deleted := DeleteKeys<K, T, V>(m, m.insertion);
    DeleteKeysNotifies<K, T, V>(m, m.insertion);
    ClearedEmpty(deleted.model, m.insertion, m.data);
    var events := deleted.events + if Truthy(m.syncId) then [ModelCleared(m.syncId.value)] else [];
    assert events[..|deleted.events|] == deleted.events;
    Step(Empty(m.syncId), events)
  }

  /** A consistent model whose keys were all deleted is the empty model. */
  lemma ClearedEmpty<K, T>(m: Model<K, T>, keys: seq<K>, data: map<K, T>)
    requires Consistent(m) && m.data == data - (set k | k in keys)
    requires forall k | k in data :: k in keys
    ensures m == Empty(m.syncId)
  {
    assert m.data == map[];
    NoDupCard(m.insertion, m.data);
  }

  /** Replaying the notifications of `Clear` succeeds at every step and
      leaves the QML side's list empty. */
  lemma ClearReplays<K, T, V>(sc: Schema<T, V>, m: Model<K, T>)
    requires Consistent(m) && Truthy(m.syncId)
    ensures Replay(View(sc, m.sorted), Clear<K, T, V>(m).events) == Some([])
  {
    var deleted := DeleteKeys<K, T, V>(m, m.insertion);
    var last: seq<ModelEvent<V>> := [ModelCleared(m.syncId.value)];
    assert Clear<K, T, V>(m).events == deleted.events + last;
    DeleteKeysReplays(sc, m, m.insertion);
    var mid := Replay(View(sc, m.sorted), deleted.events);
    assert mid.Some?;
    ReplayConcat(View(sc, m.sorted), deleted.events, last);
    assert Replay(mid.value, last) == Some([]);
  }

  /** The entries for `keys`, in the order of `keys`. */
  function Entries<K, T>(keys: seq<K>, data: map<K, T>): (r: seq<Entry<K, T>>)
    requires forall k | k in keys :: k in data
    ensures |r| == |keys| && forall i | 0 <= i < |keys| :: r[i] == Entry(keys[i], data[keys[i]])
  {
    seq(|keys|, i requires 0 <= i < |keys| => Entry(keys[i], data[keys[i]]))
  }

  /** The keys left to set after setting the first one. */
  lemma DropFirstFresh<K, T>(had: map<K, T>, keys: seq<K>, data: map<K, T>, has: map<K, T>)
    requires NoDup(keys) && |keys| > 0
    requires forall k | k in keys :: k in data && k !in had
    requires has == had[keys[0] := data[keys[0]]]
    ensures NoDup(keys[1..])
    ensures forall k | k in keys[1..] :: k in data && k !in has
    ensures forall k | k in keys :: k == keys[0] || k in keys[1..]
  {
    forall k | k in keys[1..] ensures k in data && k !in has {
      var j :| 1 <= j < |keys| && keys[j] == k;
    }
    assert keys == [keys[0]] + keys[1..];
  }

  lemma AppendFirst<K>(a: seq<K>, keys: seq<K>)
    requires |keys| > 0
    ensures a + [keys[0]] + keys[1..] == a + keys
  {
    assert keys == [keys[0]] + keys[1..];
  }

  /** Sets `keys` one after the other, as a loop of `model[k] = data[k]`
      over keys the model does not hold yet. */
  function SetAll<K(==), T, V(==)>(sc: Schema<T, V>, acc: Model<K, T>, keys: seq<K>, data: map<K, T>): (r: Step<K, T, V>)
    requires Consistent(acc) && NoDup(keys)
    requires forall k | k in keys :: k in data && k !in acc.data
    ensures Consistent(r.model)
    ensures r.model.syncId == acc.syncId
    ensures r.model.insertion == acc.insertion + keys
    ensures forall k | k in acc.data :: k in r.model.data
    ensures forall k | k in keys :: k in r.model.data
    ensures forall k | k in r.model.data :: k in acc.data || k in keys
    ensures forall k | k in r.model.data :: r.model.data[k] == if k in acc.data then acc.data[k] else data[k]
    decreases |keys|
  {
    if |keys| == 0 then
      assert acc.insertion + keys == acc.insertion;
      Step(acc, [])
    else
      var first := Set(sc, acc, keys[0], data[keys[0]]);
      DropFirstFresh(acc.data, keys, data, first.model.data);
      var rest := SetAll(sc, first.model, keys[1..], data);
      AppendFirst(acc.insertion, keys);
      Step(rest.model, first.events + rest.events)
  }

  /** A model with a falsy sync id fills silently. */
  lemma {:induction false} SetAllSilent<K, T, V>(sc: Schema<T, V>, acc: Model<K, T>, keys: seq<K>, data: map<K, T>)
    requires Consistent(acc) && NoDup(keys)
    requires forall k | k in keys :: k in data && k !in acc.data
    ensures !Truthy(acc.syncId) ==> SetAll(sc, acc, keys, data).events == []
    decreases |keys|
  {
    if |keys| > 0 {
      var first := Set(sc, acc, keys[0], data[keys[0]]);
      DropFirstFresh(acc.data, keys, data, first.model.data);
      SetEmits(sc, acc, keys[0], data[keys[0]]);
      SetAllSilent(sc, first.model, keys[1..], data);
    }
  }

  lemma SameMap<K, T>(a: map<K, T>, b: map<K, T>, keys: seq<K>)
    requires (forall k | k in b :: k in keys) && (forall k | k in keys :: k in b)
    requires (forall k | k in keys :: k in a) && (forall k | k in a :: k in keys)
    requires forall k | k in a :: a[k] == b[k]
    ensures a == b
  {
  }

  /** Setting a fresh key is `bisect.insort` of its entry. */
  lemma SetFreshInsorts<K, T, V>(sc: Schema<T, V>, m: Model<K, T>, key: K, value: T)
    requires Consistent(m) && key !in m.data
    ensures Set(sc, m, key, value).model.sorted == Insort(ByItem(sc.lt), m.sorted, Entry(key, value))
  {
  }

  /** `model.copy(sync_id)` (model.py `copy`): a new model with the given
      sync id, filled by setting the keys in insertion order. */
  function Copy<K(==), T, V(==)>(sc: Schema<T, V>, m: Model<K, T>, syncId: Option<SyncId>): (r: Step<K, T, V>)
    requires Consistent(m)
    ensures Consistent(r.model)
    ensures r.model.syncId == syncId
    ensures r.model.data == m.data
    ensures r.model.insertion == m.insertion
    ensures !Truthy(syncId) ==> r.events == []
  {
    var r := SetAll(sc, Empty(syncId), m.insertion, m.data);
    SameMap(r.model.data, m.data, m.insertion);
    SetAllSilent(sc, Empty(syncId), m.insertion, m.data);
    r
  }

  /** Setting fresh keys one by one insertion-sorts their entries onto the
      model's sorted sequence. */
  lemma {:induction false} SetAllSorts<K, T, V>(sc: Schema<T, V>, acc: Model<K, T>, keys: seq<K>, data: map<K, T>)
    requires Consistent(acc) && NoDup(keys)
    requires forall k | k in keys :: k in data && k !in acc.data
    ensures SetAll(sc, acc, keys, data).model.sorted == InsortAll(ByItem(sc.lt), acc.sorted, Entries(keys, data))
    decreases |keys|
  {
    if |keys| > 0 {
      var first := Set(sc, acc, keys[0], data[keys[0]]);
      SetFreshInsorts(sc, acc, keys[0], data[keys[0]]);
      DropFirstFresh(acc.data, keys, data, first.model.data);
      SetAllSorts(sc, first.model, keys[1..], data);
      EntriesTail(keys, data);
    }
  }

  lemma EntriesTail<K, T>(keys: seq<K>, data: map<K, T>)
    requires |keys| > 0 && forall k | k in keys :: k in data
    ensures Entries(keys, data)[0] == Entry(keys[0], data[keys[0]])
    ensures Entries(keys, data)[1..] == Entries(keys[1..], data)
  {
  }

  /** The copy's sorted sequence is the stable sort of the entries taken in
      insertion order; under a strict weak order it is sorted. Items that
      compare equal may therefore come out in a different order than in
      the original model. */
  lemma CopySorted<K(!new), T(!new), V>(sc: Schema<T, V>, m: Model<K, T>, syncId: Option<SyncId>)
    requires Consistent(m)
    ensures Copy(sc, m, syncId).model.sorted == SortSeq(ByItem(sc.lt), Entries(m.insertion, m.data))
    ensures StrictWeakOrder(sc.lt) ==> Ordered(sc, Copy(sc, m, syncId).model)
  {
    var entries := Entries(m.insertion, m.data);
    CopyIsSortSeq(sc, m, syncId, entries);
    if StrictWeakOrder(sc.lt) {
      ByItemOrder<K, T>(sc.lt);
      SortSeqSorted(ByItem(sc.lt), entries);
    }
  }

  /** Inserting the entries one by one into an empty model sorts them. */
  lemma CopyIsSortSeq<K, T, V>(sc: Schema<T, V>, m: Model<K, T>, syncId: Option<SyncId>, entries: seq<Entry<K, T>>)
    requires Consistent(m) && entries == Entries(m.insertion, m.data)
    ensures Copy(sc, m, syncId).model.sorted == SortSeq(ByItem(sc.lt), entries)
  {
    SetAllSorts(sc, Empty(syncId), m.insertion, m.data);
    InsortAllSortSeq(ByItem(sc.lt), [], entries);
    assert [] + entries == entries;
  }
}

=== FILE: model_item.dfy ===
/** Field writes on an item held by a model (`ModelItem` in
    src/backend/models/model_item.py).

    An item knows its model through `parent_model`, which `__setitem__`
    sets only when the model's sync id is truthy. Writing a field of such an
    item re-sorts the model's sorted list with Python's stable `list.sort()`
    and notifies QML of the item's move and of the one changed field. An
    item whose `parent_model` is `None` takes the write without telling
    anyone.

    The item is named here by the key it is stored under in the model.
 */
module ModelItems {
  import opened Wrappers
  import opened Orders
  import opened Models

  /** The field accessors behave like dataclass attributes: a field reads
      back what was last written to it, and writing one field leaves the
      others as they were. */
  ghost predicate Lawful<T(!new), V(!new)>(sc: Schema<T, V>) {
    && (forall t, f, v :: sc.get(sc.put(t, f, v), f) == v)
    && (forall t, f, g, v | f != g :: sc.get(sc.put(t, f, v), g) == sc.get(t, g))
  }

  /** The model after the item under `key` became `item` and the sorted
      sequence was sorted again (`list.sort()`, which is stable). */
  function Resort<K(==), T, V>(sc: Schema<T, V>, m: Model<K, T>, key: K, item: T): (r: Model<K, T>)
    requires Consistent(m) && key in m.data
    ensures Consistent(r)
    ensures r.syncId == m.syncId && r.insertion == m.insertion
    ensures r.data == m.data[key := item]
  {
    var i := PositionOf(m, key);
    var s := m.sorted[i := Entry(key, item)];
    ListsUpdate(m.sorted, m.data, i, item);
    ListsSort(ByItem(sc.lt), s, m.data[key := item]);
    Model(m.syncId, m.data[key := item], m.insertion, SortSeq(ByItem(sc.lt), s))
  }

  /** The model after the item under `key` became `item` where it stands,
      without sorting. */
  function WriteInPlace<K(==), T>(m: Model<K, T>, key: K, item: T): (r: Model<K, T>)
    requires Consistent(m) && key in m.data
    ensures Consistent(r)
    ensures r.syncId == m.syncId && r.insertion == m.insertion
    ensures r.data == m.data[key := item]
  {
    var i := PositionOf(m, key);
    ListsUpdate(m.sorted, m.data, i, item);
    Model(m.syncId, m.data[key := item], m.insertion, m.sorted[i := Entry(key, item)])
  }

  /** `item.name = value` for the item stored under `key` in `m`
      (model_item.py `__setattr__`). A key the model does not hold stands
      for an item outside it: the write does not touch the model. */
  function SetField<K(==), T, V(==)>(sc: Schema<T, V>, m: Model<K, T>, key: K, name: string, value: V): (r: Result<Step<K, T, V>>)
    requires Consistent(m)
    ensures r.Failure? <==> Truthy(m.syncId) && key in m.data && name != "parent_model" && name !in sc.fieldNames
    ensures r.Failure? ==> r.error == AttributeError
    ensures r.Success? ==>
      && Consistent(r.value.model)
      && r.value.model.syncId == m.syncId
      && r.value.model.insertion == m.insertion
      && (r.value.model.data == m.data || (key in m.data && r.value.model.data == m.data[key := sc.put(m.data[key], name, value)]))
  {
    if name == "parent_model" || key !in m.data then
      Success(Step(m, []))
    else if !Truthy(m.syncId) then
      // No parent model: a plain attribute write, the sorted list is left alone.
      if name in sc.fieldNames then Success(Step(WriteInPlace(m, key, sc.put(m.data[key], name, value)), []))
      else Success(Step(m, []))
    else
      SetFieldResorted(sc, m, key, name, value)
  }

  /** `__setattr__` as it behaves for an item whose `parent_model` is set:
      `getattr` fails on a name that is not a field, an equal value changes
      nothing, any other value is written, the list is re-sorted, and a
      model with a truthy sync id is told where the item went and what its
      field now holds. */
  function SetFieldResorted<K(==), T, V(==)>(sc: Schema<T, V>, m: Model<K, T>, key: K, name: string, value: V): (r: Result<Step<K, T, V>>)
    requires Consistent(m)
    ensures r.Failure? <==> key in m.data && name != "parent_model" && name !in sc.fieldNames
    ensures r.Failure? ==> r.error == AttributeError
    ensures r.Success? ==>
      && Consistent(r.value.model)
      && r.value.model.syncId == m.syncId
      && r.value.model.insertion == m.insertion
      && (r.value.model.data == m.data || (key in m.data && r.value.model.data == m.data[key := sc.put(m.data[key], name, value)]))
  {
    if name == "parent_model" || key !in m.data then
      Success(Step(m, []))
    else if name !in sc.fieldNames then
      Failure(AttributeError)
    else if sc.get(m.data[key], name) == value then
      Success(Step(m, []))
    else
      var item := sc.put(m.data[key], name, value);
      var r := Resort(sc, m, key, item);
      var events :=
        if Truthy(m.syncId)
        then [ModelItemSet(m.syncId.value, Some(PositionOf(m, key)), PositionOf(r, key), [(name, sc.get(item, name))])]
        else [];
      Success(Step(r, events))
  }

  /** `del item.name` (model_item.py `__delattr__`): never allowed. */
  function DelField<K, T, V>(m: Model<K, T>, key: K, name: string): (r: Result<Step<K, T, V>>)
    ensures r.Failure? && r.error == NotImplementedError
  {
    Failure(NotImplementedError)
  }

  /** After a successful field write the stored item reads `value` in
      that field and its other fields are as before. */
  lemma SetFieldWrites<K, T(!new), V(!new)>(sc: Schema<T, V>, m: Model<K, T>, key: K, name: string, value: V)
    requires Consistent(m) && Lawful(sc) && key in m.data && name in sc.fieldNames && name != "parent_model"
    requires SetField(sc, m, key, name, value).Success?
    ensures var d := SetField(sc, m, key, name, value).value.model.data;
      && sc.get(d[key], name) == value
      && forall g | g in sc.fieldNames && g != name :: sc.get(d[key], g) == sc.get(m.data[key], g)
  {
  }

  /** Whether a field write tells QML anything: only when the model has a
      truthy sync id and the value differs, and then with one notice. */
  lemma SetFieldNotifies<K, T, V>(sc: Schema<T, V>, m: Model<K, T>, key: K, name: string, value: V)
    requires Consistent(m)
    requires SetField(sc, m, key, name, value).Success?
    ensures var r := SetField(sc, m, key, name, value).value;
      && |r.events| <= 1
      && (r.events != [] <==>
            Truthy(m.syncId) && key in m.data && name != "parent_model" && sc.get(m.data[key], name) != value)
  {
  }

  /** The one notice a field write sends names the item's old and new
      positions and the field's new value. */
  lemma SetFieldEvent<K, T, V>(sc: Schema<T, V>, m: Model<K, T>, key: K, name: string, value: V)
    requires Consistent(m)
    requires SetField(sc, m, key, name, value).Success?
    ensures var r := SetField(sc, m, key, name, value).value;
      forall e | e in r.events ::
        && Some(e.syncId) == m.syncId
        && e.ModelItemSet?
        && e.indexThen == Some(PositionOf(m, key))
        && e.indexNow < |r.model.sorted| && r.model.sorted[e.indexNow].key == key
        && e.changedFields == [(name, sc.get(r.model.data[key], name))]
  {
  }

  /** A field write reorders at most: the new sorted sequence holds the
      old entries with the written item updated where it stood, and the
      model's size is unchanged. */
  lemma SetFieldPermutes<K, T, V>(sc: Schema<T, V>, m: Model<K, T>, key: K, name: string, value: V)
    requires Consistent(m) && key in m.data && name in sc.fieldNames && name != "parent_model"
    requires SetField(sc, m, key, name, value).Success?
    ensures var r := SetField(sc, m, key, name, value).value.model;
      && |r.sorted| == |m.sorted| && |r.data| == |m.data|
      && multiset(r.sorted) == multiset(m.sorted[PositionOf(m, key) := Entry(key, r.data[key])])
  {
  }

  /** With a truthy sync id the item's `parent_model` is set, so the write
      is the re-sorting one. */
  lemma SetFieldSynced<K, T, V>(sc: Schema<T, V>, m: Model<K, T>, key: K, name: string, value: V)
    requires Consistent(m) && Truthy(m.syncId)
    ensures SetField(sc, m, key, name, value) == SetFieldResorted(sc, m, key, name, value)
  {
  }

  /** The re-sorting write keeps the model in `__lt__` order. */
  lemma SetFieldResortedKeepsOrder<K(!new), T(!new), V>(sc: Schema<T, V>, m: Model<K, T>, key: K, name: string, value: V)
    requires StrictWeakOrder(sc.lt) && Consistent(m) && Ordered(sc, m)
    requires SetFieldResorted(sc, m, key, name, value).Success?
    ensures Ordered(sc, SetFieldResorted(sc, m, key, name, value).value.model)
  {
    if key in m.data && name in sc.fieldNames && sc.get(m.data[key], name) != value {
      var i := PositionOf(m, key);
      ByItemOrder<K, T>(sc.lt);
      SortSeqSorted(ByItem(sc.lt), m.sorted[i := Entry(key, sc.put(m.data[key], name, value))]);
    }
  }

  /** A field write on an item of a synced model keeps the model sorted. */
  lemma SetFieldKeepsOrder<K(!new), T(!new), V>(sc: Schema<T, V>, m: Model<K, T>, key: K, name: string, value: V)
    requires StrictWeakOrder(sc.lt) && Consistent(m) && Ordered(sc, m) && Truthy(m.syncId)
    requires SetField(sc, m, key, name, value).Success?
    ensures Ordered(sc, SetField(sc, m, key, name, value).value.model)
  {
    SetFieldSynced(sc, m, key, name, value);
    SetFieldResortedKeepsOrder(sc, m, key, name, value);
  }

  /** The re-sort after a field write moves the one item: the new sorted
      sequence is the old one with the item taken out of its old position
      and put, with its new value, at the position the notification names. */
  lemma SetFieldMoves<K(!new), T(!new), V>(sc: Schema<T, V>, m: Model<K, T>, key: K, name: string, value: V)
    requires StrictWeakOrder(sc.lt) && Consistent(m) && Ordered(sc, m) && Truthy(m.syncId)
    requires key in m.data && name in sc.fieldNames && name != "parent_model" && sc.get(m.data[key], name) != value
    ensures var r := SetField(sc, m, key, name, value).value;
      && |r.events| == 1 && r.events[0].ModelItemSet? && r.events[0].indexThen.Some?
      && r.events[0].indexThen.value < |m.sorted| && r.events[0].indexNow < |m.sorted|
      && r.model.sorted == Insert(RemoveAt(m.sorted, r.events[0].indexThen.value), r.events[0].indexNow, Entry(key, r.model.data[key]))
  {
    var i := PositionOf(m, key);
    var item := sc.put(m.data[key], name, value);
    var y := Entry(key, item);
    var r := Resort(sc, m, key, item);
    ByItemOrder<K, T>(sc.lt);
    var j := ResortIsMove(ByItem(sc.lt), m.sorted, i, y);
    ListsKeysDistinct(r.sorted, r.data);
    assert PositionOf(r, key) == j;
  }

  /** Index-delta correctness of a field write on a synced model:
      replaying its notifications on the QML side's list for the old model
      yields the list for the new one. */
  lemma SetFieldReplays<K(!new), T(!new), V(!new)>(sc: Schema<T, V>, m: Model<K, T>, key: K, name: string, value: V)
    requires Lawful(sc) && StrictWeakOrder(sc.lt) && Consistent(m) && Ordered(sc, m) && Truthy(m.syncId)
    requires SetField(sc, m, key, name, value).Success?
    ensures var r := SetField(sc, m, key, name, value).value;
      Replay(View(sc, m.sorted), r.events) == Some(View(sc, r.model.sorted))
  {
    if key in m.data && name != "parent_model" && sc.get(m.data[key], name) != value {
      var i := PositionOf(m, key);
      var item := sc.put(m.data[key], name, value);
      var r := SetField(sc, m, key, name, value).value;
      SetFieldMoves(sc, m, key, name, value);
      var fields := [(name, sc.get(item, name))];
      PatchOneField(sc, m.data[key], name, value);
      ReplayMove(sc, m.sorted, i, r.events[0].indexNow, Entry(key, item), m.syncId.value, fields);
    }
  }

  /** The one-field patch of a notification turns the old item's fields
      into the new item's. */
  lemma PatchOneField<T(!new), V(!new)>(sc: Schema<T, V>, item: T, name: string, value: V)
    requires Lawful(sc) && name in sc.fieldNames
    ensures var next := sc.put(item, name, value);
      Patch(ItemView(sc, item), [(name, sc.get(next, name))]) == ItemView(sc, next)
  {
    var next := sc.put(item, name, value);
    var fields := [(name, sc.get(next, name))];
    assert fields[1..] == [];
    assert Patch(ItemView(sc, item), fields) == ItemView(sc, item)[name := sc.get(next, name)];
  }

  /** As written, a field write on an item of a model whose sync id is
      falsy can leave the model out of order: `__setitem__` never gave the
      item a `parent_model`, so nothing re-sorts. Whenever the new item is
      greater than its successor, the successor is now less than the entry
      before it (two items 1 and 2, the first set to 3, is such a case). */
  lemma SetFieldUnsyncedUnsorts<K, T, V>(sc: Schema<T, V>, m: Model<K, T>, key: K, name: string, value: V)
    requires Consistent(m) && !Truthy(m.syncId)
    requires key in m.data && name in sc.fieldNames && name != "parent_model"
    requires PositionOf(m, key) + 1 < |m.sorted|
    requires sc.lt(m.sorted[PositionOf(m, key) + 1].item, sc.put(m.data[key], name, value))
    ensures SetField(sc, m, key, name, value).Success?
    ensures !Ordered(sc, SetField(sc, m, key, name, value).value.model)
  {
    var i := PositionOf(m, key);
    var s := SetField(sc, m, key, name, value).value.model.sorted;
    assert s[i + 1] == m.sorted[i + 1] && s[i] == Entry(key, sc.put(m.data[key], name, value));
    assert ByItem(sc.lt)(s[i + 1], s[i]);
  }
}

=== FILE: orders.dfy ===
/** Orderings, sortedness, and the two sequence algorithms the collection
    uses to keep its items ordered: `bisect.bisect` (bisect-right binary
    search, followed by a positional insert) and `list.sort` (a stable
    sort, modelled as insertion sort built on the same bisect-right insert).

    Every item kind supplies a `__lt__`; the collection only ever asks
    `new < other`. The lemmas here hold for any `lt` that is a strict weak
    order: irreflexive, transitive, and with a transitive incomparability.
 */
module Orders {

  ghost predicate StrictWeakOrder<T(!new)>(lt: (T, T) -> bool) {
    && (forall a :: !lt(a, a))
    && (forall a, b, c :: lt(a, b) && lt(b, c) ==> lt(a, c))
    && (forall a, b, c :: !lt(a, b) && !lt(b, c) ==> !lt(a, c))
  }

  /** No element is strictly less than an element before it. */
  ghost predicate Sorted<T>(lt: (T, T) -> bool, s: seq<T>) {
    forall i, j | 0 <= i < j < |s| :: !lt(s[j], s[i])
  }

  ghost predicate NoDup<T>(s: seq<T>) {
    forall i, j | 0 <= i < j < |s| :: s[i] != s[j]
  }

  /** `list.insert(i, x)` */
  function Insert<T>(s: seq<T>, i: nat, x: T): (r: seq<T>)
    requires i <= |s|
    ensures |r| == |s| + 1
    ensures r[i] == x
    ensures forall j | 0 <= j < i :: r[j] == s[j]
    ensures forall j | i < j < |r| :: r[j] == s[j - 1]
  {
    s[..i] + [x] + s[i..]
  }

  /** `del list[i]` */
  function RemoveAt<T>(s: seq<T>, i: nat): (r: seq<T>)
    requires i < |s|
    ensures |r| == |s| - 1
    ensures forall j | 0 <= j < i :: r[j] == s[j]
    ensures forall j | i <= j < |r| :: r[j] == s[j + 1]
  {
    s[..i] + s[i + 1..]
  }

  lemma InsertMultiset<T>(s: seq<T>, i: nat, x: T)
    requires i <= |s|
    ensures multiset(Insert(s, i, x)) == multiset(s) + multiset{x}
  {
    assert s == s[..i] + s[i..];
  }

  lemma RemoveAtMultiset<T>(s: seq<T>, i: nat)
    requires i < |s|
    ensures multiset(RemoveAt(s, i)) == multiset(s) - multiset{s[i]}
  {
    assert s == s[..i] + [s[i]] + s[i + 1..];
  }

  lemma RemoveInsert<T>(s: seq<T>, i: nat, x: T)
    requires i <= |s|
    ensures RemoveAt(Insert(s, i, x), i) == s
  {
  }

  /** The binary search of CPython's `bisect_right`, on `s[lo..hi]`. */
  function Search<T>(lt: (T, T) -> bool, s: seq<T>, x: T, lo: nat, hi: nat): (r: nat)
    requires lo <= hi <= |s|
    ensures lo <= r <= hi
    decreases hi - lo
  {
    if lo < hi then
      var mid := (lo + hi) / 2;
      if lt(x, s[mid]) then Search(lt, s, x, lo, mid) else Search(lt, s, x, mid + 1, hi)
    else
      lo
  }

  /** `bisect.bisect(s, x)`: the insertion point to the right of every
      element `x` is not less than. */
  function BisectRight<T>(lt: (T, T) -> bool, s: seq<T>, x: T): (r: nat)
    ensures r <= |s|
  {
    Search(lt, s, x, 0, |s|)
  }

  lemma {:induction false} SearchCorrect<T(!new)>(lt: (T, T) -> bool, s: seq<T>, x: T, lo: nat, hi: nat)
    requires StrictWeakOrder(lt) && Sorted(lt, s)
    requires lo <= hi <= |s|
    requires forall i | 0 <= i < lo :: !lt(x, s[i])
    requires forall i | hi <= i < |s| :: lt(x, s[i])
    ensures forall i | 0 <= i < Search(lt, s, x, lo, hi) :: !lt(x, s[i])
    ensures forall i | Search(lt, s, x, lo, hi) <= i < |s| :: lt(x, s[i])
    decreases hi - lo
  {
    if lo < hi {
      var mid := (lo + hi) / 2;
      if lt(x, s[mid]) {
        forall i | mid <= i < |s| ensures lt(x, s[i]) {
          if i > mid {
            // s[i] is not below s[mid], so x < s[mid] gives x < s[i]
            assert !lt(s[i], s[mid]);
          }
        }
        SearchCorrect(lt, s, x, lo, mid);
      } else {
        forall i | 0 <= i <= mid ensures !lt(x, s[i]) {
          if i < mid {
            assert !lt(s[mid], s[i]);
          }
        }
        SearchCorrect(lt, s, x, mid + 1, hi);
      }
    }
  }

  /** On a sorted sequence, bisect-right returns the first position whose
      element `x` is strictly less than; everything before it is not
      greater than `x`. */
  lemma BisectRightCorrect<T(!new)>(lt: (T, T) -> bool, s: seq<T>, x: T)
    requires StrictWeakOrder(lt) && Sorted(lt, s)
    ensures forall i | 0 <= i < BisectRight(lt, s, x) :: !lt(x, s[i])
    ensures forall i | BisectRight(lt, s, x) <= i < |s| :: lt(x, s[i])
  {
    SearchCorrect(lt, s, x, 0, |s|);
  }

  /** `bisect.insort(s, x)` */
  function Insort<T>(lt: (T, T) -> bool, s: seq<T>, x: T): (r: seq<T>)
    ensures multiset(r) == multiset(s) + multiset{x}
  {
    InsertMultiset(s, BisectRight(lt, s, x), x);
    Insert(s, BisectRight(lt, s, x), x)
  }

  /** Inserting at the bisect-right position keeps a sorted sequence sorted. */
  lemma InsortSorted<T(!new)>(lt: (T, T) -> bool, s: seq<T>, x: T)
    requires StrictWeakOrder(lt) && Sorted(lt, s)
    ensures Sorted(lt, Insort(lt, s, x))
  {
    BisectRightCorrect(lt, s, x);
  }

  /** Where `bisect.insort` puts `x` in a sorted sequence: after every
      element it is not less than and before every element it is less than. */
  lemma InsortPlaces<T(!new)>(lt: (T, T) -> bool, s: seq<T>, x: T)
    requires StrictWeakOrder(lt) && Sorted(lt, s)
    ensures var r := Insort(lt, s, x); var p := BisectRight(lt, s, x);
      && r == Insert(s, p, x)
      && Sorted(lt, r)
      && (forall q | 0 <= q < p :: !lt(x, r[q]))
      && (forall q | p < q < |r| :: lt(x, r[q]))
  {
    BisectRightCorrect(lt, s, x);
    InsortSorted(lt, s, x);
  }

  /** `list.sort()`: stable; modelled as insertion sort, each element
      inserted to the right of the equal ones before it. */
  function SortSeq<T>(lt: (T, T) -> bool, s: seq<T>): (r: seq<T>)
    ensures multiset(r) == multiset(s)
    ensures |r| == |s|
    decreases |s|
  {
    if |s| == 0 then []
    else
      assert s == s[..|s| - 1] + [s[|s| - 1]];
      Insort(lt, SortSeq(lt, s[..|s| - 1]), s[|s| - 1])
  }

  lemma SortSeqSnoc<T>(lt: (T, T) -> bool, s: seq<T>, x: T)
    ensures SortSeq(lt, s + [x]) == Insort(lt, SortSeq(lt, s), x)
  {
    assert (s + [x])[..|s|] == s;
  }

  lemma SortSeqSameElements<T>(lt: (T, T) -> bool, s: seq<T>)
    ensures forall x :: x in SortSeq(lt, s) <==> x in s
  {
    var r := SortSeq(lt, s);
    forall x ensures x in r <==> x in s {
      assert x in r <==> x in multiset(r);
      assert x in s <==> x in multiset(s);
    }
  }

  lemma {:induction false} SortSeqSorted<T(!new)>(lt: (T, T) -> bool, s: seq<T>)
    requires StrictWeakOrder(lt)
    ensures Sorted(lt, SortSeq(lt, s))
    decreases |s|
  {
    if |s| > 0 {
      SortSeqSorted(lt, s[..|s| - 1]);
      InsortSorted(lt, SortSeq(lt, s[..|s| - 1]), s[|s| - 1]);
    }
  }

  /** The search stops at the boundary between the elements `x` is not
      below and those it is below, whatever the order is. */
  lemma {:induction false} SearchAt<T>(lt: (T, T) -> bool, s: seq<T>, x: T, lo: nat, hi: nat, p: nat)
    requires lo <= p <= hi <= |s|
    requires forall q | lo <= q < p :: !lt(x, s[q])
    requires forall q | p <= q < hi :: lt(x, s[q])
    ensures Search(lt, s, x, lo, hi) == p
    decreases hi - lo
  {
    if lo < hi {
      var mid := (lo + hi) / 2;
      if lt(x, s[mid]) {
        SearchAt(lt, s, x, lo, mid, p);
      } else {
        SearchAt(lt, s, x, mid + 1, hi, p);
      }
    }
  }

  /** Inserts the elements of `xs` one after the other with `Insort`. */
  function InsortAll<T>(lt: (T, T) -> bool, acc: seq<T>, xs: seq<T>): (r: seq<T>)
    ensures |r| == |acc| + |xs|
    decreases |xs|
  {
    if |xs| == 0 then acc
    else InsortAll(lt, Insort(lt, acc, xs[0]), xs[1..])
  }

  lemma SnocRest<T>(done: seq<T>, xs: seq<T>)
    requires |xs| > 0
    ensures done + [xs[0]] + xs[1..] == done + xs
  {
    assert xs == [xs[0]] + xs[1..];
  }

  /** Insertion-sorting more elements onto a sorted prefix is sorting the
      whole sequence. */
  lemma {:induction false} InsortAllSortSeq<T>(lt: (T, T) -> bool, done: seq<T>, xs: seq<T>)
    ensures InsortAll(lt, SortSeq(lt, done), xs) == SortSeq(lt, done + xs)
    decreases |xs|
  {
    if |xs| == 0 {
      assert done + xs == done;
    } else {
      var next := done + [xs[0]];
      SortSeqSnoc(lt, done, xs[0]);
      assert InsortAll(lt, SortSeq(lt, done), xs) == InsortAll(lt, SortSeq(lt, next), xs[1..]);
      InsortAllSortSeq(lt, next, xs[1..]);
      SnocRest(done, xs);
    }
  }

  /** Sorting an already sorted sequence moves nothing. */
  lemma {:induction false} SortSeqOfSorted<T>(lt: (T, T) -> bool, s: seq<T>)
    requires Sorted(lt, s)
    ensures SortSeq(lt, s) == s
    decreases |s|
  {
    if |s| > 0 {
      var n := |s| - 1;
      var t := s[..n];
      assert s == t + [s[n]];
      SortedPrefix(lt, s, n);
      SortSeqOfSorted(lt, t);
      SortSeqSnoc(lt, t, s[n]);
      assert forall q | 0 <= q < n :: !lt(s[n], t[q]);
      SearchAt(lt, t, s[n], 0, n, n);
      InsertLast(t, s[n]);
    }
  }

  lemma InsertRemoveAt<T>(s: seq<T>, i: nat)
    requires i < |s|
    ensures Insert(RemoveAt(s, i), i, s[i]) == s
  {
  }

  lemma InsertLast<T>(t: seq<T>, x: T)
    ensures Insert(t, |t|, x) == t + [x]
  {
  }

  lemma InsertNoDup<T>(s: seq<T>, i: nat, x: T)
    requires i <= |s| && NoDup(s) && x !in s
    ensures NoDup(Insert(s, i, x))
  {
    var r := Insert(s, i, x);
    forall a, b | 0 <= a < b < |r| ensures r[a] != r[b] {
      if a == i {
        assert r[b] == s[b - 1];
      } else if b == i {
        assert r[a] == s[a];
      }
    }
  }

  lemma {:induction false} SortSeqNoDup<T>(lt: (T, T) -> bool, s: seq<T>)
    requires NoDup(s)
    ensures NoDup(SortSeq(lt, s))
    decreases |s|
  {
    if |s| > 0 {
      NoDupLast(s);
      SortSeqNoDup(lt, s[..|s| - 1]);
      SortSeqLastNoDup(lt, s);
    }
  }

  /** The last step of `SortSeq` adds an element its prefix lacks. */
  lemma SortSeqLastNoDup<T>(lt: (T, T) -> bool, s: seq<T>)
    requires |s| > 0 && NoDup(SortSeq(lt, s[..|s| - 1]))
    requires s[|s| - 1] !in multiset(s[..|s| - 1])
    ensures NoDup(SortSeq(lt, s))
  {
    var t := SortSeq(lt, s[..|s| - 1]);
    var x := s[|s| - 1];
    assert x !in multiset(t);
    InsertNoDup(t, BisectRight(lt, t, x), x);
  }

  lemma NoDupLast<T>(s: seq<T>)
    requires NoDup(s) && |s| > 0
    ensures NoDup(s[..|s| - 1]) && s[|s| - 1] !in multiset(s[..|s| - 1])
  {
    assert s[|s| - 1] !in s[..|s| - 1];
  }

  /** Re-sorting a sorted sequence after one element changed value keeps
      every other element in its relative order: the result is the old
      sequence with the element moved (removed at `i`, inserted at `j`). */
  lemma ResortIsMove<T(!new)>(lt: (T, T) -> bool, s: seq<T>, i: nat, y: T) returns (j: nat)
    requires StrictWeakOrder(lt) && Sorted(lt, s) && i < |s|
    ensures j < |s|
    ensures SortSeq(lt, s[i := y]) == Insert(RemoveAt(s, i), j, y)
  {
    assert s[i := y] == s[..i] + [y] + s[i + 1..];
    assert Sorted(lt, s[..i] + s[i + 1..]);
    j := ResortAround(lt, s[..i], y, s[i + 1..]);
  }

  /** Sorting `pre + [y] + post`, where `pre + post` is already sorted,
      inserts `y` into `pre + post` and puts only elements not less than
      `y` after it. */
  lemma {:induction false} ResortAround<T(!new)>(lt: (T, T) -> bool, pre: seq<T>, y: T, post: seq<T>) returns (j: nat)
    requires StrictWeakOrder(lt) && Sorted(lt, pre + post)
    ensures j <= |pre + post|
    ensures SortSeq(lt, pre + [y] + post) == Insert(pre + post, j, y)
    ensures forall q | j <= q < |pre + post| :: !lt((pre + post)[q], y)
    decreases |post|
  {
    if |post| == 0 {
      assert pre + post == pre;
      assert pre + [y] + post == pre + [y];
      j := ResortAroundNil(lt, pre, y);
    } else {
      var n := |post| - 1;
      var x := post[n];
      var post0 := post[..n];
      var w0 := pre + post0;
      SortedSplitLast(lt, pre, post);
      var j0 := ResortAround(lt, pre, y, post0);
      if j0 < |w0| {
        NegativeTransitive(lt, x, w0[|w0| - 1], y);
      }
      j := ResortAroundSnoc(lt, pre, y, post0, x, w0, j0);
    }
  }

  lemma Asymmetric<T(!new)>(lt: (T, T) -> bool, a: T, b: T)
    requires StrictWeakOrder(lt) && lt(a, b)
    ensures !lt(b, a)
  {
  }

  lemma NegativeTransitive<T(!new)>(lt: (T, T) -> bool, a: T, b: T, c: T)
    requires StrictWeakOrder(lt) && !lt(a, b) && !lt(b, c)
    ensures !lt(a, c)
  {
  }

  /** Splitting the last element off the back of a sorted `pre + post`. */
  lemma SortedSplitLast<T>(lt: (T, T) -> bool, pre: seq<T>, post: seq<T>)
    requires Sorted(lt, pre + post) && |post| > 0
    ensures var n := |post| - 1;
      && post == post[..n] + [post[n]]
      && pre + post == (pre + post[..n]) + [post[n]]
      && Sorted(lt, pre + post[..n])
      && forall m | 0 <= m < |pre + post[..n]| :: !lt(post[n], (pre + post[..n])[m])
  {
    var n := |post| - 1;
    var w := pre + post;
    var w0 := pre + post[..n];
    assert post == post[..n] + [post[n]];
    assert w == w0 + [post[n]];
    forall a, b | 0 <= a < b < |w0| ensures !lt(w0[b], w0[a]) {
      assert w0[a] == w[a] && w0[b] == w[b];
    }
    forall m | 0 <= m < |w0| ensures !lt(post[n], w0[m]) {
      assert w0[m] == w[m] && post[n] == w[|w0|];
    }
  }

  /** Removing an element keeps a sorted sequence sorted. */
  lemma SortedRemoveAt<T>(lt: (T, T) -> bool, s: seq<T>, i: nat)
    requires Sorted(lt, s) && i < |s|
    ensures Sorted(lt, RemoveAt(s, i))
  {
    var r := RemoveAt(s, i);
    forall a, b | 0 <= a < b < |r| ensures !lt(r[b], r[a]) {
      var a' := if a < i then a else a + 1;
      var b' := if b < i then b else b + 1;
      assert r[a] == s[a'] && r[b] == s[b'];
    }
  }

  /** Removing an element keeps a duplicate-free sequence duplicate-free. */
  lemma NoDupRemoveAt<T>(s: seq<T>, i: nat)
    requires NoDup(s) && i < |s|
    ensures NoDup(RemoveAt(s, i))
  {
    var r := RemoveAt(s, i);
    forall a, b | 0 <= a < b < |r| ensures r[a] != r[b] {
      var a' := if a < i then a else a + 1;
      var b' := if b < i then b else b + 1;
      assert r[a] == s[a'] && r[b] == s[b'];
    }
  }

  lemma SortedPrefix<T>(lt: (T, T) -> bool, s: seq<T>, n: nat)
    requires Sorted(lt, s) && n <= |s|
    ensures Sorted(lt, s[..n])
  {
  }

  lemma ResortAroundNil<T(!new)>(lt: (T, T) -> bool, pre: seq<T>, y: T) returns (j: nat)
    requires StrictWeakOrder(lt) && Sorted(lt, pre)
    ensures j <= |pre|
    ensures SortSeq(lt, pre + [y]) == Insert(pre, j, y)
    ensures forall q | j <= q < |pre| :: !lt(pre[q], y)
  {
    SortSeqSnoc(lt, pre, y);
    SortSeqOfSorted(lt, pre);
    j := BisectRight(lt, pre, y);
    BisectRightCorrect(lt, pre, y);
    forall q | j <= q < |pre| ensures !lt(pre[q], y) {
      Asymmetric(lt, y, pre[q]);
    }
  }

  lemma ResortAroundSnoc<T>(lt: (T, T) -> bool, pre: seq<T>, y: T, post0: seq<T>, x: T, w0: seq<T>, j0: nat) returns (j: nat)
    requires w0 == pre + post0
    requires j0 <= |w0|
    requires SortSeq(lt, pre + [y] + post0) == Insert(w0, j0, y)
    requires forall q | j0 <= q < |w0| :: !lt(w0[q], y)
    requires forall m | 0 <= m < |w0| :: !lt(x, w0[m])
    requires j0 < |w0| ==> !lt(x, y)
    ensures j <= |w0| + 1
    ensures SortSeq(lt, pre + [y] + (post0 + [x])) == Insert(w0 + [x], j, y)
    ensures forall q | j <= q < |w0| + 1 :: !lt((w0 + [x])[q], y)
  {
    var v := pre + [y] + (post0 + [x]);
    var v0 := pre + [y] + post0;
    assert v == v0 + [x];
    SortSeqSnoc(lt, v0, x);
    j := InsortAfterMoved(lt, w0, j0, y, x);
  }

  /** One insertion-sort step past the moved element `y`: `x` is not below
      any other element, so it either lands at the end or, when `y` is last
      and greater than `x`, just before `y`. */
  lemma InsortAfterMoved<T>(lt: (T, T) -> bool, w0: seq<T>, j0: nat, y: T, x: T) returns (j: nat)
    requires j0 <= |w0|
    requires forall m | 0 <= m < |w0| :: !lt(x, w0[m])
    requires forall q | j0 <= q < |w0| :: !lt(w0[q], y)
    requires j0 < |w0| ==> !lt(x, y)
    ensures j <= |w0| + 1
    ensures Insort(lt, Insert(w0, j0, y), x) == Insert(w0 + [x], j, y)
    ensures forall q | j <= q < |w0| + 1 :: !lt((w0 + [x])[q], y)
  {
    if j0 < |w0| || !lt(x, y) {
      InsortAtEnd(lt, w0, j0, y, x);
      j := j0;
    } else {
      InsortBeforeLast(lt, w0, y, x);
      j := |w0| + 1;
    }
  }

  /** `x` goes after everything. */
  lemma InsortAtEnd<T>(lt: (T, T) -> bool, w0: seq<T>, j0: nat, y: T, x: T)
    requires j0 <= |w0|
    requires forall m | 0 <= m < |w0| :: !lt(x, w0[m])
    requires !lt(x, y)
    ensures Insort(lt, Insert(w0, j0, y), x) == Insert(w0 + [x], j0, y)
  {
    var t := Insert(w0, j0, y);
    forall q | 0 <= q < |t| ensures !lt(x, t[q]) {
      if q < j0 { assert t[q] == w0[q]; } else if q > j0 { assert t[q] == w0[q - 1]; }
    }
    SearchAt(lt, t, x, 0, |t|, |t|);
    var r := Insert(w0 + [x], j0, y);
    assert Insort(lt, t, x) == t + [x];
    forall q | 0 <= q < |r| ensures r[q] == (t + [x])[q] {
      if q < j0 { assert r[q] == w0[q]; } else if j0 < q < |t| { assert r[q] == w0[q - 1]; }
    }
  }

  /** `y` is last and above `x`: `x` goes just before `y`. */
  lemma InsortBeforeLast<T>(lt: (T, T) -> bool, w0: seq<T>, y: T, x: T)
    requires forall m | 0 <= m < |w0| :: !lt(x, w0[m])
    requires lt(x, y)
    ensures Insort(lt, Insert(w0, |w0|, y), x) == Insert(w0 + [x], |w0| + 1, y)
  {
    var t := Insert(w0, |w0|, y);
    InsertLast(w0, y);
    SearchAt(lt, t, x, 0, |t|, |w0|);
    InsertLast(w0, x);
    assert Insert(t, |w0|, x) == Insert(w0 + [x], |w0| + 1, y);
  }
}

=== FILE: qml_utils.dfy ===
/** The pure helpers of the QML side (src/qml/utils.js): the room filter,
    the thumbnail size tiers, the array-to-model conversion, the name hue,
    the message-type test and the HTML escape.
 */
module QmlUtils {
  import opened Text

  // filterMatches

  /** `t.indexOf(w) != -1`: `w` occurs in `t` at position `i`. */
  predicate OccursAt(t: string, w: string, i: int) {
    0 <= i && i + |w| <= |t| && t[i..i + |w|] == w
  }

  ghost predicate Contains(t: string, w: string) {
    exists i :: OccursAt(t, w, i)
  }

  /** `t.indexOf(w)`: the first position where `w` occurs, or -1. */
  method IndexOf(t: string, w: string) returns (r: int)
    ensures r == -1 <==> !Contains(t, w)
    ensures r != -1 ==> OccursAt(t, w, r) && forall j | 0 <= j < r :: !OccursAt(t, w, j)
  {
    if |w| > |t| {
      return -1;
    }
    var i := 0;
    while i <= |t| - |w|
      invariant 0 <= i <= |t| - |w| + 1
      invariant forall j | 0 <= j < i :: !OccursAt(t, w, j)
    {
      if t[i..i + |w|] == w {
        assert OccursAt(t, w, i);
        return i;
      }
      i := i + 1;
    }
    assert forall j :: !OccursAt(t, w, j) by {
      forall j ensures !OccursAt(t, w, j) {
        if 0 <= j && j + |w| <= |t| {
          assert j < i;
        }
      }
    }
    return -1;
  }

  /** `s.split(sep)` for a one-character separator: the pieces between the
      separators, empty pieces included. */
  function Split(s: string, sep: char): (r: seq<string>)
    ensures |r| > 0
    ensures forall i, j | 0 <= i < |r| && 0 <= j < |r[i]| :: r[i][j] != sep
    decreases |s|
  {
    if |s| == 0 then [""]
    else
      var rest := Split(s[1..], sep);
      if s[0] == sep then [""] + rest
      else [[s[0]] + rest[0]] + rest[1..]
  }

  /** `pieces.join(sep)`. */
  function JoinWith(pieces: seq<string>, sep: char): string
    requires |pieces| > 0
  {
    if |pieces| == 1 then pieces[0] else pieces[0] + [sep] + JoinWith(pieces[1..], sep)
  }

  /** Splitting loses nothing: joining the pieces gives the string back. */
  lemma {:induction false} SplitJoin(s: string, sep: char)
    ensures JoinWith(Split(s, sep), sep) == s
    decreases |s|
  {
    if |s| > 0 {
      var rest := Split(s[1..], sep);
      SplitJoin(s[1..], sep);
      if s[0] == sep {
        assert Split(s, sep)[1..] == rest;
      } else {
        var r := Split(s, sep);
        if |rest| == 1 {
          assert r == [[s[0]] + rest[0]];
        } else {
          assert r[1..] == rest[1..];
          assert JoinWith(r, sep) == [s[0]] + rest[0] + [sep] + JoinWith(rest[1..], sep);
        }
        assert s == [s[0]] + s[1..];
      }
    }
  }

  /** The specification of `filterMatches`: every non-empty word of the
      filter, case aside, occurs in the text. */
  ghost predicate Matches(filter: string, text: string) {
    var words := Split(Lower(filter), ' ');
    forall i | 0 <= i < |words| :: |words[i]| == 0 || Contains(Lower(text), words[i])
  }

  /** `filterMatches`: the loop over the filter's words. */
  method FilterMatches(filter: string, text: string) returns (r: bool)
    ensures r <==> Matches(filter, text)
  {
    var f := Lower(filter);
    var t := Lower(text);
    var words := Split(f, ' ');
    var i := 0;
    while i < |words|
      invariant 0 <= i <= |words|
      invariant forall j | 0 <= j < i :: |words[j]| == 0 || Contains(t, words[j])
    {
      if |words[i]| > 0 {
        var at := IndexOf(t, words[i]);
        if at == -1 {
          return false;
        }
      }
      i := i + 1;
    }
    return true;
  }

  /** An empty filter, or one of spaces only, matches every text. */
  lemma {:induction false} BlankFilterMatches(filter: string, text: string)
    requires forall i | 0 <= i < |filter| :: filter[i] == ' '
    ensures Matches(filter, text)
  {
    BlankWords(Lower(filter));
  }

  lemma {:induction false} BlankWords(s: string)
    requires forall i | 0 <= i < |s| :: s[i] == ' '
    ensures forall i | 0 <= i < |Split(s, ' ')| :: |Split(s, ' ')[i]| == 0
    decreases |s|
  {
    if |s| > 0 {
      BlankWords(s[1..]);
    }
  }

  /** A one-word filter matches exactly the texts that contain the word,
      case aside. */
  lemma OneWordFilter(word: string, text: string)
    requires |word| > 0 && forall i | 0 <= i < |word| :: word[i] != ' '
    ensures Matches(word, text) <==> Contains(Lower(text), Lower(word))
  {
    var w := Lower(word);
    forall i | 0 <= i < |w| ensures w[i] != ' ' {
      assert w[i] == LowerChar(word[i]);
    }
    OneWordSplit(w);
    var words := Split(w, ' ');
    assert words[0] == w && |words| == 1 && |w| > 0;
    if Contains(Lower(text), w) {
      assert forall i | 0 <= i < |words| :: |words[i]| == 0 || Contains(Lower(text), words[i]);
    }
  }

  lemma {:induction false} OneWordSplit(w: string)
    requires forall i | 0 <= i < |w| :: w[i] != ' '
    ensures Split(w, ' ') == [w]
    decreases |w|
  {
    if |w| > 0 {
      OneWordSplit(w[1..]);
      assert w == [w[0]] + w[1..];
    }
  }

  // thumbnailParametersFor

  datatype FillMode = PreserveAspectFit | PreserveAspectCrop

  datatype Thumbnail = Thumbnail(width: int, height: int, fillMode: FillMode)

  /** `thumbnailParametersFor`: the first thumbnail size (section
      "Thumbnails" of the Matrix Client-Server API content repository)
      the image is larger than, or the smallest. */
  function ThumbnailParametersFor(width: int, height: int): (r: Thumbnail)
    ensures r.fillMode == PreserveAspectCrop <==> width <= 96 && height <= 96
    ensures r != Thumbnail(800, 600, PreserveAspectFit) ==> width <= r.width && height <= r.height
    ensures width > 640 || height > 480 ==> r == Thumbnail(800, 600, PreserveAspectFit)
  {
    if width > 640 || height > 480 then Thumbnail(800, 600, PreserveAspectFit)
    else if width > 320 || height > 240 then Thumbnail(640, 480, PreserveAspectFit)
    else if width > 96 || height > 96 then Thumbnail(320, 240, PreserveAspectFit)
    else if width > 32 || height > 32 then Thumbnail(96, 96, PreserveAspectCrop)
    else Thumbnail(32, 32, PreserveAspectCrop)
  }

  /** A larger image never gets a smaller thumbnail. */
  lemma ThumbnailMonotone(w1: int, h1: int, w2: int, h2: int)
    requires w1 <= w2 && h1 <= h2
    ensures ThumbnailParametersFor(w1, h1).width <= ThumbnailParametersFor(w2, h2).width
    ensures ThumbnailParametersFor(w1, h1).height <= ThumbnailParametersFor(w2, h2).height
  {
  }

  /** The thumbnail chosen is the smallest tier that covers the image,
      when one does. */
  lemma ThumbnailSmallestCover(width: int, height: int, tw: int, th: int)
    requires (tw, th) in [(32, 32), (96, 96), (320, 240), (640, 480), (800, 600)]
    requires width <= tw && height <= th
    ensures ThumbnailParametersFor(width, height).width <= tw
    ensures ThumbnailParametersFor(width, height).height <= th
  {
  }

  // arrayToModelItem

  /** `arrayToModelItem`: one single-key object per element, in order. */
  method ArrayToModelItem<T>(keysName: string, values: seq<T>) returns (items: seq<map<string, T>>)
    ensures |items| == |values|
    ensures forall i | 0 <= i < |items| :: items[i].Keys == {keysName} && items[i][keysName] == values[i]
  {
    items := [];
    var i := 0;
    while i < |values|
      invariant 0 <= i <= |values| && |items| == i
      invariant forall j | 0 <= j < i :: items[j].Keys == {keysName} && items[j][keysName] == values[j]
    {
      var obj := map[keysName := values[i]];
      items := items + [obj];
      i := i + 1;
    }
  }

  /** Reading the key back out of every object. */
  function Column<T>(items: seq<map<string, T>>, key: string): seq<T>
    requires forall i | 0 <= i < |items| :: key in items[i]
  {
    seq(|items|, i requires 0 <= i < |items| => items[i][key])
  }

  /** Reading the key back out of the converted objects gives the array back. */
  method ArrayToModelItemRoundTrip<T>(keysName: string, values: seq<T>) returns (items: seq<map<string, T>>)
    ensures forall i | 0 <= i < |items| :: keysName in items[i]
    ensures Column(items, keysName) == values
  {
    items := ArrayToModelItem(keysName, values);
  }

  // hueFrom

  /** The UTF-16 code units `charCodeAt` reads for one character: the
      character itself inside the Basic Multilingual Plane, its surrogate
      pair above it. */
  function CodeUnits(c: char): (r: seq<int>)
    ensures c as int < 0x1_0000 ==> r == [c as int]
    ensures c as int >= 0x1_0000 ==>
      && |r| == 2
      && 0xD800 <= r[0] < 0xDC00 && 0xDC00 <= r[1] < 0xE000
      && (r[0] - 0xD800) * 0x400 + (r[1] - 0xDC00) + 0x1_0000 == c as int
  {
    var v := c as int;
    if v < 0x1_0000 then [v] else [0xD800 + (v - 0x1_0000) / 0x400, 0xDC00 + (v - 0x1_0000) % 0x400]
  }

  /** A JavaScript string: the UTF-16 code units of its characters. */
  function Utf16(s: string): (r: seq<int>)
    ensures |r| >= |s|
  {
    if |s| == 0 then [] else Utf16(s[..|s| - 1]) + CodeUnits(s[|s| - 1])
  }

  /** The sum the loop of `hueFrom` accumulates over code units `u`. */
  function UnitSum(u: seq<int>): int {
    if |u| == 0 then 0 else UnitSum(u[..|u| - 1]) + u[|u| - 1] * 99
  }

  /** The sum `hueFrom` accumulates for `s`: each UTF-16 code unit times 99. */
  function HueSum(s: string): int {
    UnitSum(Utf16(s))
  }

  /** `hueFrom` before the final division by 360: the loop over the code
      units, and the sum mod 360. */
  method HueDegrees(s: string) returns (r: int)
    ensures 0 <= r < 360
    ensures r == HueSum(s) % 360
  {
    var units := Utf16(s);
    var hue := 0;
    var i := 0;
    while i < |units|
      invariant 0 <= i <= |units|
      invariant hue == UnitSum(units[..i])
    {
      assert units[..i + 1][..i] == units[..i];
      hue := hue + units[i] * 99;
      i := i + 1;
    }
    assert units[..|units|] == units;
    return hue % 360;
  }

  lemma {:induction false} UnitSumConcat(a: seq<int>, b: seq<int>)
    ensures UnitSum(a + b) == UnitSum(a) + UnitSum(b)
    decreases |b|
  {
    if |b| > 0 {
      var b' := b[..|b| - 1];
      assert (a + b)[..|a + b| - 1] == a + b';
      UnitSumConcat(a, b');
    } else {
      assert a + b == a;
    }
  }

  lemma {:induction false} Utf16Concat(a: string, b: string)
    ensures Utf16(a + b) == Utf16(a) + Utf16(b)
    decreases |b|
  {
    if |b| > 0 {
      var b' := b[..|b| - 1];
      assert (a + b)[..|a + b| - 1] == a + b';
      Utf16Concat(a, b');
    } else {
      assert a + b == a;
    }
  }

  /** The hue adds up over concatenation, */
  lemma HueSumConcat(a: string, b: string)
    ensures HueSum(a + b) == HueSum(a) + HueSum(b)
  {
    Utf16Concat(a, b);
    UnitSumConcat(Utf16(a), Utf16(b));
  }

  /** so it depends only on which characters a name has, not their order. */
  lemma HueSwap(a: string, b: string)
    ensures HueSum(a + b) % 360 == HueSum(b + a) % 360
  {
    HueSumConcat(a, b);
    HueSumConcat(b, a);
  }

  /** A character outside the Basic Multilingual Plane counts as its two
      surrogates: U+1F600 adds 0xD83D and 0xDE00, 351 degrees, not the 288
      its code point would give. */
  lemma HueOfAstral()
    ensures Utf16("\U{1F600}") == [0xD83D, 0xDE00]
    ensures HueSum("\U{1F600}") % 360 == 351
  {
    assert "\U{1F600}"[..0] == "";
    var u: seq<int> := [0xD83D, 0xDE00];
    assert u[..1][..0] == [];
    assert UnitSum(u) == 0xD83D * 99 + 0xDE00 * 99;
  }

  // eventIsMessage

  const MessagePrefix: string := "RoomMessage"

  /** `/^RoomMessage($|[A-Z])/.test(eventType)`. */
  function EventIsMessage(eventType: string): (r: bool)
    ensures r ==> |eventType| >= |MessagePrefix| && eventType[..|MessagePrefix|] == MessagePrefix
  {
    var n := |MessagePrefix|;
    |eventType| >= n && eventType[..n] == MessagePrefix
    && (|eventType| == n || 'A' <= eventType[n] <= 'Z')
  }

  /** The message types are "RoomMessage" itself and "RoomMessage"
      followed by a capitalised word. */
  lemma EventIsMessageShape(eventType: string)
    ensures EventIsMessage(eventType) <==>
      exists suffix: string :: eventType == MessagePrefix + suffix && (|suffix| == 0 || 'A' <= suffix[0] <= 'Z')
  {
    var n := |MessagePrefix|;
    if EventIsMessage(eventType) {
      var suffix := eventType[n..];
      assert eventType == MessagePrefix + suffix;
    }
    if exists suffix: string :: eventType == MessagePrefix + suffix && (|suffix| == 0 || 'A' <= suffix[0] <= 'Z') {
      var suffix: string :| eventType == MessagePrefix + suffix && (|suffix| == 0 || 'A' <= suffix[0] <= 'Z');
      assert eventType[..n] == MessagePrefix;
      if |suffix| > 0 {
        assert eventType[n] == suffix[0];
      }
    }
  }

  lemma EventIsMessageExamples()
    ensures EventIsMessage("RoomMessageText")
    ensures EventIsMessage("RoomMessage")
    ensures !EventIsMessage("RoomMessages")
    ensures !EventIsMessage("RoomMember")
  {
    assert "RoomMessageText"[..11] == MessagePrefix;
    assert "RoomMessage"[..11] == MessagePrefix;
    assert "RoomMessages"[..11] == MessagePrefix;
    assert "RoomMember"[..] != MessagePrefix;
  }

  // escapeHtml

  /** `s.replace(c, rep)` with a string pattern: only the first occurrence
      is replaced. */
  function ReplaceFirst(s: string, c: char, rep: string): (r: string)
    ensures c !in s ==> r == s
  {
    if |s| == 0 then s
    else if s[0] == c then rep + s[1..]
    else [s[0]] + ReplaceFirst(s[1..], c, rep)
  }

  /** `escapeHtml` as written: each special character is replaced at its
      first occurrence only. */
  function EscapeHtmlFirstOnly(s: string): string {
    var a := ReplaceFirst(s, '&', "&amp;");
    var b := ReplaceFirst(a, '<', "&lt;");
    var c := ReplaceFirst(b, '>', "&gt;");
    var d := ReplaceFirst(c, '"', "&quot;");
    ReplaceFirst(d, '\'', "&#039;")
  }

  /** A second `<` survives the escape as written, so the result can
      still open a tag. */
  lemma EscapeHtmlFirstOnlyLeavesTag()
    ensures EscapeHtmlFirstOnly("<<") == "&lt;<"
    ensures '<' in EscapeHtmlFirstOnly("<<")
  {
    var b := ReplaceFirst("<<", '<', "&lt;");
    assert b == "&lt;<";
    assert '>' !in b && '"' !in b && '\'' !in b;
    assert b[4] == '<';
  }

  predicate Special(c: char) {
    c == '&' || c == '<' || c == '>' || c == '"' || c == '\''
  }

  /** The entity for one character, or the character itself. */
  function EscapeChar(c: char): (r: string)
    ensures |r| > 0
    ensures !Special(c) ==> r == [c]
    ensures Special(c) ==> r[0] == '&'
  {
    if c == '&' then "&amp;"
    else if c == '<' then "&lt;"
    else if c == '>' then "&gt;"
    else if c == '"' then "&quot;"
    else if c == '\'' then "&#039;"
    else [c]
  }

  /** `escapeHtml` as intended: every special character is replaced. */
  function EscapeHtml(s: string): (r: string)
    ensures forall i | 0 <= i < |r| :: r[i] != '<' && r[i] != '>' && r[i] != '"' && r[i] != '\''
  {
    if |s| == 0 then "" else EscapeChar(s[0]) + EscapeHtml(s[1..])
  }

  /** Decoding the five entities back to their characters. */
  function UnescapeHtml(s: string): string
    decreases |s|
  {
    if |s| == 0 then ""
    else if s[0] != '&' then [s[0]] + UnescapeHtml(s[1..])
    else if |s| >= 5 && s[..5] == "&amp;" then "&" + UnescapeHtml(s[5..])
    else if |s| >= 4 && s[..4] == "&lt;" then "<" + UnescapeHtml(s[4..])
    else if |s| >= 4 && s[..4] == "&gt;" then ">" + UnescapeHtml(s[4..])
    else if |s| >= 6 && s[..6] == "&quot;" then "\"" + UnescapeHtml(s[6..])
    else if |s| >= 6 && s[..6] == "&#039;" then "'" + UnescapeHtml(s[6..])
    else "&" + UnescapeHtml(s[1..])
  }

  lemma UnescapeChar(c: char, t: string)
    ensures UnescapeHtml(EscapeChar(c) + t) == [c] + UnescapeHtml(t)
  {
    var e := EscapeChar(c);
    var s := e + t;
    assert s[..|e|] == e && s[|e|..] == t;
    if !Special(c) {
      assert s[0] == c && s[1..] == t;
    } else if c != '&' {
      assert s[1] == e[1] && e[1] != 'a';
      if |s| >= 5 { assert s[..5][1] == s[1]; }
      if c != '<' {
        assert e[1] != 'l';
        if |s| >= 4 { assert s[..4][1] == s[1]; }
      }
      if c != '>' && c != '<' {
        assert e[1] != 'g';
      }
      if c == '\'' {
        assert e[1] == '#';
        if |s| >= 6 { assert s[..6][1] == s[1]; }
      }
    }
  }

  /** The escape loses nothing: decoding gives the text back. */
  lemma {:induction false} EscapeHtmlRoundTrip(s: string)
    ensures UnescapeHtml(EscapeHtml(s)) == s
    decreases |s|
  {
    if |s| > 0 {
      EscapeHtmlRoundTrip(s[1..]);
      UnescapeChar(s[0], EscapeHtml(s[1..]));
      assert s == [s[0]] + s[1..];
    }
  }

  /** On the text of the counterexample the intended escape leaves no `<`. */
  lemma EscapeHtmlEscapesAll()
    ensures EscapeHtml("<<b>>") == "&lt;&lt;b&gt;&gt;"
  {
  }

  // How far the escape as written gets

  /** How many times `d` occurs in `s`. */
  function Count(s: string, d: char): (r: nat)
    ensures r == 0 <==> d !in s
  {
    if |s| == 0 then 0 else (if s[0] == d then 1 else 0) + Count(s[1..], d)
  }

  lemma {:induction false} CountConcat(a: string, b: string, d: char)
    ensures Count(a + b, d) == Count(a, d) + Count(b, d)
    decreases |a|
  {
    if |a| == 0 {
      assert a + b == b;
    } else {
      assert (a + b)[0] == a[0] && (a + b)[1..] == a[1..] + b;
      CountConcat(a[1..], b, d);
    }
  }

  /** `s.replace(c, rep)` with a global pattern: every occurrence. */
  function ReplaceAll(s: string, c: char, rep: string): (r: string)
    ensures c !in s ==> r == s
  {
    if |s| == 0 then s
    else (if s[0] == c then rep else [s[0]]) + ReplaceAll(s[1..], c, rep)
  }

  lemma {:induction false} ReplaceAllConcat(a: string, b: string, c: char, rep: string)
    ensures ReplaceAll(a + b, c, rep) == ReplaceAll(a, c, rep) + ReplaceAll(b, c, rep)
    decreases |a|
  {
    if |a| == 0 {
      assert a + b == b;
    } else {
      assert (a + b)[0] == a[0] && (a + b)[1..] == a[1..] + b;
      ReplaceAllConcat(a[1..], b, c, rep);
    }
  }

  /** Replacing one character leaves the count of any character that is
      neither it nor part of the replacement. */
  lemma {:induction false} ReplaceAllCount(s: string, c: char, rep: string, d: char)
    requires d != c && d !in rep
    ensures Count(ReplaceAll(s, c, rep), d) == Count(s, d)
    decreases |s|
  {
    if |s| > 0 {
      ReplaceAllCount(s[1..], c, rep, d);
      assert s == [s[0]] + s[1..];
      CountConcat(if s[0] == c then rep else [s[0]], ReplaceAll(s[1..], c, rep), d);
    }
  }

  /** Where a character occurs at most once, replacing its first
      occurrence replaces them all. */
  lemma {:induction false} ReplaceFirstOnce(s: string, c: char, rep: string)
    requires Count(s, c) <= 1
    ensures ReplaceFirst(s, c, rep) == ReplaceAll(s, c, rep)
    decreases |s|
  {
    if |s| > 0 {
      assert s == [s[0]] + s[1..];
      if s[0] == c {
        assert c !in s[1..];
      } else {
        ReplaceFirstOnce(s[1..], c, rep);
      }
    }
  }

  /** Replacing the first occurrence removes exactly one of that character
      and leaves the count of any other that the replacement lacks. */
  lemma {:induction false} ReplaceFirstCount(s: string, c: char, rep: string, d: char)
    requires d !in rep
    ensures d != c ==> Count(ReplaceFirst(s, c, rep), d) == Count(s, d)
    ensures d == c && Count(s, c) > 0 ==> Count(ReplaceFirst(s, c, rep), c) == Count(s, c) - 1
    decreases |s|
  {
    if |s| > 0 {
      assert s == [s[0]] + s[1..];
      if s[0] != c {
        ReplaceFirstCount(s[1..], c, rep, d);
        CountConcat([s[0]], ReplaceFirst(s[1..], c, rep), d);
      } else {
        CountConcat(rep, s[1..], d);
      }
    }
  }

  /** The five global replacements, in the order of `escapeHtml`. */
  function ReplaceAllFive(s: string): string {
    var a := ReplaceAll(s, '&', "&amp;");
    var b := ReplaceAll(a, '<', "&lt;");
    var c := ReplaceAll(b, '>', "&gt;");
    var d := ReplaceAll(c, '"', "&quot;");
    ReplaceAll(d, '\'', "&#039;")
  }

  lemma ReplaceAllFiveConcat(x: string, t: string)
    ensures ReplaceAllFive(x + t) == ReplaceAllFive(x) + ReplaceAllFive(t)
  {
    ReplaceAllConcat(x, t, '&', "&amp;");
    var a1, a2 := ReplaceAll(x, '&', "&amp;"), ReplaceAll(t, '&', "&amp;");
    ReplaceAllConcat(a1, a2, '<', "&lt;");
    var b1, b2 := ReplaceAll(a1, '<', "&lt;"), ReplaceAll(a2, '<', "&lt;");
    ReplaceAllConcat(b1, b2, '>', "&gt;");
    var c1, c2 := ReplaceAll(b1, '>', "&gt;"), ReplaceAll(b2, '>', "&gt;");
    ReplaceAllConcat(c1, c2, '"', "&quot;");
    var d1, d2 := ReplaceAll(c1, '"', "&quot;"), ReplaceAll(c2, '"', "&quot;");
    ReplaceAllConcat(d1, d2, '\'', "&#039;");
  }

  lemma ReplaceAllOne(x: char, c: char, rep: string)
    ensures ReplaceAll([x], c, rep) == if x == c then rep else [x]
  {
    assert [x][1..] == [];
  }

  /** Five stages on one character, with the replacements left abstract:
      the character's own replacement survives the later stages as long
      as it holds none of their characters. */
  lemma ReplaceAllFiveStages(x: char, r1: string, r2: string, r3: string, r4: string, r5: string)
    requires '<' !in r1 && '>' !in r1 && '"' !in r1 && '\'' !in r1
    requires '>' !in r2 && '"' !in r2 && '\'' !in r2
    requires '"' !in r3 && '\'' !in r3
    requires '\'' !in r4
    ensures ReplaceAll(ReplaceAll(ReplaceAll(ReplaceAll(ReplaceAll([x], '&', r1), '<', r2), '>', r3), '"', r4), '\'', r5)
      == if x == '&' then r1 else if x == '<' then r2 else if x == '>' then r3
         else if x == '"' then r4 else if x == '\'' then r5 else [x]
  {
    ReplaceAllOne(x, '&', r1);
    ReplaceAllOne(x, '<', r2);
    ReplaceAllOne(x, '>', r3);
    ReplaceAllOne(x, '"', r4);
    ReplaceAllOne(x, '\'', r5);
  }

  /** A single character: the five stages together give its entity. */
  lemma ReplaceAllFiveChar(x: char)
    ensures ReplaceAllFive([x]) == EscapeChar(x)
  {
    ReplaceAllFiveStages(x, "&amp;", "&lt;", "&gt;", "&quot;", "&#039;");
  }

  /** Applied to every occurrence, the five replacements are the intended
      escape. */
  lemma {:induction false} ReplaceAllFiveEscapes(s: string)
    ensures ReplaceAllFive(s) == EscapeHtml(s)
    decreases |s|
  {
    if |s| > 0 {
      assert s == [s[0]] + s[1..];
      ReplaceAllFiveConcat([s[0]], s[1..]);
      ReplaceAllFiveChar(s[0]);
      ReplaceAllFiveEscapes(s[1..]);
    }
  }

  /** One stage of the escape as written on text where the character
      occurs at most once: the same as a global replacement. */
  lemma FirstIsAll(s: string, c: char, rep: string) returns (t: string)
    requires Count(s, c) <= 1
    ensures t == ReplaceFirst(s, c, rep) && t == ReplaceAll(s, c, rep)
  {
    ReplaceFirstOnce(s, c, rep);
    t := ReplaceAll(s, c, rep);
  }

  /** At most one of each special character. */
  predicate NoSpecialRepeats(s: string) {
    Count(s, '&') <= 1 && Count(s, '<') <= 1 && Count(s, '>') <= 1
      && Count(s, '"') <= 1 && Count(s, '\'') <= 1
  }

  /** The five stages with the replacements left abstract: on text where
      no stage's character repeats, and no replacement brings in a later
      stage's character, first-only and global replacement agree. */
  lemma FirstOnlyStages(s: string, r1: string, r2: string, r3: string, r4: string, r5: string)
    requires NoSpecialRepeats(s)
    requires '<' !in r1 && '>' !in r1 && '"' !in r1 && '\'' !in r1
    requires '>' !in r2 && '"' !in r2 && '\'' !in r2
    requires '"' !in r3 && '\'' !in r3
    requires '\'' !in r4
    ensures ReplaceFirst(ReplaceFirst(ReplaceFirst(ReplaceFirst(ReplaceFirst(s, '&', r1), '<', r2), '>', r3), '"', r4), '\'', r5)
      == ReplaceAll(ReplaceAll(ReplaceAll(ReplaceAll(ReplaceAll(s, '&', r1), '<', r2), '>', r3), '"', r4), '\'', r5)
  {
    var a := FirstIsAll(s, '&', r1);
    ReplaceAllCount(s, '&', r1, '<');
    var b := FirstIsAll(a, '<', r2);
    ReplaceAllCount(s, '&', r1, '>');
    ReplaceAllCount(a, '<', r2, '>');
    var c := FirstIsAll(b, '>', r3);
    ReplaceAllCount(s, '&', r1, '"');
    ReplaceAllCount(a, '<', r2, '"');
    ReplaceAllCount(b, '>', r3, '"');
    var d := FirstIsAll(c, '"', r4);
    ReplaceAllCount(s, '&', r1, '\'');
    ReplaceAllCount(a, '<', r2, '\'');
    ReplaceAllCount(b, '>', r3, '\'');
    ReplaceAllCount(c, '"', r4, '\'');
    var e := FirstIsAll(d, '\'', r5);
  }

  /** The escape as written is right on text where no special character
      repeats. */
  lemma EscapeHtmlFirstOnlyOnce(s: string)
    requires NoSpecialRepeats(s)
    ensures EscapeHtmlFirstOnly(s) == EscapeHtml(s)
  {
    FirstOnlyStages(s, "&amp;", "&lt;", "&gt;", "&quot;", "&#039;");
    ReplaceAllFiveEscapes(s);
  }

  /** One stage of the escape as written, seen from a character the
      replacement lacks: it loses one occurrence if it is the stage's own
      character, and keeps its count otherwise. */
  lemma FirstStage(s: string, c: char, rep: string, x: char) returns (t: string)
    requires x !in rep
    ensures t == ReplaceFirst(s, c, rep)
    ensures Count(t, x) == if x == c && Count(s, x) > 0 then Count(s, x) - 1 else Count(s, x)
  {
    t := ReplaceFirst(s, c, rep);
    ReplaceFirstCount(s, c, rep, x);
  }

  /** The five first-only stages with the replacements left abstract, seen
      from a character none of them brings in. */
  lemma FirstOnlyStagesCount(s: string, x: char, r1: string, r2: string, r3: string, r4: string, r5: string) returns (t: string)
    requires x != '&' && x !in r1 && x !in r2 && x !in r3 && x !in r4 && x !in r5
    ensures t == ReplaceFirst(ReplaceFirst(ReplaceFirst(ReplaceFirst(ReplaceFirst(s, '&', r1), '<', r2), '>', r3), '"', r4), '\'', r5)
    ensures Count(t, x) == if (x == '<' || x == '>' || x == '"' || x == '\'') && Count(s, x) > 0 then Count(s, x) - 1 else Count(s, x)
  {
    var a := FirstStage(s, '&', r1, x);
    var b := FirstStage(a, '<', r2, x);
    var c := FirstStage(b, '>', r3, x);
    var d := FirstStage(c, '"', r4, x);
    t := FirstStage(d, '\'', r5, x);
    CountChain(x, Count(s, x), Count(a, x), Count(b, x), Count(c, x), Count(d, x), Count(t, x));
  }

  /** The counts through the five stages, as arithmetic. */
  lemma CountChain(x: char, n0: nat, n1: nat, n2: nat, n3: nat, n4: nat, n5: nat)
    requires x != '&' && n1 == n0
    requires n2 == if x == '<' && n1 > 0 then n1 - 1 else n1
    requires n3 == if x == '>' && n2 > 0 then n2 - 1 else n2
    requires n4 == if x == '"' && n3 > 0 then n3 - 1 else n3
    requires n5 == if x == '\'' && n4 > 0 then n4 - 1 else n4
    ensures n5 == if (x == '<' || x == '>' || x == '"' || x == '\'') && n0 > 0 then n0 - 1 else n0
  {
  }

  /** The escape as written removes one occurrence of each of `<`, `>`,
      `"` and `'`, and leaves the rest: any of them that appears twice is
      still in the output. */
  lemma EscapeHtmlFirstOnlyCounts(s: string, x: char)
    requires x == '<' || x == '>' || x == '"' || x == '\''
    ensures Count(EscapeHtmlFirstOnly(s), x) == if Count(s, x) > 0 then Count(s, x) - 1 else 0
  {
    var t := FirstOnlyStagesCount(s, x, "&amp;", "&lt;", "&gt;", "&quot;", "&#039;");
  }
}

=== FILE: text.dfy ===
/** The Python string operations the item orders are built from:
    `str < str`, `str.lower()`, and the `name or fallback` idiom.
 */
module Text {

  /** Python's `a < b` on `str`: lexicographic by code point, a proper
      prefix being the smaller. */
  predicate LexLess(a: string, b: string)
    decreases |a|
  {
    if |b| == 0 then false
    else if |a| == 0 then true
    else if a[0] != b[0] then a[0] < b[0]
    else LexLess(a[1..], b[1..])
  }

  lemma {:induction false} LexIrreflexive(a: string)
    ensures !LexLess(a, a)
    decreases |a|
  {
    if |a| > 0 {
      LexIrreflexive(a[1..]);
    }
  }

  lemma {:induction false} LexTransitive(a: string, b: string, c: string)
    requires LexLess(a, b) && LexLess(b, c)
    ensures LexLess(a, c)
    decreases |a|
  {
    if |a| > 0 && a[0] == b[0] && b[0] == c[0] {
      LexTransitive(a[1..], b[1..], c[1..]);
    }
  }

  /** Two different strings are ordered one way or the other. */
  lemma {:induction false} LexTotal(a: string, b: string)
    requires a != b
    ensures LexLess(a, b) || LexLess(b, a)
    decreases |a|
  {
    if |a| > 0 && |b| > 0 && a[0] == b[0] {
      assert a == [a[0]] + a[1..] && b == [b[0]] + b[1..];
      LexTotal(a[1..], b[1..]);
    }
  }

  lemma LexAsymmetric(a: string, b: string)
    requires LexLess(a, b)
    ensures !LexLess(b, a)
  {
    if LexLess(b, a) {
      LexTransitive(a, b, a);
      LexIrreflexive(a);
    }
  }

  /** `LexLess` is a strict total order on strings. */
  lemma LexOrder()
    ensures forall a :: !LexLess(a, a)
    ensures forall a, b, c | LexLess(a, b) && LexLess(b, c) :: LexLess(a, c)
    ensures forall a, b | a != b :: LexLess(a, b) || LexLess(b, a)
  {
    forall a ensures !LexLess(a, a) {
      LexIrreflexive(a);
    }
    forall a, b, c | LexLess(a, b) && LexLess(b, c) ensures LexLess(a, c) {
      LexTransitive(a, b, c);
    }
    forall a, b | a != b ensures LexLess(a, b) || LexLess(b, a) {
      LexTotal(a, b);
    }
  }

  /** `str.lower()` on one character, for the ASCII letters. */
  function LowerChar(c: char): (r: char)
    ensures 'A' <= c <= 'Z' ==> 'a' <= r <= 'z' && r as int - c as int == 32
    ensures !('A' <= c <= 'Z') ==> r == c
  {
    if 'A' <= c <= 'Z' then (c as int + 32) as char else c
  }

  /** `str.lower()`, for the ASCII letters. */
  function Lower(s: string): (r: string)
    ensures |r| == |s| && forall i | 0 <= i < |s| :: r[i] == LowerChar(s[i])
  {
    seq(|s|, i requires 0 <= i < |s| => LowerChar(s[i]))
  }

  /** A lowered string has no upper-case ASCII letter left, so lowering
      twice is lowering once. */
  lemma LowerIdempotent(s: string)
    ensures Lower(Lower(s)) == Lower(s)
  {
    var once := Lower(s);
    forall i | 0 <= i < |s| ensures Lower(once)[i] == once[i] {
      assert !('A' <= once[i] <= 'Z');
    }
  }

  /** `name or fallback`: an empty string is falsy. */
  function Or(name: string, fallback: string): (r: string)
    ensures |name| > 0 ==> r == name
    ensures |name| == 0 ==> r == fallback
  {
    if |name| > 0 then name else fallback
  }

  /** `s[1:]`: everything after the first character (the "@" of a Matrix
      user id), and the empty string for the empty string. */
  function DropFirst(s: string): (r: string)
    ensures |s| > 0 ==> r == s[1..] && |r| == |s| - 1
    ensures |s| == 0 ==> r == ""
  {
    if |s| > 0 then s[1..] else ""
  }
}

=== FILE: wrappers.dfy ===
/** Failure-carrying datatypes shared by every module of the model.

    The modelled program is written in Python and reports failures by
    raising exceptions; each operation that can raise returns a `Result`
    whose `Failure` names the exception class it would have raised.
 */
module Wrappers {

  /** Python's `None` versus a present value. */
  datatype Option<+T> = None | Some(value: T)

  /** The built-in exception classes the modelled code can raise. */
  datatype Exception =
    | KeyError
    | ValueError
    | TypeError
    | AttributeError
    | NotImplementedError

  /** Either the value an operation returns or the exception it raises. */
  datatype Result<+R> = Success(value: R) | Failure(error: Exception) {

    predicate IsFailure() {
      Failure?
    }

    function PropagateFailure<U>(): Result<U>
      requires Failure?
    {
      Failure(error)
    }

    function Extract(): R
      requires Success?
    {
      value
    }
  }
}
